=== FILE: README.md ===
# Scams-Plus-Bot in Dafny

A model of the rule-bearing core of a Telegram group bot, with proofs about it.
The bot has six parts, and each is one or two Dafny modules here.

- **Result-polling job tracker** (`work_module.py`).
  - `Responses` reads a job id and a status out of a loosely shaped provider answer.
  - `Submission` builds the `/searchdata` form from `key=value` tokens, checks the required keys and arms the first poll.
  - `JobStore` is the `pending_jobs` table as a map, with its four writers and readers.
  - `Poller` is one firing of `poll_job`, runs of firings for one job, and `bender_resume_pending`.
  - Scheduling is reduced to "armed with delay d". Messages and table writes are reported as ordered effects.
- **Credit ledger** (`credits_module.py`). `Credits` is the `user_credits` table as a map, plus the argument checks of `/credit`.
- **User and onboarding store** (`db.py`). `UserDb` holds the `user_ranks` and `onboarding` tables as maps.
- **Rank and topic access.**
  - `Topics` is the constant data of `utils/constants.py` and the name table of `bot.py`.
  - `Guards` holds the four topic guards and the violation counter with its mute threshold.
  - `Ranks` holds the rank commands of `bot.py` (in memory) and `handlers/rank.py` (in the database), the onboarding buttons and the join handler.
- **Admin login** (`handlers/auth.py`, `handlers/onboarding.py`, `handlers/admin.py`). `Auth` models the per-user flags `awaiting_admin_password` and `admin_authenticated` and the set `logged_in_admins`.
- **String helpers** (`utils/helpers.py`). `Helpers` holds `extract_username` and the MarkdownV2 escaper.

Support modules:

- `Wrappers` provides `Option`.
- `Json` is a decoded JSON value with Python truthiness, `dict.get` and `str()`.
- `PyStr` holds the Python string operations the bot relies on: `strip` over the `str.isspace` set, `lstrip`, ASCII `upper`/`lower`/`capitalize`, `replace`, `int()` parsing and `str()` of integers.

Telegram calls (reply, delete, restrict, DM) become reply labels or guard verdicts. The clock, the provider call and `shlex.split` are parameters.

## Model

| member | source | states |
|---|---|---|
| PyStr.Strip | work_module.py:164 | `str.strip()`: the result is the input with a whitespace run cut from each end, has no edge whitespace left, and a text without whitespace is unchanged |
| PyStr.TrimmedIsUnique | work_module.py:164 | only one cut of edge whitespace leaves none at either end, so the contract of `strip()` determines its result |
| PyStr.Upper | work_module.py:133 | `str.upper()`: same length, no lower-case ASCII letter left, every other character unchanged |
| PyStr.Capitalize | bot.py:203 | `str.capitalize()`: same length, the first character upper-cased and every later character lower-cased |
| PyStr.CapitalizeIsIdempotent | bot.py:203 | capitalizing a capitalized text changes nothing |
| PyStr.CapitalizeKeepsLowerForm | bot.py:203 | capitalizing changes only case: the lower-case forms of input and output agree |
| PyStr.ParseInt | credits_module.py:68-82 | `int(s)`: whatever it accepts is, once stripped, non-empty, holds a digit and has only digits and underscores after an optional sign; a negative result comes from a leading "-"; any non-empty run of ASCII digits is accepted as a non-negative number; a text starting with "@" is refused |
| PyStr.NoDigitIsNotAnInteger | credits_module.py:68 | a text without a single digit always makes `int()` raise |
| PyStr.ParseIntOfIntToStr | credits_module.py:82 | `int(str(n)) == n` for every integer, negative ones included |
| PyStr.ArabicIndicDigitsParse | credits_module.py:68 | `int()` reads the decimal digits of every script, not only ASCII: "١٠" is 10 |
| Json.Get | work_module.py:119 | `dict.get` on a decoded object: `None` exactly when no member has the key, otherwise the value of the last member with that key |
| Json.LaterMemberWins | work_module.py:119 | a member added at the end overrides earlier ones of its name and hides no other name |
| Json.Str | work_module.py:120 | `str(v)` of a truthy value is never empty; a string is its own `str`, an integer gives its decimal form, and `None`, `True` and `False` give their names |
| Responses.Envelope | work_module.py:116-117 | a response is read from the object itself or from the first element of a non-empty list whose head is an object, and from nothing else |
| Responses.ExtractSearchId | work_module.py:115-126 | `None` exactly when no probe (the four id keys at top level, then under `data`) holds a truthy value; otherwise the non-empty `str()` of the first such value |
| Responses.StatusFromResult | work_module.py:128-139 | the same rule over the four status keys; the status is upper-cased, so it holds no lower-case letter |
| Responses.LookupIsFirstHit | work_module.py:118-125 | the two nested loops of the source return exactly the first truthy probe, top level before `data` |
| Responses.ListWrapperIsTransparent | work_module.py:116 | `[obj, ...]` reads exactly like `obj` for both the id and the status |
| Responses.BadShapeYieldsNothing | work_module.py:117 | scalars, empty lists and lists whose head is not an object give no id and no status |
| Responses.ResultKeyIsNotSearched | work_module.py:121-122 | only `data` is looked into: an id nested under `result` is not found |
| Responses.NestedIdIsFound | work_module.py:121-125 | `{"data": {"id": 100}}` gives the id "100" |
| Responses.FalsyValuesAreSkipped | work_module.py:118-120 | "" under `search_id` and 0 under `id` are skipped in key order, and `ref` wins |
| Responses.StatusIsUpperCased | work_module.py:133 | `{"status": "complete"}` reads as "COMPLETE" |
| JobStore.FreshRow | work_module.py:43 | the inserted row is at attempt 0, not done, with no status and no check time |
| JobStore.AddPending | work_module.py:39-46 | insert-or-replace: the id is present at attempt 0 and not done, and every other row is unchanged |
| JobStore.MarkAttempt | work_module.py:48-55 | only the named row's attempt, status and check time change, the check time to now; `done`, chat and creation time never change; an unknown id is a no-op |
| JobStore.MarkDone | work_module.py:57-63 | the named row becomes done with the given status and keeps its attempt, chat, creation and check times; other rows are unchanged |
| JobStore.GetPending | work_module.py:65-73 | exactly the rows whose `done` is 0, unchanged |
| JobStore.OnlyMarkDoneSetsDone | work_module.py:60 | of the three writers, only `db_mark_done` on that id can turn a row done |
| JobStore.DoneIsKeptUnlessReAdded | work_module.py:43 | a done row stays done under every write except a new insert of the same id |
| JobStore.DoneNeedsMarkDone | work_module.py:39-63 | over any sequence of writes, a row that ends done was marked done by one of them |
| JobStore.ReAddRevivesDoneRow | work_module.py:43 | inserting a finished id again makes it pending again, at attempt 0 |
| Poller.Finish | work_module.py:219-224 | an ending sends exactly one message, then marks the row done, and does not re-arm |
| Poller.PollJob | work_module.py:204-247 | a firing ends the job exactly when the answer holds a final status or this is the last slot; it then sends one message and marks the row done with the provider status, ERROR or TIMEOUT; otherwise it re-arms once at the next slot's delay and marks nothing done; the stored attempt is the slot just polled; other rows are unchanged. The re-arm is the corrected half of the line-247 finding |
| Poller.PollAnswered | work_module.py:211-224 | an answered poll records the attempt first; a non-empty status outside the pending set then notifies and marks done with that status |
| Poller.PollRaised | work_module.py:225-233 | a raised poll records nothing; on the last slot it notifies and marks ERROR, otherwise it falls through to the reschedule with the table untouched |
| Poller.RunPolls | work_module.py:235-247 | consecutive firings of one job: the table keeps its keys and a job still armed has consumed every firing |
| Poller.RunStaysInSchedule | work_module.py:236-246 | along a run the slot goes up by one per firing, never passes 5, and the delay is that slot's entry of `POLL_INTERVALS` |
| Poller.RunEndsWithinSchedule | work_module.py:236-243 | whatever the provider does, a job at slot a ends within 6 - a firings |
| Poller.RunNotifiesOnce | work_module.py:216-243 | a run sends a message exactly when it ends the job, and then exactly one |
| Poller.AlwaysPendingTimesOut | work_module.py:236-243 | a job that is always pending stays armed for fewer than 6 - a firings and times out on exactly the (6 - a)-th; from slot 0 that is six polls |
| Poller.AlwaysFailingErrorsOnLastSlot | work_module.py:225-243 | a job whose every poll raises stays silent until its last slot, then sends one failure message and is marked ERROR |
| Poller.Clamp | work_module.py:254 | `max(0, min(attempt, 5))`: in range values are kept, others move to the nearer end |
| Poller.Resume | work_module.py:250-261 | one armed task per row that is not done and none for a done row, at the stored attempt clamped into the schedule, with that slot's delay |
| Poller.RestartRepeatsPolledSlot | work_module.py:214 | after a pending answer the live job moves to the next slot, but a restart at that point re-arms the slot just polled |
| Poller.PendingAnswerKeepsWaiting | work_module.py:20 | `{"status": "PENDING"}` polls as the pending status "PENDING" |
| Poller.ResumeFromSlotFourTimesOut | work_module.py:250-261 | a row resumed at attempt 4 waits 60 s, is re-armed at 120 s by a pending answer, and times out on the next one |
| Poller.PollJobAsWritten | work_module.py:235-247 | as written, the re-arm raises: a firing that should re-arm leaves nothing armed, sends nothing and marks nothing done, keeping the attempt it recorded |
| Poller.PendingNeverTimesOutAsWritten | work_module.py:235-261 | as written, a job the provider keeps reporting as pending is polled once per process start at its stored slot, stays at that slot and is never marked done, however many starts there are |
| Poller.FirstPendingFiringStrandsJobAsWritten | work_module.py:245-247 | as written, a fresh job's first pending answer records attempt 0 and leaves the job unarmed, where the intended schedule re-arms it |
| Submission.SplitToken | work_module.py:162-164 | a token without "=" is skipped; otherwise it is cut at its first "=" and both halves are stripped |
| Submission.FormOf | work_module.py:159-164 | the form holds `search_type` and exactly the keys some token set; each holds the value of the last token for it; `search_type` is 22 unless a token overrides it |
| Submission.BuildForm | work_module.py:159-164 | the same statement phrased over the raw tokens |
| Submission.MissingAmong | work_module.py:166 | a key is reported missing exactly when it is required and absent or empty in the form; the missing keys come in the order of `required`, as a subsequence of it |
| Submission.SearchData | work_module.py:141-187 | a job is stored and its first poll armed, at attempt 0 and 5 s, exactly when the arguments pass every check and an id was found in the answer; otherwise the table is untouched; missing keys are reported in order |
| Submission.TokenWithoutEqualsIsIgnored | work_module.py:162 | adding a token without "=" never changes the form |
| Submission.SplitsAtFirstEquals | work_module.py:163 | "city=a=b" sets `city` to "a=b" |
| Submission.EmptyValueIsMissing | work_module.py:166 | a required key whose last value is "" counts as missing |
| Credits.GetCredits | credits_module.py:21-25 | the stored balance, 0 for a user without a row |
| Credits.AddCredits | credits_module.py:27-35 | upsert: the new balance is the old one (0 if absent) plus the amount, it is returned, the username is overwritten, other users are unchanged |
| Credits.ChargeCredits | credits_module.py:37-46 | succeeds exactly when the balance covers the amount; a refusal changes nothing; a success lowers an existing balance by exactly the amount and never creates a row |
| Credits.MyBalance | credits_module.py:49-54 | the caller's balance and the lookup cost of 1 |
| Credits.CreditCmd | credits_module.py:58-88 | no message: nothing; a caller other than the credit admin: refused and nothing changes; the admin: the outcome of the argument checks |
| Credits.AdminCredit | credits_module.py:63-88 | arguments that fail a check leave the ledger unchanged and get the first failing check's reply; valid ones add the amount to the numeric target |
| Credits.BadAmountIsExactlyNotAnInteger | credits_module.py:66-71 | the admin gets "Amount must be an integer" exactly when `int()` refuses the amount, and then no balance moves |
| Credits.AmountWithoutDigitIsRefused | credits_module.py:66-71 | an amount without a digit, such as "ten", is refused and moves no balance |
| Credits.OnlyValidCreditMovesLedger | credits_module.py:58-88 | no balance moves unless the caller is the admin and both arguments are valid, and then the target moves by exactly the amount |
| Credits.AddThenChargeRestores | credits_module.py:27-46 | adding then charging the same non-negative amount succeeds and restores the balance |
| Credits.ChargeKeepsBalanceNonNegative | credits_module.py:42-46 | with a non-negative amount a successful charge never leaves a negative balance |
| Credits.ZeroChargeOnUnknownUser | credits_module.py:39-46 | a zero charge for a user without a row succeeds and creates no row |
| Credits.UsernameTargetIsRefused | credits_module.py:75-79 | an `@name` target never moves a balance, whatever the amount |
| Credits.NumericTargetIsCredited | credits_module.py:81-87 | a numeric target written by `str()` receives exactly the amount |
| UserDb.CreateUserIfNotExists | db.py:31-40 | a new user gets a row at "Lookout"; an existing row and every other row are left alone |
| UserDb.SetUserRank | db.py:42-47 | only an existing row's rank changes; an unknown user is a no-op |
| UserDb.GetUserRank | db.py:49-55 | `None` exactly when the user has no row, otherwise the stored rank |
| UserDb.UpdateOnboarding | db.py:57-76 | the first call inserts "" for every falsy argument; later calls overwrite exactly the truthy arguments' columns; other rows and the rank table are unchanged |
| UserDb.GetOnboardingSummary | db.py:78-98 | `None` exactly without a rank row; the onboarding fields are all `None` exactly without an onboarding row (left join) |
| UserDb.CreateIsIdempotent | db.py:35-39 | creating a user twice is the same as creating it once |
| UserDb.RankReadsBackAfterCreate | db.py:31-55 | after a create the rank reads back, as "Lookout" for a new user and as the last rank set after a set |
| UserDb.RankSetBeforeCreateIsLost | db.py:45 | a rank set before the row exists is lost, and the later create gives "Lookout" |
| UserDb.SeparateAnswersCommute | db.py:67-73 | two one-field updates give the same row in either order |
| UserDb.SummaryAfterFirstUpdate | db.py:64-66 | after the first update the summary shows the answer and "" for the fields never answered |
| Topics.RanksAreStrictlyNested | utils/constants.py:46-90 | Lookout ⊂ Runner ⊂ Closer ⊂ Inner Circle strictly, with 7, 8, 10 and 11 topics |
| Topics.TableIds | utils/constants.py:46-90 | the id lists of the four lower ranks, written out through `topic_name_to_id` |
| Topics.InnerCircleEqualsOgMember | utils/constants.py:78-103 | "Inner Circle" and "OG Member" grant the same topics |
| Topics.TopicIdsAreDistinct | utils/constants.py:32-44 | no two topic names share an id |
| Topics.GrantedTopicsAreKnown | utils/constants.py:46-104 | every id a rank grants is the id of a named topic |
| Topics.OgMembersHasNoEntry | utils/constants.py:14-22 | the default rank has a table entry, but the valid rank "OG Members" has none and so grants no topic |
| Topics.TableRanksAreKeys | utils/constants.py:46-104 | the ranks of the table are exactly its five keys |
| Topics.BotTableMatchesIdTable | bot.py:33-39 | the name table of `bot.py` has the same ranks as the id table and maps, rank by rank, to the same ids |
| Guards.IncrementViolation | handlers/topic_guard.py:14-18 | an absent user starts at 1, a present one goes up by 1, nobody else changes |
| Guards.RepeatCounts | handlers/topic_guard.py:14-18 | n violations add exactly n to the user's count and leave every other count alone |
| Guards.RankOr | handlers/rank.py:52-57 | `get_user_rank(uid) or "Lookout"`, with a failed lookup also read as "Lookout" |
| Guards.Violate | handlers/rank.py:63-111 | a violation counts once, then mutes exactly when the new count is at least 3 |
| Guards.RankGuard | handlers/rank.py:26-115 | skips the wrong chat, a missing thread, a missing user and bots; lets the admin through; otherwise removes the post exactly when its thread is not in the rank's list (an unknown rank allows nothing), counting once and muting at 3 |
| Guards.ThreadGuard | handlers/topic_guard.py:21-85 | the guard keyed by the user's id, the corrected half of the line-28 finding: skips without a message, in the wrong chat or without a thread; otherwise a violation exactly when the thread is not in the rank's list, counted once and muted at 3 |
| Guards.ThreadGuardAsWritten | handlers/topic_guard.py:21-31 | as written, every message past the early return raises in the rank lookup, before any count or verdict; the others are skipped with the counts unchanged |
| Guards.ThreadGuardNeverActsAsWritten | handlers/topic_guard.py:25-36 | as written, the guard raises on exactly the messages the id-keyed guard judges, and agrees with it on the rest |
| Guards.ThreadGuardRunAsWritten | handlers/topic_guard.py:28-36 | as written, no sequence of messages ever changes a violation count |
| Guards.OnboardingGuard | handlers/onboarding.py:129-153 | skips without a message or with a falsy thread id; otherwise allows exactly the posts in the rank's list; a post outside it is deleted only when the reply and the DM both went out, and kept otherwise, warned exactly when the reply went out; never mutes |
| Guards.NoPrivateChatKeepsPost | handlers/onboarding.py:140-153 | a member the DM cannot reach keeps a forbidden post after the in-topic warning; with both sends it is deleted |
| Guards.BotRank | bot.py:160 | the in-memory rank, "Lookout" when absent |
| Guards.BotGuard | bot.py:155-175 | corrected half of the bot.py:168 finding, with the topic's title as an input: skips the wrong chat and messages outside a topic; otherwise removes a post exactly when its title ("" when missing) is not among the cumulative names of the rank |
| Guards.BotGuardAsWritten | bot.py:155-168 | as written, every message past the early return raises reading `message_thread_title`; the others are skipped |
| Guards.BotGuardNeverRemovesAsWritten | bot.py:155-170 | as written, the guard raises on exactly the messages the title-reading guard judges, agrees with it elsewhere, and keeps the untitled topic post that guard removes |
| Guards.UnknownRankGetsEverything | bot.py:163-166 | a rank missing from the table walks the whole table and is allowed every listed topic |
| Guards.KnownRankStopsAtItsEntry | bot.py:163-166 | for a listed rank the allowed names are the lists up to and including its entry |
| Guards.CumulativeIsOwnList | bot.py:33-39 | because the lists are nested, a listed rank is allowed exactly its own list |
| Guards.MissingTitleIsRemoved | bot.py:168-170 | corrected half of the bot.py:168 finding: a topic message without a title is removed whatever the rank |
| Guards.CountingGuardsAgree | handlers/rank.py:26-115 | the `handlers/rank.py` and `handlers/topic_guard.py` guards agree on a non-admin human in the group whose lookup succeeds |
| Guards.ThirdViolationMutes | handlers/rank.py:106-108 | the third violation in a row is the first that mutes |
| Guards.OnboardingGuardIgnoresChat | handlers/onboarding.py:129-139 | the onboarding guard acts outside the group, where the `handlers/rank.py` guard returns early |
| Ranks.TopRanksUnreachableAsWritten | bot.py:203 | no argument capitalizes to "Inner Circle" or "OG Member" |
| Ranks.InnerCircleRequestLocksOutAsWritten | handlers/rank.py:161 | asking for "inner" stores "Inner", which has no table entry and grants no topic |
| Ranks.MatchRank | bot.py:203 | corrected half of the bot.py:203 finding, where the source stores `args[1].capitalize()`: the first table rank spelled by the argument ignoring case, or `None` exactly when there is none |
| Ranks.AssignedRank | bot.py:203 | corrected half of the bot.py:203 finding, where the source stores `args[1].capitalize()`: the rank words that spell a table rank ignoring case store that table rank; other words store their capitalization |
| Ranks.SpelledRankIsAssigned | bot.py:203 | corrected half of the bot.py:203 finding, where the source stores `args[1].capitalize()`: any spelling of a table rank, in any case, stores that rank |
| Ranks.EveryRankIsAssignable | bot.py:203 | corrected half of the bot.py:203 finding, where the source stores `args[1].capitalize()`: every table rank can be assigned, by its exact name or in lower case |
| Ranks.TwoWordRankIsAssignable | bot.py:199-203 | corrected half of the bot.py:203 finding, where the source stores "Inner": "inner circle" given as two words stores "Inner Circle" |
| Ranks.Put | bot.py:98 | `memory[user] = entry`: a known key keeps its place, a new one goes last |
| Ranks.ButtonHandler | bot.py:74-152 | `learn_` replaces the whole entry; `exp_` and `target_` set one field of an existing entry and fail without one; `target_` stores the interest before the summary; other callbacks change nothing; other users are unchanged |
| Ranks.ClassifyByPrefix | bot.py:79-140 | the three prefixes each select their own branch |
| Ranks.OnboardingInOrderCompletes | bot.py:96-152 | answering the three questions in order ends in the summary |
| Ranks.RelearningForgetsAnswers | bot.py:96-102 | a second `learn_` answer drops the experience and interest given before |
| Ranks.FirstNamed | bot.py:204 | the first user, in insertion order, whose entry has the username; `None` exactly when nobody has it |
| Ranks.BotAssign | bot.py:196-210 | nothing changes unless the caller is the admin, there are two arguments and the named user is found; then that user's entry, and nothing else, is set to the given rank |
| Ranks.BotAssignRank | bot.py:196-210 | as written: the found user's rank becomes `args[1].capitalize()`, the first rank word only; no call ever stores "Inner Circle" or "OG Member" |
| Ranks.BotAssignRankIntended | bot.py:196-210 | corrected half of the bot.py:203 finding: the found user gets the table rank all the rank words spell; every other case is as written |
| Ranks.InnerCircleAssignmentDiffers | bot.py:203 | `/assignrank @bob inner circle` stores "Inner", a rank with no topics, as written, and "Inner Circle" as intended |
| Ranks.BotDemote | bot.py:213-226 | only the admin demoting a found, ranked user changes the map, and then only that entry is removed |
| Ranks.BotMyRank | bot.py:229-232 | the stored rank, or "❌ Unranked" |
| Ranks.BotDemoteThenUnranked | bot.py:219-231 | after a demote the user reads back as unranked |
| Ranks.DbAssign | handlers/rank.py:147-172 | nothing changes unless the caller is the admin, there are two arguments and the lookup found a truthy id; then that row's rank is set to the given rank |
| Ranks.DbAssignRank | handlers/rank.py:147-172 | as written: a found row's rank becomes `args[1].capitalize()`; no row is ever changed to "Inner Circle" or "OG Member" |
| Ranks.DbAssignRankIntended | handlers/rank.py:147-172 | corrected half of the bot.py:203 finding for the database command: a found row gets the table rank the rank words spell |
| Ranks.InnerCircleDbAssignmentDiffers | handlers/rank.py:161 | the same command against the database reads back "Inner" as written and "Inner Circle" as intended |
| Ranks.DbDemote | handlers/rank.py:175-199 | a found user's rank becomes "Lookout" and the row is kept |
| Ranks.DbMyRank | handlers/rank.py:202-207 | the stored rank, or "❌ Unranked" without a row |
| Ranks.DbDemoteThenLookout | handlers/rank.py:188-206 | unlike the in-memory demote, the user reads back "Lookout" |
| Ranks.ChatMemberUpdate | handlers/onboarding.py:21-29 | a chat-member update outside the group is ignored; any update in the group (a join, but also a leave, a kick or a promotion) is exactly a create, the rank always reads back, as "Lookout" for a new user |
| Auth.LogIn | handlers/onboarding.py:96-99 | the user joins the set, is authenticated and no longer awaiting; nobody else changes |
| Auth.PrivateMessage | handlers/onboarding.py:85-106 | an authenticated user changes nothing; while awaiting, the stripped right password logs in and a wrong one changes nothing; otherwise the user is now awaiting |
| Auth.PasswordHandler | handlers/auth.py:9-20 | nothing without the awaiting flag; the unstripped right password logs in; a wrong one changes nothing |
| Auth.Logout | handlers/auth.py:23-30 | a user in the set leaves it and loses the authenticated flag; anyone else changes nothing; the awaiting flag is never touched |
| Auth.AdminPanel | handlers/admin.py:10-27 | a group chat changes nothing, with a refusal exactly for non-admins; in private a logged-in or authenticated user sees the panel and anyone else is now awaiting |
| Auth.PrivateMessageKeepsConsistency | handlers/onboarding.py:96-98 | the private-message path keeps set membership and the authenticated flag in step |
| Auth.PasswordHandlerKeepsConsistency | handlers/auth.py:14-17 | the password handler keeps them in step |
| Auth.LogoutKeepsConsistency | handlers/auth.py:25-27 | logout keeps them in step |
| Auth.AdminPanelKeepsConsistency | handlers/admin.py:23-27 | the admin panel keeps them in step |
| Auth.LoginLogoutRoundTrip | handlers/auth.py:14-27 | logging in and out gives back the original set of admins, unauthenticated |
| Auth.PaddedPasswordOnlyWorksInPrivateMessage | handlers/onboarding.py:88 | a password with a leading space logs in through the private-message path but not through the password handler |
| Auth.LogoutDoesNotCancelAsWritten | handlers/onboarding.py:102 | a user awaiting the password who sends `/logout` is told they are not logged in, and their next message is still a wrong password |
| Auth.CancellingLogout | handlers/auth.py:23-30 | clears both flags, removes the user from the set, changes nobody else |
| Auth.CancelledLoginStartsOver | handlers/onboarding.py:102-106 | after the cancelling logout the next message asks for the password again, and consistency is kept |
| Auth.AdminCallback | handlers/admin.py:47-77 | a callback is unknown exactly when it is not one of the eight panel buttons |
| Auth.CallbacksAreDistinguished | handlers/admin.py:52-74 | different panel buttons give different replies |
| Helpers.ExtractUsername | utils/helpers.py:10-12 | the text without its leading `@`s, cut at both ends by whitespace runs until no edge whitespace is left; for text without whitespace exactly the text without its leading `@`s |
| Helpers.HandleGivesName | utils/helpers.py:10-12 | `@name` gives back `name` |
| Helpers.PaddedHandleGivesName | utils/helpers.py:10-12 | `@`, whitespace, a name and whitespace give back exactly the name |
| Helpers.FormatMarkdown | utils/helpers.py:14-19 | the loop of replaces equals escaping each character on its own: a backslash before every reserved character, backslash first |
| Helpers.EscapeStep | utils/helpers.py:17-18 | each replace extends the escape by one more reserved character |
| Helpers.ReplaceExtendsEscape | utils/helpers.py:18 | replacing a new character on top of an escape is the escape of one more character, since the backslashes already inserted are not touched |
| Helpers.UnescapeInvertsFormat | utils/helpers.py:14-19 | dropping the backslash before each escaped character gives back the input |
| Helpers.EscapeLength | utils/helpers.py:14-19 | the output is the input length plus the number of reserved characters |
| Helpers.PlainTextIsUnchanged | utils/helpers.py:14-19 | a text without reserved characters is left as it is |

## Left out

- The HTTP layer (`_post`, headers, timeouts) is left out. A poll or submission takes the decoded answer, or the fact that the call raised. `_post` makes a single attempt, so there is no retry to model.
- Exceptions raised by anything other than the provider call are left out: table writes, `json.dumps` and Telegram sends. In `poll_job` such an exception would also land in the `except` branch.
- `balance_cmd`, `checkresult_cmd` and the result message text are left out: they are formatting, truncation and floating point only.
- Telegram replies, deletes, DMs, keyboards and restricts are labels or verdicts. In `handlers/onboarding.py` the reply and the DM come before the delete in one `try`, so `Guards.OnboardingGuard` takes whether each was sent and keeps the post when one failed. Elsewhere each call has its own `try`, so a failure is logged and changes nothing else; a failing delete is not modelled.
- `send_dm` and the stored-message cleanup in `handlers/rank.py` are I/O only.
- The job queue: `run_once` becomes "armed with delay d". `job.schedule_removal()` and concurrent firings of the same job are left out. Line 247 calls `run_once` on the job itself, which raises; `Poller.PollJobAsWritten` models that, and `Poller.PollJob` the intended re-arm (see the Findings).
- `shlex.split` and `json.loads` are library calls. The model starts from the token list (`None` when splitting raised) and from the decoded value.
- JSON floating-point numbers are left out. `str()` of a list or object is rendered without Python's choice of quotes and escapes.
- Case mapping covers the ASCII letters only; other letters keep their case. Whitespace is the full `str.isspace` set, and digits for `int()` are the decimal digits (category Nd) of Unicode 15.0.
- Identifiers and the admin ids are taken at their default values; the environment can override them.
- The username lookup of `handlers/rank.py` is a parameter, because `get_user_id_by_username` is not defined in `db.py`. Its violation counter is the one of `handlers/topic_guard.py`; `utils/helpers.py` does not define one.
- `handlers/topic_guard.py` passes the user object, not its id (line 28). `Guards.ThreadGuardAsWritten` models the consequence and `Guards.ThreadGuard` keys the counter and the lookup by the id (see the Findings). Which exception `sqlite3` raises is not modelled, only that the handler stops.
- The admin password is an `Option<string>` parameter. `handlers/auth.py` imports it from a `constants` module that does not exist; `utils/constants.py` reads it from the environment.
- The `rank` column is never written as NULL by the bot, so it is a plain string. Integers are unbounded rather than 64-bit SQLite integers.
- `Credits.CreditCmd`: its own contract only routes to `Credits.AdminCredit`, which, with `Credits.OnlyValidCreditMovesLedger`, carries the argument checks.
- `is_admin` (utils/helpers.py) is only a comparison with the owner id, so it has no member of its own; the owner checks compare with `Topics.ADMIN_ID` directly.
- The credit command's admin id defaults to 0, not to the bot owner's id, so by default nobody is the credit admin. This is modelled as written.
- `VALID_RANKS` lists "OG Members" while both tables say "OG Member". This is modelled as written, and `Topics.OgMembersHasNoEntry` states the consequence.
- Welcome messages, `/promoteme`, the reply forwarder, `/start` and the log and status commands send text only and are left out.
- Files that do not parse or only wire handlers are left out: `handlers/ranks.py`, `handlers/setup.py`, `handlers/general.py`, `main.py`, `web/webhook.py`, `utils/files.py` and `utils/time.py`.

## Findings

| source | as written | input that shows it | evidently intended | confidence | as-written member | corrected member |
|---|---|---|---|---|---|---|
| bot.py:203 | `/assignrank` stores `args[1].capitalize()`. It keeps only the first rank word and lower-cases every later letter. The same line is in handlers/rank.py:161 | `/assignrank @bob Inner Circle` stores "Inner"; no argument can store "Inner Circle" or "OG Member" | store the table rank the words name, matched ignoring case | high; not executed | Ranks.BotAssignRank, Ranks.DbAssignRank, Ranks.TopRanksUnreachableAsWritten, Ranks.InnerCircleAssignmentDiffers | Ranks.BotAssignRankIntended, Ranks.DbAssignRankIntended, Ranks.EveryRankIsAssignable |
| handlers/onboarding.py:102 | the wrong-password reply offers `/logout` to cancel, but `logout_command` only acts on users in `logged_in_admins`, and a user awaiting the password is not in it | in private: any text, a wrong password, `/logout`, then any text. The last text is still read as a wrong password | `/logout` also clears the awaiting flag, so the next message starts over | medium; not executed | Auth.LogoutDoesNotCancelAsWritten | Auth.CancellingLogout, Auth.CancelledLoginStartsOver |
| work_module.py:247 | the re-arm calls `job.run_once(...)`, but the job object has no `run_once`; the `JobQueue` has it. The line is outside the `try`, so it raises `AttributeError` and nothing is re-armed | submit a search whose provider keeps answering "PENDING": the first poll records attempt 0 and the job is never polled again until the process restarts, and then again once at slot 0. It never times out | `context.job_queue.run_once(...)`, so the job moves through the six slots and times out | high; not executed | Poller.PollJobAsWritten, Poller.PendingNeverTimesOutAsWritten, Poller.FirstPendingFiringStrandsJobAsWritten | Poller.PollJob, Poller.AlwaysPendingTimesOut, Poller.RunEndsWithinSchedule |
| bot.py:168 | `topic_name = update.message.message_thread_title or ""` reads an attribute a Telegram message does not have, so it raises `AttributeError`. Even a `None` there would give "", which no rank allows | any message in a topic of the group: the handler raises before the delete and the warning, so no post is ever removed | read the title of the message's topic | medium; not executed | Guards.BotGuardAsWritten, Guards.BotGuardNeverRemovesAsWritten | Guards.BotGuard, Guards.MissingTitleIsRemoved, Guards.CumulativeIsOwnList |
| handlers/topic_guard.py:28 | `uid = update.effective_user` is the user object, and `get_user_rank(uid)` binds it as an SQL parameter, which `sqlite3` refuses | any message in a topic of the group: the handler raises before counting, deleting or muting | `uid = update.effective_user.id` | high; not executed | Guards.ThreadGuardAsWritten, Guards.ThreadGuardNeverActsAsWritten, Guards.ThreadGuardRunAsWritten | Guards.ThreadGuard, Guards.CountingGuardsAgree, Guards.ThirdViolationMutes |

=== FILE: auth.dfy ===
/**
 * Admin login: the per-user flags `awaiting_admin_password` and
 * `admin_authenticated` (PTB's `context.user_data`) and the process-wide
 * set `logged_in_admins`, driven by handlers/auth.py, the private-message
 * handler of handlers/onboarding.py and `admin_panel` of handlers/admin.py.
 */
module Auth {
  import opened Wrappers
  import PyStr
  import Topics

  /** A flag never set reads as false, as `user_data.get(...)` does. */
  datatype Flags = Flags(awaiting: bool, authenticated: bool)

  datatype AuthState = AuthState(flags: map<int, Flags>, admins: set<int>)

  function FlagsOf(st: AuthState, user: int): (f: Flags)
    ensures user !in st.flags ==> f == Flags(false, false)
  {
    if user in st.flags then st.flags[user] else Flags(false, false)
  }

  /** `text == ADMIN_PASSWORD`; an unset password (`None`) matches no text. */
  predicate Matches(text: string, password: Option<string>) {
    password.Some? && text == password.value
  }

  /** The successful login both password paths perform. */
  function LogIn(st: AuthState, user: int): (st': AuthState)
    ensures st'.admins == st.admins + {user}
    ensures FlagsOf(st', user) == Flags(false, true)
    ensures forall u :: u != user ==> FlagsOf(st', u) == FlagsOf(st, u)
  {
    AuthState(st.flags[user := Flags(false, true)], st.admins + {user})
  }

  datatype AuthReply =
    | AlreadyIn
    | Granted
    | WrongPassword
    | AskPassword
    | LoggedOut
    | NotLoggedIn
    | NotAuthorized
    | UsePrivateChat
    | ShowPanel
    | NoReply

  datatype AuthStep = AuthStep(state: AuthState, reply: AuthReply)

  /**
   * handlers/onboarding.py `handle_private_message`: the text is stripped; an
   * authenticated user changes nothing; while awaiting, only the right
   * password logs in and a wrong one changes nothing; otherwise the user is
   * now awaiting a password.
   */
  function PrivateMessage(st: AuthState, user: int, text: string, password: Option<string>): (s: AuthStep)
    ensures FlagsOf(st, user).authenticated ==> s == AuthStep(st, AlreadyIn)
    ensures !FlagsOf(st, user).authenticated && FlagsOf(st, user).awaiting ==>
      if Matches(PyStr.Strip(text), password) then s == AuthStep(LogIn(st, user), Granted)
      else s == AuthStep(st, WrongPassword)
    ensures !FlagsOf(st, user).authenticated && !FlagsOf(st, user).awaiting ==>
      s.state == AuthState(st.flags[user := FlagsOf(st, user).(awaiting := true)], st.admins)
      && s.reply == AskPassword
  {
    var f := FlagsOf(st, user);
    if f.authenticated then AuthStep(st, AlreadyIn)
    else if f.awaiting then
      if Matches(PyStr.Strip(text), password) then AuthStep(LogIn(st, user), Granted)
      else AuthStep(st, WrongPassword)
    else AuthStep(AuthState(st.flags[user := f.(awaiting := true)], st.admins), AskPassword)
  }

  /**
   * handlers/auth.py `admin_password_handler`: acts only while awaiting, and
   * compares the text as sent, without stripping.
   */
  function PasswordHandler(st: AuthState, user: int, text: string, password: Option<string>): (s: AuthStep)
    ensures !FlagsOf(st, user).awaiting ==> s == AuthStep(st, NoReply)
    ensures FlagsOf(st, user).awaiting && Matches(text, password) ==> s == AuthStep(LogIn(st, user), Granted)
    ensures FlagsOf(st, user).awaiting && !Matches(text, password) ==> s == AuthStep(st, WrongPassword)
  {
    if !FlagsOf(st, user).awaiting then AuthStep(st, NoReply)
    else if Matches(text, password) then AuthStep(LogIn(st, user), Granted)
    else AuthStep(st, WrongPassword)
  }

  /**
   * handlers/auth.py `logout_command`: a logged-in admin leaves the set and
   * loses `admin_authenticated`; the awaiting flag is never touched.
   */
  function Logout(st: AuthState, user: int): (s: AuthStep)
    ensures user in st.admins ==>
      s.state.admins == st.admins - {user}
      && FlagsOf(s.state, user) == FlagsOf(st, user).(authenticated := false)
      && s.reply == LoggedOut
    ensures user !in st.admins ==> s == AuthStep(st, NotLoggedIn)
    ensures forall u :: u != user ==> FlagsOf(s.state, u) == FlagsOf(st, u)
    ensures FlagsOf(s.state, user).awaiting == FlagsOf(st, user).awaiting
  {
    if user in st.admins then
      AuthStep(AuthState(st.flags[user := FlagsOf(st, user).(authenticated := false)], st.admins - {user}), LoggedOut)
    else AuthStep(st, NotLoggedIn)
  }

  /**
   * The wrong-password reply of the private-message path offers `/logout` to
   * cancel, but a user who is only awaiting is not in the set: the logout
   * refuses and the next message is still taken as a password attempt.
   */
  lemma LogoutDoesNotCancelAsWritten(st: AuthState, user: int, text: string, password: Option<string>)
    requires user !in st.admins
    requires FlagsOf(st, user).awaiting && !FlagsOf(st, user).authenticated
    requires !Matches(PyStr.Strip(text), password)
    ensures Logout(st, user).reply == NotLoggedIn
    ensures PrivateMessage(Logout(st, user).state, user, text, password).reply == WrongPassword
  {
  }

  /**
   * `/logout` as the prompt promises it: it also clears the awaiting flag,
   * and otherwise does what `logout_command` does.
   */
  function CancellingLogout(st: AuthState, user: int): (s: AuthStep)
    ensures !FlagsOf(s.state, user).awaiting && !FlagsOf(s.state, user).authenticated
    ensures s.state.admins == st.admins - {user}
    ensures forall u :: u != user ==> FlagsOf(s.state, u) == FlagsOf(st, u)
    ensures s.reply == (if user in st.admins then LoggedOut else NotLoggedIn)
  {
    var f := Flags(false, false);
    AuthStep(AuthState(st.flags[user := f], st.admins - {user}), if user in st.admins then LoggedOut else NotLoggedIn)
  }

  /** After the cancelling logout the next private message starts a fresh prompt, and consistency is kept. */
  lemma CancelledLoginStartsOver(st: AuthState, user: int, text: string, password: Option<string>)
    requires Consistent(st)
    ensures Consistent(CancellingLogout(st, user).state)
    ensures PrivateMessage(CancellingLogout(st, user).state, user, text, password).reply == AskPassword
  {
    ConsistentAfterLocalChange(st, CancellingLogout(st, user).state, user);
  }

  /** Chat types `admin_panel` treats as a group. */
  predicate IsGroupChat(chatType: string) {
    chatType == "group" || chatType == "supergroup"
  }

  /**
   * handlers/admin.py `admin_panel`: in a group nothing changes (the admin is
   * told to use a private chat, anyone else is refused); in private a
   * logged-in or authenticated user sees the panel and anyone else is now
   * awaiting a password.
   */
  function AdminPanel(st: AuthState, user: int, chatType: string): (s: AuthStep)
    ensures IsGroupChat(chatType) ==> s.state == st
    ensures IsGroupChat(chatType) ==> (s.reply == NotAuthorized <==> user != Topics.ADMIN_ID)
    ensures !IsGroupChat(chatType) && (user in st.admins || FlagsOf(st, user).authenticated) ==>
      s == AuthStep(st, ShowPanel)
    ensures !IsGroupChat(chatType) && !(user in st.admins || FlagsOf(st, user).authenticated) ==>
      s.state.admins == st.admins && FlagsOf(s.state, user).awaiting
      && FlagsOf(s.state, user).authenticated == FlagsOf(st, user).authenticated
      && (forall u :: u != user ==> FlagsOf(s.state, u) == FlagsOf(st, u))
      && s.reply == AskPassword
  {
    if IsGroupChat(chatType) then
      if user != Topics.ADMIN_ID then AuthStep(st, NotAuthorized) else AuthStep(st, UsePrivateChat)
    else if user in st.admins || FlagsOf(st, user).authenticated then AuthStep(st, ShowPanel)
    else AuthStep(AuthState(st.flags[user := FlagsOf(st, user).(awaiting := true)], st.admins), AskPassword)
  }

  /** Membership of the set and the authenticated flag go together. */
  ghost predicate Consistent(st: AuthState) {
    forall u :: u in st.admins <==> FlagsOf(st, u).authenticated
  }

  /** A change confined to one user keeps consistency when that user's entry is consistent. */
  lemma ConsistentAfterLocalChange(st: AuthState, st': AuthState, user: int)
    requires Consistent(st)
    requires forall u :: u != user ==> FlagsOf(st', u) == FlagsOf(st, u)
    requires forall u :: u != user ==> (u in st'.admins <==> u in st.admins)
    requires user in st'.admins <==> FlagsOf(st', user).authenticated
    ensures Consistent(st')
  {
    forall u ensures u in st'.admins <==> FlagsOf(st', u).authenticated {
      if u != user {
        assert FlagsOf(st', u) == FlagsOf(st, u);
      }
    }
  }

  /** Every transition keeps the set and the flags in step. */
  lemma PrivateMessageKeepsConsistency(st: AuthState, user: int, text: string, password: Option<string>)
    requires Consistent(st)
    ensures Consistent(PrivateMessage(st, user, text, password).state)
  {
    ConsistentAfterLocalChange(st, PrivateMessage(st, user, text, password).state, user);
  }

  lemma PasswordHandlerKeepsConsistency(st: AuthState, user: int, text: string, password: Option<string>)
    requires Consistent(st)
    ensures Consistent(PasswordHandler(st, user, text, password).state)
  {
    ConsistentAfterLocalChange(st, PasswordHandler(st, user, text, password).state, user);
  }

  lemma LogoutKeepsConsistency(st: AuthState, user: int)
    requires Consistent(st)
    ensures Consistent(Logout(st, user).state)
  {
    ConsistentAfterLocalChange(st, Logout(st, user).state, user);
  }

  lemma AdminPanelKeepsConsistency(st: AuthState, user: int, chatType: string)
    requires Consistent(st)
    ensures Consistent(AdminPanel(st, user, chatType).state)
  {
    ConsistentAfterLocalChange(st, AdminPanel(st, user, chatType).state, user);
  }

  /** Logging in and out again gives back the set of admins one started with. */
  lemma LoginLogoutRoundTrip(st: AuthState, user: int, password: string)
    requires user !in st.admins && FlagsOf(st, user).awaiting
    ensures Logout(PasswordHandler(st, user, password, Some(password)).state, user).state.admins == st.admins
    ensures !FlagsOf(Logout(PasswordHandler(st, user, password, Some(password)).state, user).state, user).authenticated
  {
  }

  /** Padding around the password is forgiven by the private-message path only. */
  lemma PaddedPasswordOnlyWorksInPrivateMessage(st: AuthState, user: int, password: string)
    requires password != [] && !PyStr.HasSpace(password)
    requires FlagsOf(st, user).awaiting && !FlagsOf(st, user).authenticated
    ensures PrivateMessage(st, user, " " + password, Some(password)).reply == Granted
    ensures PasswordHandler(st, user, " " + password, Some(password)).reply == WrongPassword
  {
    var padded := " " + password;
    StripOfPadded(password);
    assert Matches(PyStr.Strip(padded), Some(password));
    assert !Matches(padded, Some(password)) by {
      assert |padded| != |password|;
    }
  }

  lemma StripOfPadded(s: string)
    requires !PyStr.HasSpace(s)
    ensures PyStr.Strip(" " + s) == s
  {
    var t := " " + s;
    assert t[1..] == s;
    assert PyStr.LStripSpace(t) == PyStr.LStripSpace(s);
    LStripSpaceOfNoSpace(s);
    RStripSpaceOfNoSpace(s);
  }

  lemma LStripSpaceOfNoSpace(s: string)
    requires !PyStr.HasSpace(s)
    ensures PyStr.LStripSpace(s) == s
  {
    if s != [] {
      assert PyStr.IsSpace(s[0]) ==> PyStr.HasSpace(s);
    }
  }

  lemma RStripSpaceOfNoSpace(s: string)
    requires !PyStr.HasSpace(s)
    ensures PyStr.RStripSpace(s) == s
  {
    if s != [] {
      assert PyStr.IsSpace(s[|s| - 1]) ==> PyStr.HasSpace(s);
    }
  }

  /** The callbacks of the admin panel, in the order the handler tests them. */
  const ADMIN_CALLBACKS: seq<string> := [
    "admin_view_stats", "admin_export_users", "admin_import_users", "admin_assign_rank",
    "admin_review_promotions", "admin_reset_violations", "admin_mute_user", "admin_reload_configs"]

  datatype AdminAction =
    | ViewStats
    | ExportUsers
    | ImportUsers
    | AssignRankHelp
    | ReviewPromotions
    | ResetViolations
    | MuteUser
    | ReloadConfigs
    | UnknownAction

  /** handlers/admin.py `admin_callback_handler`: each known callback has its own reply, anything else is unknown. */
  function AdminCallback(data: string): (a: AdminAction)
    ensures a == UnknownAction <==> data !in ADMIN_CALLBACKS
  {
    if data == "admin_view_stats" then ViewStats
    else if data == "admin_export_users" then ExportUsers
    else if data == "admin_import_users" then ImportUsers
    else if data == "admin_assign_rank" then AssignRankHelp
    else if data == "admin_review_promotions" then ReviewPromotions
    else if data == "admin_reset_violations" then ResetViolations
    else if data == "admin_mute_user" then MuteUser
    else if data == "admin_reload_configs" then ReloadConfigs
    else UnknownAction
  }

  /** Different known callbacks give different replies. */
  lemma CallbacksAreDistinguished(i: nat, j: nat)
    requires i < |ADMIN_CALLBACKS| && j < |ADMIN_CALLBACKS|
    requires AdminCallback(ADMIN_CALLBACKS[i]) == AdminCallback(ADMIN_CALLBACKS[j])
    ensures i == j
  {
  }
}

=== FILE: credits.dfy ===
/**
 * The `user_credits` table of credits_module.py as a ledger map, and the
 * argument checks of the admin `/credit` command.
 */
module Credits {
  import opened Wrappers
  import PyStr

  /** One row: the stored `username` (NULL is `None`) and the balance. */
  datatype Account = Account(username: Option<string>, credits: int)

  type Ledger = map<int, Account>

  /** Credits one `/searchdata` lookup costs, by default. */
  const LOOKUP_COST: int := 1

  /** The credit command's own admin id, whose default differs from the bot's. */
  const CREDITS_ADMIN_ID: int := 0

  /** `get_credits`: the stored balance, 0 for a user without a row. */
  function GetCredits(l: Ledger, user: int): (c: int)
    ensures user !in l ==> c == 0
    ensures user in l ==> c == l[user].credits
  {
    if user in l then l[user].credits else 0
  }

  /**
   * `add_credits`: insert, or on conflict add to the balance and overwrite the
   * username. Returns the ledger and the balance read back afterwards.
   */
  function AddCredits(l: Ledger, user: int, username: Option<string>, amount: int): (r: (Ledger, int))
    ensures r.0.Keys == l.Keys + {user}
    ensures r.1 == GetCredits(l, user) + amount
    ensures GetCredits(r.0, user) == r.1 && r.0[user].username == username
    ensures forall u :: u in l && u != user ==> r.0[u] == l[u]
  {
    var l' := l[user := Account(username, GetCredits(l, user) + amount)];
    (l', GetCredits(l', user))
  }

  /**
   * `charge_credits`: refuses, changing nothing, when the balance is below
   * `amount`; otherwise subtracts `amount` from an existing row. The UPDATE
   * matches no row for an unknown user, so nothing is created.
   */
  function ChargeCredits(l: Ledger, user: int, amount: int): (r: (Ledger, bool))
    ensures r.1 <==> GetCredits(l, user) >= amount
    ensures !r.1 ==> r.0 == l
    ensures r.0.Keys == l.Keys
    ensures r.1 && user in l ==> GetCredits(r.0, user) == GetCredits(l, user) - amount
    ensures user in l ==> r.0[user].username == l[user].username
    ensures forall u :: u in l && u != user ==> r.0[u] == l[u]
  {
    var have := GetCredits(l, user);
    if have < amount then (l, false)
    else if user in l then (l[user := l[user].(credits := l[user].credits - amount)], true)
    else (l, true)
  }

  /** `mybalance_cmd`: the caller's balance and the lookup cost, as replied. */
  function MyBalance(l: Ledger, user: int): (r: (int, int))
    ensures r.0 == GetCredits(l, user) && r.1 == LOOKUP_COST
  {
    (GetCredits(l, user), LOOKUP_COST)
  }

  /** The replies of `/credit`, as labels. */
  datatype CreditReply =
    | NotAuthorized
    | Usage
    | BadAmount
    | UseNumericId
    | BadUser
    | Credited(amount: int, user: int, balance: int)

  /** The target and amount `/credit` acts on, when its arguments pass every check. */
  function CreditRequest(args: seq<string>): Option<(int, int)> {
    if |args| != 2 then None
    else
      var amount := PyStr.ParseInt(args[1]);
      if amount.None? || PyStr.StartsWith(args[0], "@") then None
      else
        var user := PyStr.ParseInt(args[0]);
        if user.None? then None else Some((user.value, amount.value))
  }

  /**
   * `credit_cmd`: without a message nothing happens; the caller must be the
   * credit admin, there must be exactly two arguments, the amount must parse
   * as an integer and the target must be a numeric id (an `@name` is refused).
   * Only then is the amount added to the target's balance.
   */
  function CreditCmd(l: Ledger, hasMessage: bool, caller: int, args: seq<string>): (r: (Ledger, Option<CreditReply>))
    ensures !hasMessage ==> r == (l, None)
    ensures hasMessage && caller != CREDITS_ADMIN_ID ==> r == (l, Some(NotAuthorized))
    ensures hasMessage && caller == CREDITS_ADMIN_ID ==> r == (AdminCredit(l, args).0, Some(AdminCredit(l, args).1))
  {
    if !hasMessage then (l, None)
    else if caller != CREDITS_ADMIN_ID then (l, Some(NotAuthorized))
    else
      var a := AdminCredit(l, args);
      (a.0, Some(a.1))
  }

  /** The admin's `/credit` once the caller is known: refuse bad arguments, else credit. */
  function AdminCredit(l: Ledger, args: seq<string>): (r: (Ledger, CreditReply))
    ensures CreditRequest(args).None? ==> r == (l, Refusal(args))
    ensures CreditRequest(args).Some? ==>
      var req := CreditRequest(args).value;
      && r.0 == AddCredits(l, req.0, None, req.1).0
      && r.1 == Credited(req.1, req.0, GetCredits(l, req.0) + req.1)
  {
    var req := CreditRequest(args);
    if req.None? then (l, Refusal(args))
    else
      var added := AddCredits(l, req.value.0, None, req.value.1);
      (added.0, Credited(req.value.1, req.value.0, added.1))
  }

  /** Why `/credit` refuses arguments, checked in the source's order: count, amount, `@` target, numeric target. */
  function Refusal(args: seq<string>): CreditReply {
    if |args| != 2 then Usage
    else if PyStr.ParseInt(args[1]).None? then BadAmount
    else if PyStr.StartsWith(args[0], "@") then UseNumericId
    else BadUser
  }

  /** The ledger moves only for the credit admin with valid arguments, and then by exactly the amount. */
  lemma OnlyValidCreditMovesLedger(l: Ledger, hasMessage: bool, caller: int, args: seq<string>)
    ensures !(hasMessage && caller == CREDITS_ADMIN_ID && CreditRequest(args).Some?) ==> CreditCmd(l, hasMessage, caller, args).0 == l
    ensures hasMessage && caller == CREDITS_ADMIN_ID && CreditRequest(args).Some? ==>
      var req := CreditRequest(args).value;
      GetCredits(CreditCmd(l, hasMessage, caller, args).0, req.0) == GetCredits(l, req.0) + req.1
  {
  }

  /** Adding then charging the same non-negative amount restores the balance. */
  lemma AddThenChargeRestores(l: Ledger, user: int, name: Option<string>, amount: int)
    requires amount >= 0 && GetCredits(l, user) >= 0
    ensures ChargeCredits(AddCredits(l, user, name, amount).0, user, amount).1
    ensures GetCredits(ChargeCredits(AddCredits(l, user, name, amount).0, user, amount).0, user) == GetCredits(l, user)
  {
  }

  /** With non-negative amounts, a successful charge never leaves a negative balance. */
  lemma ChargeKeepsBalanceNonNegative(l: Ledger, user: int, amount: int)
    requires amount >= 0
    requires ChargeCredits(l, user, amount).1
    ensures GetCredits(ChargeCredits(l, user, amount).0, user) >= 0
  {
  }

  /** A zero charge for a user without a row succeeds and creates no row. */
  lemma ZeroChargeOnUnknownUser(l: Ledger, user: int)
    requires user !in l
    ensures ChargeCredits(l, user, 0) == (l, true)
  {
  }

  /** A target written as `@name` never moves a balance, whatever the amount. */
  lemma UsernameTargetIsRefused(l: Ledger, name: string, amount: string)
    ensures CreditCmd(l, true, CREDITS_ADMIN_ID, ["@" + name, amount]).0 == l
  {
    assert PyStr.StartsWith("@" + name, "@");
  }

  /** Crediting `n` to a numeric id written by `str()` reaches exactly that user. */
  lemma NumericTargetIsCredited(l: Ledger, user: int, n: int)
    ensures CreditCmd(l, true, CREDITS_ADMIN_ID, [PyStr.IntToStr(user), PyStr.IntToStr(n)]).0
      == AddCredits(l, user, None, n).0
  {
    PyStr.ParseIntOfIntToStr(user);
    PyStr.ParseIntOfIntToStr(n);
  }

  /** "Amount must be an integer" is the admin's reply exactly when `int()` refuses the amount, and then no balance moves. */
  lemma BadAmountIsExactlyNotAnInteger(l: Ledger, target: string, amount: string)
    ensures CreditCmd(l, true, CREDITS_ADMIN_ID, [target, amount]).1 == Some(BadAmount)
      <==> PyStr.ParseInt(amount).None?
    ensures PyStr.ParseInt(amount).None? ==> CreditCmd(l, true, CREDITS_ADMIN_ID, [target, amount]).0 == l
  {
    var args := [target, amount];
    var a := AdminCredit(l, args);
    assert CreditCmd(l, true, CREDITS_ADMIN_ID, args) == (a.0, Some(a.1));
    if PyStr.ParseInt(amount).None? {
      assert CreditRequest(args).None?;
      assert Refusal(args) == BadAmount;
    } else if CreditRequest(args).None? {
      assert Refusal(args) != BadAmount;
    }
  }

  /** An amount written without a single digit, such as "ten", is refused and moves no balance. */
  lemma AmountWithoutDigitIsRefused(l: Ledger, target: string, amount: string)
    requires forall i :: 0 <= i < |amount| ==> !PyStr.IsDigit(amount[i])
    ensures CreditCmd(l, true, CREDITS_ADMIN_ID, [target, amount]) == (l, Some(BadAmount))
  {
    PyStr.NoDigitIsNotAnInteger(amount);
  }
}

=== FILE: guards.dfy ===
/**
 * The four topic guards of the bot: the cumulative one of bot.py, the
 * rank-lookup ones of handlers/rank.py, handlers/topic_guard.py and
 * handlers/onboarding.py, and the violation counter with its mute threshold.
 * Telegram's delete, warn, DM and restrict calls are folded into a verdict.
 */
module Guards {
  import opened Wrappers
  import opened Topics

  /** Violations after which a member is muted. */
  const MUTE_THRESHOLD: nat := 3

  /** `violation_counts`: user id to number of recorded violations. */
  type Counts = map<int, nat>

  /** `increment_violation`: an absent user starts at 1, a present one goes up by 1; nobody else changes. */
  function IncrementViolation(c: Counts, user: int): (c': Counts)
    ensures c'.Keys == c.Keys + {user}
    ensures c'[user] == (if user in c then c[user] else 0) + 1
    ensures forall u :: u in c && u != user ==> c'[u] == c[u]
  {
    if user !in c then c[user := 1] else c[user := c[user] + 1]
  }

  function CountOf(c: Counts, user: int): nat {
    if user in c then c[user] else 0
  }

  /** `n` violations of the same user in a row. */
  function Repeat(c: Counts, user: int, n: nat): Counts
    decreases n
  {
    if n == 0 then c else IncrementViolation(Repeat(c, user, n - 1), user)
  }

  /** `n` violations add exactly `n` to the user's count and leave everyone else's alone. */
  lemma {:induction false} RepeatCounts(c: Counts, user: int, n: nat)
    ensures CountOf(Repeat(c, user, n), user) == CountOf(c, user) + n
    ensures forall u :: u != user ==> CountOf(Repeat(c, user, n), u) == CountOf(c, u)
    decreases n
  {
    if n > 0 {
      RepeatCounts(c, user, n - 1);
    }
  }

  /** What a guard did with a message. */
  datatype Verdict =
    | Skipped                 // returned before judging the post
    | Allowed                 // judged and let through
    | Removed(muted: bool)    // deleted and warned; muted when the count reached the threshold
    | Kept(warned: bool)      // judged a violation, but a failed send came before the delete; warned when the reply went out

  datatype Guarded = Guarded(counts: Counts, verdict: Verdict)

  /** The effective user, when there is one. */
  datatype Sender = Sender(id: int, isBot: bool)

  /** What `get_user_rank` produced for the rank-lookup guards. */
  datatype RankLookup = Found(rank: Option<string>) | LookupFailed

  /** `get_user_rank(uid) or "Lookout"`, with a failed lookup also read as "Lookout". */
  function RankOr(lookup: RankLookup): (rank: string)
    ensures lookup.Found? && lookup.rank.Some? && lookup.rank.value != [] ==> rank == lookup.rank.value
    ensures !(lookup.Found? && lookup.rank.Some? && lookup.rank.value != []) ==> rank == DEFAULT_RANK
  {
    match lookup
    case Found(Some(r)) => if r != [] then r else DEFAULT_RANK
    case _ => DEFAULT_RANK
  }

  /** The violation branch both counting guards share: count, then mute at the threshold. */
  function Violate(c: Counts, user: int): (g: Guarded)
    ensures g.counts == IncrementViolation(c, user)
    ensures g.verdict == Removed(CountOf(g.counts, user) >= MUTE_THRESHOLD)
  {
    var c' := IncrementViolation(c, user);
    Guarded(c', Removed(CountOf(c', user) >= MUTE_THRESHOLD))
  }

  /**
   * handlers/rank.py `topic_guard`: returns early outside the group, without a
   * thread, without a user or for a bot; lets the admin through; otherwise a
   * post is allowed iff its thread is in the rank's list, an unknown rank
   * allowing nothing.
   */
  function RankGuard(c: Counts, chat: Option<int>, thread: Option<int>, sender: Option<Sender>,
                     lookup: RankLookup): (g: Guarded)
    ensures g.verdict.Skipped? <==> chat != Some(GROUP_ID) || thread.None? || sender.None? || sender.value.isBot
    ensures g.verdict.Removed? <==>
      !g.verdict.Skipped? && sender.value.id != ADMIN_ID && !MayPost(RankOr(lookup), thread.value)
    ensures !g.verdict.Removed? ==> g.counts == c
    ensures g.verdict.Removed? ==>
      g.counts == IncrementViolation(c, sender.value.id)
      && (g.verdict.muted <==> CountOf(g.counts, sender.value.id) >= MUTE_THRESHOLD)
  {
    if chat != Some(GROUP_ID) || thread.None? || sender.None? || sender.value.isBot then Guarded(c, Skipped)
    else if sender.value.id == ADMIN_ID then Guarded(c, Allowed)
    else if MayPost(RankOr(lookup), thread.value) then Guarded(c, Allowed)
    else Violate(c, sender.value.id)
  }

  /**
   * handlers/topic_guard.py `topic_guard`: returns early without a message,
   * outside the group or without a thread; there is no admin or bot check.
   * A post outside the rank's list is a violation.
   */
  function ThreadGuard(c: Counts, hasMessage: bool, chat: int, thread: Option<int>, user: int,
                       rank: Option<string>): (g: Guarded)
    ensures g.verdict.Skipped? <==> !hasMessage || chat != GROUP_ID || thread.None?
    ensures g.verdict.Removed? <==> !g.verdict.Skipped? && !MayPost(RankOr(Found(rank)), thread.value)
    ensures !g.verdict.Removed? ==> g.counts == c
    ensures g.verdict.Removed? ==>
      g.counts == IncrementViolation(c, user)
      && (g.verdict.muted <==> CountOf(g.counts, user) >= MUTE_THRESHOLD)
  {
    if !hasMessage || chat != GROUP_ID || thread.None? then Guarded(c, Skipped)
    else if MayPost(RankOr(Found(rank)), thread.value) then Guarded(c, Allowed)
    else Violate(c, user)
  }

  /**
   * handlers/topic_guard.py `topic_guard` as line 28 has it: `uid` is the
   * user object, not its id, and `get_user_rank` binds it as an SQL
   * parameter, which `sqlite3` refuses with an exception. Every message past
   * the early return therefore raises (`None` here) before anything is
   * counted, deleted or muted.
   */
  function ThreadGuardAsWritten(c: Counts, hasMessage: bool, chat: int, thread: Option<int>): (r: Option<Guarded>)
    ensures r.None? <==> hasMessage && chat == GROUP_ID && thread.Some?
    ensures r.Some? ==> r.value.counts == c && r.value.verdict.Skipped?
  {
    if !hasMessage || chat != GROUP_ID || thread.None? then Some(Guarded(c, Skipped)) else None
  }

  /**
   * As written the guard never acts: it raises exactly on the messages the
   * id-keyed guard judges, so no count ever moves and nobody is muted, even
   * where the id-keyed guard removes the post.
   */
  lemma ThreadGuardNeverActsAsWritten(c: Counts, hasMessage: bool, chat: int, thread: Option<int>,
                                      user: int, rank: Option<string>)
    ensures ThreadGuardAsWritten(c, hasMessage, chat, thread).None? <==>
      !ThreadGuard(c, hasMessage, chat, thread, user, rank).verdict.Skipped?
    ensures ThreadGuardAsWritten(c, hasMessage, chat, thread).Some? ==>
      ThreadGuardAsWritten(c, hasMessage, chat, thread).value == ThreadGuard(c, hasMessage, chat, thread, user, rank)
  {
  }

  /** A run of messages through the as-written guard, keeping the counts of every run that did not raise. */
  function ThreadGuardRunAsWritten(c: Counts, posts: seq<(bool, int, Option<int>)>): (c': Counts)
    ensures c' == c
    decreases |posts|
  {
    if posts == [] then c
    else
      var r := ThreadGuardAsWritten(c, posts[0].0, posts[0].1, posts[0].2);
      ThreadGuardRunAsWritten(if r.Some? then r.value.counts else c, posts[1..])
  }

  /**
   * handlers/onboarding.py `topic_guard_handler`: returns early without a
   * message or when the thread id is falsy (absent or 0); it checks no chat,
   * counts nothing and never mutes. The in-topic reply, the DM and the delete
   * share one `try`, in that order, so the post is deleted only when both
   * sends went out; a failed send leaves it in place.
   */
  function OnboardingGuard(hasMessage: bool, thread: Option<int>, rank: Option<string>,
                           replySent: bool, dmSent: bool): (v: Verdict)
    ensures v.Skipped? <==> !hasMessage || thread.None? || thread.value == 0
    ensures v.Allowed? <==> !v.Skipped? && MayPost(RankOr(Found(rank)), thread.value)
    ensures v.Removed? <==> !v.Skipped? && !v.Allowed? && replySent && dmSent
    ensures v.Kept? <==> !v.Skipped? && !v.Allowed? && !(replySent && dmSent)
    ensures v.Removed? ==> !v.muted
    ensures v.Kept? ==> (v.warned <==> replySent)
  {
    if !hasMessage || thread.None? || thread.value == 0 then Skipped
    else if MayPost(RankOr(Found(rank)), thread.value) then Allowed
    else if !replySent then Kept(false)
    else if !dmSent then Kept(true)
    else Removed(false)
  }

  /**
   * A member who never opened a private chat with the bot cannot be sent the
   * DM, so their post in a topic outside their rank is answered in the topic
   * but stays, however often they post.
   */
  lemma NoPrivateChatKeepsPost(thread: int, rank: Option<string>)
    requires thread != 0 && !MayPost(RankOr(Found(rank)), thread)
    ensures OnboardingGuard(true, Some(thread), rank, true, false) == Kept(true)
    ensures OnboardingGuard(true, Some(thread), rank, true, true) == Removed(false)
  {
  }

  /** The topic names bot.py's guard allows: every list up to and including the user's rank, in table order. */
  function Cumulative(table: seq<(string, seq<string>)>, rank: string): seq<string>
    decreases |table|
  {
    if table == [] then []
    else table[0].1 + (if table[0].0 == rank then [] else Cumulative(table[1..], rank))
  }

  /** All lists of a table, concatenated. */
  function ConcatAll(table: seq<(string, seq<string>)>): seq<string>
    decreases |table|
  {
    if table == [] then [] else table[0].1 + ConcatAll(table[1..])
  }

  /** The ranks a user of bot.py may hold: `user_ranks.get(uid, "Lookout")`. */
  function BotRank(ranks: map<int, string>, user: int): (rank: string)
    ensures user in ranks ==> rank == ranks[user]
    ensures user !in ranks ==> rank == DEFAULT_RANK
  {
    if user in ranks then ranks[user] else DEFAULT_RANK
  }

  /**
   * bot.py `topic_guard` with the topic's title as input: returns early
   * outside the group or for a message outside a topic; the title, "" when
   * missing, must be one of the cumulative names, or the message is deleted
   * and warned. Nothing is counted.
   */
  function BotGuard(ranks: map<int, string>, chat: int, isTopic: bool, user: int, title: Option<string>): (v: Verdict)
    ensures v.Skipped? <==> chat != GROUP_ID || !isTopic
    ensures v.Removed? <==> !v.Skipped? && title.GetOr([]) !in Cumulative(BOT_RANK_TOPICS, BotRank(ranks, user))
    ensures v.Removed? ==> !v.muted
  {
    if chat != GROUP_ID || !isTopic then Skipped
    else if title.GetOr([]) in Cumulative(BOT_RANK_TOPICS, BotRank(ranks, user)) then Allowed
    else Removed(false)
  }

  /**
   * bot.py `topic_guard` as line 168 has it: a Telegram message has no
   * `message_thread_title` attribute, so every message past the early return
   * raises there (`None` here), before the delete and the warning.
   */
  function BotGuardAsWritten(chat: int, isTopic: bool): (r: Option<Verdict>)
    ensures r.None? <==> chat == GROUP_ID && isTopic
    ensures r.Some? ==> r.value == Skipped
  {
    if chat != GROUP_ID || !isTopic then Some(Skipped) else None
  }

  /**
   * As written bot.py's guard never removes a post: it raises on exactly the
   * messages the title-reading guard judges, agrees with it elsewhere, and so
   * also keeps the untitled topic post that guard always removes.
   */
  lemma BotGuardNeverRemovesAsWritten(ranks: map<int, string>, chat: int, isTopic: bool, user: int,
                                      title: Option<string>)
    ensures BotGuardAsWritten(chat, isTopic).None? <==> !BotGuard(ranks, chat, isTopic, user, title).Skipped?
    ensures BotGuardAsWritten(chat, isTopic).Some? ==>
      BotGuardAsWritten(chat, isTopic).value == BotGuard(ranks, chat, isTopic, user, title)
    ensures BotGuardAsWritten(GROUP_ID, true).None? && BotGuard(ranks, GROUP_ID, true, user, None).Removed?
  {
    MissingTitleIsRemoved(ranks, user);
  }

  /** A rank missing from the table walks the whole table, so it is allowed every listed topic. */
  lemma {:induction false} UnknownRankGetsEverything(table: seq<(string, seq<string>)>, rank: string)
    requires forall i :: 0 <= i < |table| ==> table[i].0 != rank
    ensures Cumulative(table, rank) == ConcatAll(table)
    decreases |table|
  {
    if table != [] {
      UnknownRankGetsEverything(table[1..], rank);
    }
  }

  /** For a rank in the table, the cumulative list is the concatenation of the lists up to its entry. */
  lemma {:induction false} KnownRankStopsAtItsEntry(table: seq<(string, seq<string>)>, k: nat)
    requires k < |table|
    requires forall i :: 0 <= i < k ==> table[i].0 != table[k].0
    ensures Cumulative(table, table[k].0) == ConcatAll(table[..k + 1])
    decreases k
  {
    if k == 0 {
      assert ConcatAll(table[..1]) == table[0].1 + ConcatAll([]);
    } else {
      KnownRankStopsAtItsEntry(table[1..], k - 1);
      assert table[..k + 1][1..] == table[1..][..k];
    }
  }

  /** Because the lists are nested, the cumulative names of a listed rank are exactly that rank's own names. */
  lemma CumulativeIsOwnList(i: nat)
    requires i < |BOT_RANK_TOPICS|
    ensures forall t :: t in Cumulative(BOT_RANK_TOPICS, BOT_RANK_TOPICS[i].0) <==> t in BOT_RANK_TOPICS[i].1
  {
    var table := BOT_RANK_TOPICS;
    assert forall j :: 0 <= j < i ==> table[j].0 != table[i].0;
    KnownRankStopsAtItsEntry(table, i);
    assert ConcatAll(table[..i + 1]) == ConcatAll(table[..i]) + table[i].1 by {
      ConcatAllAppend(table[..i], [table[i]]);
      assert table[..i] + [table[i]] == table[..i + 1];
      assert ConcatAll([table[i]]) == table[i].1 + ConcatAll([]);
    }
    forall t | t in ConcatAll(table[..i])
      ensures t in table[i].1
    {
      ConcatAllMember(table[..i], t);
      var j :| 0 <= j < i && t in table[..i][j].1;
      ListsAreNested(j, i, t);
    }
  }

  /** Each list of bot.py's table holds every name of the lists before it. */
  lemma ListsAreNested(j: nat, i: nat, t: string)
    requires j <= i < |BOT_RANK_TOPICS|
    requires t in BOT_RANK_TOPICS[j].1
    ensures t in BOT_RANK_TOPICS[i].1
  {
    assert forall k :: 0 <= k < |LOOKOUT_TOPICS| ==> LOOKOUT_TOPICS[k] in RUNNER_TOPICS;
    assert RUNNER_TOPICS <= CLOSER_TOPICS && CLOSER_TOPICS <= TOP_TOPICS;
  }

  lemma {:induction false} ConcatAllAppend(a: seq<(string, seq<string>)>, b: seq<(string, seq<string>)>)
    ensures ConcatAll(a + b) == ConcatAll(a) + ConcatAll(b)
    decreases |a|
  {
    if a != [] {
      ConcatAllAppend(a[1..], b);
      assert (a + b)[1..] == a[1..] + b;
    } else {
      assert a + b == b;
    }
  }

  /** A name from a concatenation comes from one of its lists. */
  lemma {:induction false} ConcatAllMember(table: seq<(string, seq<string>)>, t: string)
    requires t in ConcatAll(table)
    ensures exists j :: 0 <= j < |table| && t in table[j].1
    decreases |table|
  {
    if t !in table[0].1 {
      ConcatAllMember(table[1..], t);
      var j :| 0 <= j < |table[1..]| && t in table[1..][j].1;
      assert table[j + 1] == table[1..][j];
    }
  }

  /** A message in a topic whose title is missing is always removed by bot.py's guard, whatever the rank. */
  lemma MissingTitleIsRemoved(ranks: map<int, string>, user: int)
    ensures BotGuard(ranks, GROUP_ID, true, user, None).Removed?
  {
    var rank := BotRank(ranks, user);
    if t :| 0 <= t < |BOT_RANK_TOPICS| && BOT_RANK_TOPICS[t].0 == rank {
      NoEmptyName(rank);
    } else {
      UnknownRankGetsEverything(BOT_RANK_TOPICS, rank);
      if [] in ConcatAll(BOT_RANK_TOPICS) {
        ConcatAllMember(BOT_RANK_TOPICS, []);
      }
    }
  }

  /** No list of the table contains the empty name, so no cumulative list does. */
  lemma NoEmptyName(rank: string)
    ensures [] !in Cumulative(BOT_RANK_TOPICS, rank)
  {
    if [] in Cumulative(BOT_RANK_TOPICS, rank) {
      CumulativeWithinAll(BOT_RANK_TOPICS, rank, []);
      ConcatAllMember(BOT_RANK_TOPICS, []);
    }
  }

  lemma {:induction false} CumulativeWithinAll(table: seq<(string, seq<string>)>, rank: string, t: string)
    requires t in Cumulative(table, rank)
    ensures t in ConcatAll(table)
    decreases |table|
  {
    if t !in table[0].1 {
      CumulativeWithinAll(table[1..], rank, t);
    }
  }

  /** The rank.py and topic_guard.py guards agree on a non-admin human in the group whose lookup succeeds. */
  lemma CountingGuardsAgree(c: Counts, thread: Option<int>, user: int, rank: Option<string>)
    requires user != ADMIN_ID
    ensures RankGuard(c, Some(GROUP_ID), thread, Some(Sender(user, false)), Found(rank))
      == ThreadGuard(c, true, GROUP_ID, thread, user, rank)
  {
  }

  /** The third violation in a row by the same member is the first one that mutes. */
  lemma {:induction false} ThirdViolationMutes(c: Counts, user: int, thread: int, rank: Option<string>)
    requires user !in c && user != ADMIN_ID
    requires !MayPost(RankOr(Found(rank)), thread)
    ensures var g1 := RankGuard(c, Some(GROUP_ID), Some(thread), Some(Sender(user, false)), Found(rank));
      var g2 := RankGuard(g1.counts, Some(GROUP_ID), Some(thread), Some(Sender(user, false)), Found(rank));
      var g3 := RankGuard(g2.counts, Some(GROUP_ID), Some(thread), Some(Sender(user, false)), Found(rank));
      g1.verdict == Removed(false) && g2.verdict == Removed(false) && g3.verdict == Removed(true)
  {
    var s := Some(Sender(user, false));
    var g1 := RankGuard(c, Some(GROUP_ID), Some(thread), s, Found(rank));
    assert CountOf(g1.counts, user) == 1;
    var g2 := RankGuard(g1.counts, Some(GROUP_ID), Some(thread), s, Found(rank));
    assert CountOf(g2.counts, user) == 2;
    var g3 := RankGuard(g2.counts, Some(GROUP_ID), Some(thread), s, Found(rank));
    assert CountOf(g3.counts, user) == 3;
  }

  /** The onboarding guard also acts outside the group, where the rank.py guard returns early. */
  lemma OnboardingGuardIgnoresChat(c: Counts, chat: int, user: int)
    requires chat != GROUP_ID
    ensures RankGuard(c, Some(chat), Some(2411), Some(Sender(user, false)), Found(None)).verdict == Skipped
    ensures OnboardingGuard(true, Some(2411), None, true, true) == Removed(false)
  {
    assert TopicsOf(DEFAULT_RANK) == [2458, 2401, 2408, 2405, 2406, 2404, 2403];
  }
}

=== FILE: helpers.dfy ===
/**
 * utils/helpers.py: username extraction and MarkdownV2 escaping (the owner
 * check `is_admin` is the comparison with `Topics.ADMIN_ID`, written inline). Escaping is a loop of `str.replace` calls; it is shown equal to
 * escaping each character on its own, which a reader can undo.
 */
module Helpers {
  import PyStr

  /** `extract_username`: leading `@`s go first, then surrounding whitespace. */
  function ExtractUsername(text: string): (r: string)
    ensures PyStr.TrimmedOf(PyStr.LStripChar(text, '@'), r)
    ensures PyStr.NoEdgeSpace(r)
    ensures |r| <= |text|
    ensures !PyStr.HasSpace(text) ==> r == PyStr.LStripChar(text, '@')
  {
    var t := PyStr.LStripChar(text, '@');
    SuffixKeepsNoSpace(text, t);
    PyStr.Strip(t)
  }

  /** A suffix of a text without whitespace has none either. */
  lemma SuffixKeepsNoSpace(text: string, t: string)
    requires |t| <= |text| && t == text[|text| - |t|..]
    ensures !PyStr.HasSpace(text) ==> !PyStr.HasSpace(t)
  {
    if PyStr.HasSpace(t) {
      var i :| 0 <= i < |t| && PyStr.IsSpace(t[i]);
      assert t[i] == text[|text| - |t| + i];
    }
  }

  /** A handle `@name` gives back `name`. */
  lemma HandleGivesName(name: string)
    requires !PyStr.HasSpace(name) && (name == [] || name[0] != '@')
    ensures ExtractUsername("@" + name) == name
  {
    var t := "@" + name;
    assert t[1..] == name;
    assert PyStr.LStripChar(t, '@') == PyStr.LStripChar(name, '@');
  }

  /**
   * A handle typed with whitespace around the name, `@` then `pre`, the name
   * and `post`, still gives back just the name.
   */
  lemma PaddedHandleGivesName(pre: string, name: string, post: string)
    requires forall i :: 0 <= i < |pre| ==> PyStr.IsSpace(pre[i])
    requires forall i :: 0 <= i < |post| ==> PyStr.IsSpace(post[i])
    requires PyStr.NoEdgeSpace(name) && (name == [] || name[0] != '@')
    ensures ExtractUsername("@" + pre + name + post) == name
  {
    var body := pre + name + post;
    var text := "@" + pre + name + post;
    assert text == "@" + body;
    NoAtAfterHandle(pre, name, post);
    assert PyStr.LStripChar(text, '@') == body by {
      assert text[1..] == body;
    }
    PaddedNameIsTrimmed(pre, name, post);
    PyStr.TrimmedIsUnique(body, ExtractUsername(text), name);
  }

  lemma NoAtAfterHandle(pre: string, name: string, post: string)
    requires forall i :: 0 <= i < |pre| ==> PyStr.IsSpace(pre[i])
    requires forall i :: 0 <= i < |post| ==> PyStr.IsSpace(post[i])
    requires name == [] || name[0] != '@'
    ensures PyStr.LStripChar(pre + name + post, '@') == pre + name + post
  {
    var body := pre + name + post;
    if body != [] {
      if pre != [] {
        assert body[0] == pre[0];
      } else if name != [] {
        assert body[0] == name[0];
      } else {
        assert body[0] == post[0];
      }
    }
  }

  lemma PaddedNameIsTrimmed(pre: string, name: string, post: string)
    requires forall i :: 0 <= i < |pre| ==> PyStr.IsSpace(pre[i])
    requires forall i :: 0 <= i < |post| ==> PyStr.IsSpace(post[i])
    ensures PyStr.TrimmedAt(pre + name + post, name, |pre|)
  {
    var body := pre + name + post;
    assert body[|pre|..|pre| + |name|] == name;
    forall i | 0 <= i < |pre|
      ensures PyStr.IsSpace(body[i])
    {
      assert body[i] == pre[i];
    }
    forall i | |pre| + |name| <= i < |body|
      ensures PyStr.IsSpace(body[i])
    {
      assert body[i] == post[i - |pre| - |name|];
    }
  }

  /** The characters MarkdownV2 reserves, in the order `format_markdown` replaces them: backslash first. */
  const ESCAPE_CHARS: string := "\\_*[]()~`>#+-=|{}.!"

  /** The escape of one character when the characters `cs` are escaped. */
  function Piece(c: char, cs: string): string {
    if c in cs then ['\\', c] else [c]
  }

  /** Every character of `s` escaped on its own when it is in `cs`. */
  function EscapeWith(s: string, cs: string): (r: string)
    ensures |r| >= |s|
    decreases |s|
  {
    if s == [] then [] else Piece(s[0], cs) + EscapeWith(s[1..], cs)
  }

  /** The intended escaping: a backslash before each reserved character. */
  function Escape(s: string): string {
    EscapeWith(s, ESCAPE_CHARS)
  }

  /** Replacing one character, character by character. */
  function ReplaceChar(s: string, d: char, rep: string): (r: string)
    decreases |s|
  {
    if s == [] then [] else (if s[0] == d then rep else [s[0]]) + ReplaceChar(s[1..], d, rep)
  }

  lemma {:induction false} ReplaceAllOfChar(s: string, d: char, rep: string)
    ensures PyStr.ReplaceAll(s, [d], rep) == ReplaceChar(s, d, rep)
    decreases |s|
  {
    if s != [] {
      assert PyStr.StartsWith(s, [d]) <==> s[0] == d;
      ReplaceAllOfChar(s[1..], d, rep);
    }
  }

  lemma {:induction false} ReplaceCharAppend(a: string, b: string, d: char, rep: string)
    ensures ReplaceChar(a + b, d, rep) == ReplaceChar(a, d, rep) + ReplaceChar(b, d, rep)
    decreases |a|
  {
    if a != [] {
      assert (a + b)[0] == a[0] && (a + b)[1..] == a[1..] + b;
      ReplaceCharAppend(a[1..], b, d, rep);
    } else {
      assert a + b == b;
    }
  }

  /**
   * Escaping one more character `d` on top of `cs` is a plain replace of `d`,
   * as long as `d` was not escaped already and the backslashes already
   * inserted are not `d`.
   */
  lemma {:induction false} ReplaceExtendsEscape(s: string, cs: string, d: char)
    requires d !in cs
    requires d == '\\' ==> cs == []
    ensures ReplaceChar(EscapeWith(s, cs), d, ['\\', d]) == EscapeWith(s, cs + [d])
    decreases |s|
  {
    if s != [] {
      var c := s[0];
      ReplaceCharAppend(Piece(c, cs), EscapeWith(s[1..], cs), d, ['\\', d]);
      ReplaceExtendsEscape(s[1..], cs, d);
      assert c in cs + [d] <==> c in cs || c == d;
      if c in cs {
        assert ReplaceChar(['\\', c], d, ['\\', d]) == ['\\', c] by {
          assert ['\\', c][1..] == [c];
        }
      } else {
        assert ReplaceChar([c], d, ['\\', d]) == Piece(c, cs + [d]) by {
          assert [c][1..] == [];
        }
      }
    }
  }

  /**
   * `format_markdown`: for each reserved character in turn, every occurrence
   * in the text so far gets a backslash in front. The result is the
   * character-by-character escape.
   */
  method FormatMarkdown(text: string) returns (r: string)
    ensures r == Escape(text)
  {
    r := text;
    assert EscapeWith(text, []) == text by {
      EscapeWithNothing(text);
    }
    var i := 0;
    while i < |ESCAPE_CHARS|
      invariant 0 <= i <= |ESCAPE_CHARS|
      invariant r == EscapeWith(text, ESCAPE_CHARS[..i])
    {
      var c := ESCAPE_CHARS[i];
      EscapeStep(text, i);
      r := PyStr.ReplaceAll(r, [c], ['\\', c]);
      i := i + 1;
    }
    assert ESCAPE_CHARS[..i] == ESCAPE_CHARS;
  }

  /** One round of the loop: replacing the next reserved character escapes it too. */
  lemma EscapeStep(text: string, i: nat)
    requires i < |ESCAPE_CHARS|
    ensures PyStr.ReplaceAll(EscapeWith(text, ESCAPE_CHARS[..i]), [ESCAPE_CHARS[i]], ['\\', ESCAPE_CHARS[i]])
      == EscapeWith(text, ESCAPE_CHARS[..i + 1])
  {
    var c := ESCAPE_CHARS[i];
    EscapeCharsAreDistinct(i);
    ReplaceAllOfChar(EscapeWith(text, ESCAPE_CHARS[..i]), c, ['\\', c]);
    ReplaceExtendsEscape(text, ESCAPE_CHARS[..i], c);
    assert ESCAPE_CHARS[..i] + [c] == ESCAPE_CHARS[..i + 1];
  }

  lemma {:induction false} EscapeWithNothing(s: string)
    ensures EscapeWith(s, []) == s
    decreases |s|
  {
    if s != [] {
      EscapeWithNothing(s[1..]);
    }
  }

  /** No reserved character repeats, and only the first is a backslash. */
  lemma EscapeCharsAreDistinct(i: int)
    requires 0 <= i < |ESCAPE_CHARS|
    ensures ESCAPE_CHARS[i] !in ESCAPE_CHARS[..i]
    ensures ESCAPE_CHARS[i] == '\\' ==> i == 0
  {
    assert forall j, k :: 0 <= j < k < |ESCAPE_CHARS| ==> ESCAPE_CHARS[j] != ESCAPE_CHARS[k];
  }

  /** Reading an escaped text back: a backslash stands for the character after it. */
  function Unescape(s: string): (r: string)
    decreases |s|
  {
    if s == [] then []
    else if |s| >= 2 && s[0] == '\\' then [s[1]] + Unescape(s[2..])
    else [s[0]] + Unescape(s[1..])
  }

  lemma {:induction false} UnescapeOfEscapeWith(s: string, cs: string)
    requires '\\' in cs
    ensures Unescape(EscapeWith(s, cs)) == s
    decreases |s|
  {
    if s != [] {
      var e := EscapeWith(s, cs);
      var rest := EscapeWith(s[1..], cs);
      UnescapeOfEscapeWith(s[1..], cs);
      if s[0] in cs {
        assert e == ['\\', s[0]] + rest;
        assert e[2..] == rest;
      } else {
        assert e == [s[0]] + rest;
        assert e[1..] == rest;
      }
    }
  }

  /** Escaping loses nothing: the original text can be read back. */
  lemma UnescapeInvertsFormat(s: string)
    ensures Unescape(Escape(s)) == s
  {
    assert ESCAPE_CHARS[0] == '\\';
    UnescapeOfEscapeWith(s, ESCAPE_CHARS);
  }

  /** How many characters of `s` are reserved. */
  function CountReserved(s: string): (n: nat)
    ensures n <= |s|
    decreases |s|
  {
    if s == [] then 0 else (if s[0] in ESCAPE_CHARS then 1 else 0) + CountReserved(s[1..])
  }

  /** Escaping adds exactly one character, a backslash, per reserved character. */
  lemma {:induction false} EscapeLength(s: string)
    ensures |Escape(s)| == |s| + CountReserved(s)
    decreases |s|
  {
    if s != [] {
      EscapeLength(s[1..]);
    }
  }

  /** Text without reserved characters is left as it is. */
  lemma {:induction false} PlainTextIsUnchanged(s: string)
    requires forall i :: 0 <= i < |s| ==> s[i] !in ESCAPE_CHARS
    ensures Escape(s) == s
    decreases |s|
  {
    if s != [] {
      PlainTextIsUnchanged(s[1..]);
    }
  }
}

=== FILE: jobstore.dfy ===
/**
 * The `pending_jobs` table of work_module.py as a map from `search_id` to
 * its row. Each writer is one function; timestamps are passed in.
 */
module JobStore {
  import opened Wrappers

  type JobId = string

  /** One row: `chat_id`, `created_at`, `last_check`, `attempt`, `status`, `done`. NULL columns are `None`. */
  datatype JobRow = JobRow(
    chatId: int,
    createdAt: int,
    lastCheck: Option<int>,
    attempt: int,
    status: Option<string>,
    done: bool)

  type Store = map<JobId, JobRow>

  /** The row an insert writes: attempt 0, not done, no check time and no status yet. */
  function FreshRow(chatId: int, now: int): (row: JobRow)
    ensures row.attempt == 0 && !row.done
    ensures row.chatId == chatId && row.createdAt == now
    ensures row.lastCheck.None? && row.status.None?
  {
    JobRow(chatId, now, None, 0, None, false)
  }

  /**
   * `db_add_pending`: `INSERT OR REPLACE`, so an existing row under the same
   * id, done or not, is replaced by a fresh pending one. Other rows are kept.
   */
  function AddPending(st: Store, id: JobId, chatId: int, now: int): (st': Store)
    ensures st'.Keys == st.Keys + {id}
    ensures st'[id].attempt == 0 && !st'[id].done && st'[id].chatId == chatId
    ensures forall k :: k in st && k != id ==> st'[k] == st[k]
  {
    st[id := FreshRow(chatId, now)]
  }

  /**
   * `db_mark_attempt`: sets check time, attempt and status of an existing
   * row; `done`, `chat_id` and `created_at` are left alone. Unknown ids are a no-op.
   */
  function MarkAttempt(st: Store, id: JobId, attempt: int, status: string, now: int): (st': Store)
    ensures st'.Keys == st.Keys
    ensures forall k :: k in st ==> st'[k].done == st[k].done
    ensures forall k :: k in st ==> st'[k].chatId == st[k].chatId && st'[k].createdAt == st[k].createdAt
    ensures id in st ==> st'[id].attempt == attempt && st'[id].status == Some(status) && st'[id].lastCheck == Some(now)
    ensures forall k :: k in st && k != id ==> st'[k] == st[k]
  {
    if id in st then st[id := st[id].(lastCheck := Some(now), attempt := attempt, status := Some(status))]
    else st
  }

  /** `db_mark_done`: sets `done` and the final status of an existing row and nothing else. */
  function MarkDone(st: Store, id: JobId, status: string): (st': Store)
    ensures st'.Keys == st.Keys
    ensures id in st ==> st'[id].done && st'[id].status == Some(status)
    ensures id in st ==> st'[id].attempt == st[id].attempt && st'[id].chatId == st[id].chatId
    ensures id in st ==> st'[id].createdAt == st[id].createdAt && st'[id].lastCheck == st[id].lastCheck
    ensures forall k :: k in st && k != id ==> st'[k] == st[k]
  {
    if id in st then st[id := st[id].(done := true, status := Some(status))] else st
  }

  /** `db_get_pending`: exactly the rows whose `done` is 0, unchanged. */
  function GetPending(st: Store): (p: Store)
    ensures forall k :: k in p <==> k in st && !st[k].done
    ensures forall k :: k in p ==> p[k] == st[k]
  {
    map k | k in st && !st[k].done :: st[k]
  }

  /** The three writers, for statements about any sequence of writes. */
  datatype Write =
    | Add(id: JobId, chatId: int, now: int)
    | Attempt(id: JobId, attempt: int, status: string, now: int)
    | Done(id: JobId, status: string)

  function Apply(st: Store, w: Write): Store {
    match w
    case Add(id, chatId, now) => AddPending(st, id, chatId, now)
    case Attempt(id, attempt, status, now) => MarkAttempt(st, id, attempt, status, now)
    case Done(id, status) => MarkDone(st, id, status)
  }

  function ApplyAll(st: Store, ws: seq<Write>): Store
    decreases |ws|
  {
    if ws == [] then st else ApplyAll(Apply(st, ws[0]), ws[1..])
  }

  predicate IsDone(st: Store, id: JobId) {
    id in st && st[id].done
  }

  /** `db_mark_done` is the only writer that can turn a row done. */
  lemma OnlyMarkDoneSetsDone(st: Store, w: Write, id: JobId)
    requires !IsDone(st, id)
    requires IsDone(Apply(st, w), id)
    ensures w.Done? && w.id == id
  {
  }

  /** A row leaves the done state only when the same id is submitted again. */
  lemma DoneIsKeptUnlessReAdded(st: Store, w: Write, id: JobId)
    requires IsDone(st, id)
    requires !(w.Add? && w.id == id)
    ensures IsDone(Apply(st, w), id)
  {
  }

  /** Over a whole sequence of writes, a row that ends done was marked done by one of them. */
  lemma {:induction false} DoneNeedsMarkDone(st: Store, ws: seq<Write>, id: JobId)
    requires !IsDone(st, id)
    requires IsDone(ApplyAll(st, ws), id)
    ensures exists i :: 0 <= i < |ws| && ws[i].Done? && ws[i].id == id
    decreases |ws|
  {
    if ws == [] {
    } else if IsDone(Apply(st, ws[0]), id) {
      OnlyMarkDoneSetsDone(st, ws[0], id);
      assert ws[0].Done? && ws[0].id == id;
    } else {
      DoneNeedsMarkDone(Apply(st, ws[0]), ws[1..], id);
      var i :| 0 <= i < |ws[1..]| && ws[1..][i].Done? && ws[1..][i].id == id;
      assert ws[i + 1] == ws[1..][i];
    }
  }

  /** Re-submitting an id that already finished makes it pending again, at attempt 0. */
  lemma ReAddRevivesDoneRow(st: Store, id: JobId, chatId: int, now: int)
    requires IsDone(st, id)
    ensures id in GetPending(AddPending(st, id, chatId, now))
    ensures GetPending(AddPending(st, id, chatId, now))[id].attempt == 0
  {
  }
}

=== FILE: json.dfy ===
/**
 * A decoded provider response, as `json.loads` hands it to the bot, with
 * Python's truthiness and `str()` on it.
 */
module Json {
  import opened Wrappers
  import PyStr

  /**
   * Objects keep their members in document order, as a Python `dict` built by
   * `json.loads` does. JSON floating-point numbers are not part of the model.
   */
  datatype Json =
    | JNull
    | JBool(b: bool)
    | JInt(i: int)
    | JStr(s: string)
    | JArr(items: seq<Json>)
    | JObj(fields: seq<(string, Json)>)

  /** `bool(v)`: None, False, 0, "", [] and {} are falsy. */
  predicate Truthy(v: Json) {
    match v
    case JNull => false
    case JBool(b) => b
    case JInt(i) => i != 0
    case JStr(s) => s != []
    case JArr(items) => items != []
    case JObj(fields) => fields != []
  }

  /**
   * `d.get(k)` on a decoded object. When a document repeats a member name,
   * `json.loads` keeps the last value, so the lookup searches from the end.
   */
  function Get(fields: seq<(string, Json)>, k: string): (r: Option<Json>)
    ensures r.None? <==> forall i :: 0 <= i < |fields| ==> fields[i].0 != k
    ensures r.Some? ==> (k, r.value) in fields
    ensures r.Some? ==> exists i :: LastMemberAt(fields, k, r.value, i)
  {
    if fields == [] then None
    else if fields[|fields| - 1].0 == k then
      assert LastMemberAt(fields, k, fields[|fields| - 1].1, |fields| - 1);
      Some(fields[|fields| - 1].1)
    else
      var r := Get(fields[..|fields| - 1], k);
      LastMemberExtends(fields, fields[..|fields| - 1], k, r);
      r
  }

  /** Member `i` has name `k` and value `v`, and no later member has name `k`. */
  predicate LastMemberAt(fields: seq<(string, Json)>, k: string, v: Json, i: int) {
    0 <= i < |fields| && fields[i] == (k, v) && forall j :: i < j < |fields| ==> fields[j].0 != k
  }

  /** The last member named `k` before a final member of another name is still the last one. */
  lemma LastMemberExtends(fields: seq<(string, Json)>, prefix: seq<(string, Json)>, k: string, r: Option<Json>)
    requires fields != [] && prefix == fields[..|fields| - 1] && fields[|fields| - 1].0 != k
    requires r.Some? ==> exists i :: LastMemberAt(prefix, k, r.value, i)
    ensures r.Some? ==> exists i :: LastMemberAt(fields, k, r.value, i)
  {
    if r.Some? {
      var i :| LastMemberAt(prefix, k, r.value, i);
      assert LastMemberAt(fields, k, r.value, i);
    }
  }

  /** A member added at the end overrides earlier ones of its name and hides no other name. */
  lemma {:induction false} LaterMemberWins(fields: seq<(string, Json)>, k: string, v: Json, other: string)
    requires other != k
    ensures Get(fields + [(k, v)], k) == Some(v)
    ensures Get(fields + [(k, v)], other) == Get(fields, other)
  {
    assert (fields + [(k, v)])[..|fields|] == fields;
  }

  function Join(parts: seq<string>): string {
    if parts == [] then []
    else if |parts| == 1 then parts[0]
    else parts[0] + ", " + Join(parts[1..])
  }

  /**
   * `repr(v)` for the value Python builds from JSON. Strings are shown in
   * single quotes without Python's choice of quote character or escaping.
   */
  function Repr(v: Json): (r: string)
    ensures r != []
    decreases v
  {
    match v
    case JNull => "None"
    case JBool(b) => if b then "True" else "False"
    case JInt(i) => PyStr.IntToStr(i)
    case JStr(s) => "'" + s + "'"
    case JArr(items) =>
      "[" + Join(seq(|items|, k requires 0 <= k < |items| => Repr(items[k]))) + "]"
    case JObj(fields) =>
      "{" + Join(seq(|fields|, k requires 0 <= k < |fields| => "'" + fields[k].0 + "': " + Repr(fields[k].1))) + "}"
  }

  /** `str(v)`: a string is itself, anything else its `repr`; a truthy value never gives "". */
  function Str(v: Json): (r: string)
    ensures Truthy(v) ==> r != []
    ensures v.JStr? ==> r == v.s
    ensures v.JInt? ==> r == PyStr.IntToStr(v.i)
    ensures v.JBool? ==> r == (if v.b then "True" else "False")
    ensures v.JNull? ==> r == "None"
  {
    match v
    case JStr(s) => s
    case _ => Repr(v)
  }
}

=== FILE: poller.dfy ===
/**
 * The polling side of work_module.py: one firing of `poll_job`, runs of
 * consecutive firings for one job, and `bender_resume_pending`.
 *
 * Scheduling is reduced to "armed with delay d": a firing either re-arms the
 * job once (`next` is `Some`) or ends it (`next` is `None`). Messages to the
 * requester and the two table writes are reported as effects, in order.
 */
module Poller {
  import opened Wrappers
  import opened Json
  import opened JobStore
  import Responses
  import PyStr

  /** `POLL_INTERVALS`, in seconds. */
  const POLL_INTERVALS: seq<nat> := [5, 10, 20, 30, 60, 120]

  /** `len(POLL_INTERVALS) - 1`, the last slot of the schedule. */
  const LAST_SLOT: nat := 5

  /** `PENDING_STATUSES`: exactly these four; any other non-empty status is final. */
  const PENDING_STATUSES: set<string> := {"PENDING", "IN_PROGRESS", "PROCESSING", "QUEUED"}

  const ERROR_STATUS: string := "ERROR"
  const TIMEOUT_STATUS: string := "TIMEOUT"

  /** `job.data`: whom to tell, which job, and which slot of the schedule this firing is. */
  datatype Task = Task(chatId: int, searchId: JobId, attempt: nat)

  /** A `run_once` registration: the task and the delay it fires after. */
  datatype Armed = Armed(task: Task, delay: nat)

  /** What the provider call of one firing produced: a decoded answer, or an exception. */
  datatype PollOutcome = Answered(res: Json) | Raised

  /** The three messages a job can end with. */
  datatype Notice = ResultReady(payload: Json) | CheckFailed | TimedOut

  /** The observable actions of one firing, in the order the source performs them. */
  datatype Effect =
    | RecordAttempt(attempt: nat, status: string)
    | Notify(chatId: int, searchId: JobId, notice: Notice)
    | RecordDone(status: string)

  datatype Step = Step(store: Store, effects: seq<Effect>, next: Option<Armed>)

  /** `_status_from_result(res) or ""`. */
  function PolledStatus(res: Json): string {
    Responses.StatusFromResult(res).GetOr("")
  }

  /** A status that does not end the job: empty, or one of the four pending values. */
  predicate KeepsWaiting(status: string) {
    status == "" || status in PENDING_STATUSES
  }

  /** The status a firing's outcome leaves, when it ends the job. */
  function FinalStatus(task: Task, outcome: PollOutcome): string {
    match outcome
    case Answered(res) => if KeepsWaiting(PolledStatus(res)) then TIMEOUT_STATUS else PolledStatus(res)
    case Raised => ERROR_STATUS
  }

  /** The message a firing's outcome sends, when it ends the job. */
  function FinalNotice(outcome: PollOutcome): Notice {
    match outcome
    case Answered(res) => if KeepsWaiting(PolledStatus(res)) then TimedOut else ResultReady(res)
    case Raised => CheckFailed
  }

  function CountNotices(es: seq<Effect>): (n: nat)
    ensures n <= |es|
    ensures (forall i :: 0 <= i < |es| ==> !es[i].Notify?) ==> n == 0
  {
    if es == [] then 0 else (if es[0].Notify? then 1 else 0) + CountNotices(es[1..])
  }

  lemma {:induction false} CountNoticesAppend(a: seq<Effect>, b: seq<Effect>)
    ensures CountNotices(a + b) == CountNotices(a) + CountNotices(b)
    decreases |a|
  {
    if a == [] {
      assert a + b == b;
    } else {
      assert (a + b)[1..] == a[1..] + b;
      CountNoticesAppend(a[1..], b);
    }
  }

  /** Sends the final message, then marks the row done; the job is not re-armed. */
  function Finish(st: Store, task: Task, before: seq<Effect>, status: string, notice: Notice): (s: Step)
    ensures s.next.None?
    ensures CountNotices(s.effects) == CountNotices(before) + 1
  {
    var ending := [Notify(task.chatId, task.searchId, notice), RecordDone(status)];
    EndingCount(before, ending);
    Step(MarkDone(st, task.searchId, status), before + ending, None)
  }

  lemma EndingCount(before: seq<Effect>, ending: seq<Effect>)
    requires |ending| == 2 && ending[0].Notify? && !ending[1].Notify?
    ensures CountNotices(before + ending) == CountNotices(before) + 1
  {
    CountNoticesAppend(before, ending);
    assert ending[1..][1..] == [];
  }

  /** Lines 235-247: count this attempt, then time out or re-arm at the next slot's delay. */
  function Reschedule(st: Store, task: Task, before: seq<Effect>): Step {
    var attempt := task.attempt + 1;
    if attempt >= |POLL_INTERVALS| then Finish(st, task, before, TIMEOUT_STATUS, TimedOut)
    else Step(st, before, Some(Armed(task.(attempt := attempt), POLL_INTERVALS[attempt])))
  }

  /**
   * One firing of `poll_job`. The job ends exactly when the provider gave a
   * final status or this firing used the last slot; an ending firing sends
   * one message and then marks the row done, any other firing re-arms the job
   * once, at the next slot, and marks nothing done.
   */
  function PollJob(st: Store, task: Task, outcome: PollOutcome, now: int): (s: Step)
    ensures s.store.Keys == st.Keys
    ensures s.next.None? <==>
      (outcome.Answered? && !KeepsWaiting(PolledStatus(outcome.res))) || task.attempt >= LAST_SLOT
    ensures CountNotices(s.effects) == (if s.next.None? then 1 else 0)
    ensures s.next.None? ==>
      && |s.effects| >= 2
      && s.effects[|s.effects| - 2] == Notify(task.chatId, task.searchId, FinalNotice(outcome))
      && s.effects[|s.effects| - 1] == RecordDone(FinalStatus(task, outcome))
    ensures s.next.None? && task.searchId in st ==>
      s.store[task.searchId].done && s.store[task.searchId].status == Some(FinalStatus(task, outcome))
    ensures s.next.Some? ==>
      && s.next.value.task == task.(attempt := task.attempt + 1)
      && task.attempt + 1 <= LAST_SLOT
      && s.next.value.delay == POLL_INTERVALS[task.attempt + 1]
    ensures s.next.Some? ==> forall k :: k in st ==> s.store[k].done == st[k].done
    ensures forall k :: k in st && k != task.searchId ==> s.store[k] == st[k]
    ensures outcome.Answered? && task.searchId in st ==> s.store[task.searchId].attempt == task.attempt
    ensures outcome.Raised? && task.searchId in st ==> s.store[task.searchId].attempt == st[task.searchId].attempt
    ensures outcome.Answered? ==> |s.effects| > 0 && s.effects[0] == RecordAttempt(task.attempt, PolledStatus(outcome.res))
    ensures outcome.Raised? ==> forall i :: 0 <= i < |s.effects| ==> !s.effects[i].RecordAttempt?
  {
    match outcome
    case Answered(res) => PollAnswered(st, task, res, now)
    case Raised => PollRaised(st, task)
  }

  /** Lines 220-233 and 235-247 of a firing whose provider call answered. */
  function PollAnswered(st: Store, task: Task, res: Json, now: int): (s: Step)
    ensures s.store.Keys == st.Keys
    ensures s.next.None? <==> !KeepsWaiting(PolledStatus(res)) || task.attempt >= LAST_SLOT
    ensures CountNotices(s.effects) == (if s.next.None? then 1 else 0)
    ensures s.effects == [RecordAttempt(task.attempt, PolledStatus(res))] + (if s.next.None? then
      [Notify(task.chatId, task.searchId, FinalNotice(Answered(res))), RecordDone(FinalStatus(task, Answered(res)))] else [])
    ensures s.next.None? && task.searchId in st ==>
      s.store[task.searchId].done && s.store[task.searchId].status == Some(FinalStatus(task, Answered(res)))
    ensures s.next.Some? ==>
      && s.next.value.task == task.(attempt := task.attempt + 1)
      && s.next.value.delay == POLL_INTERVALS[task.attempt + 1]
    ensures s.next.Some? ==> forall k :: k in st ==> s.store[k].done == st[k].done
    ensures forall k :: k in st && k != task.searchId ==> s.store[k] == st[k]
    ensures task.searchId in st ==> s.store[task.searchId].attempt == task.attempt
  {
    var status := PolledStatus(res);
    var st1 := MarkAttempt(st, task.searchId, task.attempt, status, now);
    var recorded := [RecordAttempt(task.attempt, status)];
    assert CountNotices(recorded) == 0 by {
      assert recorded[1..] == [];
    }
    if status !in PENDING_STATUSES && status != "" then
      Finish(st1, task, recorded, status, ResultReady(res))
    else
      Reschedule(st1, task, recorded)
  }

  /** Lines 229-233 and 235-247 of a firing whose provider call raised: nothing is recorded before the end. */
  function PollRaised(st: Store, task: Task): (s: Step)
    ensures s.store.Keys == st.Keys
    ensures s.next.None? <==> task.attempt >= LAST_SLOT
    ensures CountNotices(s.effects) == (if s.next.None? then 1 else 0)
    ensures s.effects == (if s.next.None? then
      [Notify(task.chatId, task.searchId, CheckFailed), RecordDone(ERROR_STATUS)] else [])
    ensures s.next.None? && task.searchId in st ==>
      s.store[task.searchId].done && s.store[task.searchId].status == Some(ERROR_STATUS)
    ensures s.next.Some? ==>
      && s.next.value.task == task.(attempt := task.attempt + 1)
      && s.next.value.delay == POLL_INTERVALS[task.attempt + 1]
    ensures s.next.Some? ==> s.store == st
    ensures forall k :: k in st && k != task.searchId ==> s.store[k] == st[k]
    ensures task.searchId in st ==> s.store[task.searchId].attempt == st[task.searchId].attempt
  {
    if task.attempt >= |POLL_INTERVALS| - 1 then
      Finish(st, task, [], ERROR_STATUS, CheckFailed)
    else
      Reschedule(st, task, [])
  }

  /** One scheduled firing: what the provider call produced, and the clock reading. */
  datatype Firing = Firing(outcome: PollOutcome, now: int)

  /** The state after a run of firings, and how many of them were consumed. */
  datatype Run = Run(store: Store, effects: seq<Effect>, next: Option<Armed>, polls: nat)

  /** Fire the armed job once per element of `fs` for as long as it stays armed. */
  function RunPolls(st: Store, a: Armed, fs: seq<Firing>): (r: Run)
    ensures r.store.Keys == st.Keys
    ensures r.polls <= |fs|
    ensures r.next.Some? ==> r.polls == |fs|
    decreases |fs|
  {
    if fs == [] then Run(st, [], Some(a), 0)
    else
      var s := PollJob(st, a.task, fs[0].outcome, fs[0].now);
      match s.next
      case None => Run(s.store, s.effects, None, 1)
      case Some(a') =>
        var r := RunPolls(s.store, a', fs[1..]);
        Run(r.store, s.effects + r.effects, r.next, r.polls + 1)
  }

  /** Along any run the slot counts up by one per firing and never leaves the schedule. */
  lemma {:induction false} RunStaysInSchedule(st: Store, a: Armed, fs: seq<Firing>)
    requires a.task.attempt <= LAST_SLOT
    ensures var r := RunPolls(st, a, fs);
      r.next.Some? ==>
        && r.next.value.task == a.task.(attempt := a.task.attempt + r.polls)
        && r.next.value.task.attempt <= LAST_SLOT
        && r.next.value.delay == (if r.polls == 0 then a.delay else POLL_INTERVALS[r.next.value.task.attempt])
    ensures RunPolls(st, a, fs).polls <= |POLL_INTERVALS| - a.task.attempt
    decreases |fs|
  {
    if fs != [] {
      var s := PollJob(st, a.task, fs[0].outcome, fs[0].now);
      if s.next.Some? {
        RunStaysInSchedule(s.store, s.next.value, fs[1..]);
      }
    }
  }

  /** Whatever the provider does, an armed job ends within `6 - attempt` firings. */
  lemma {:induction false} RunEndsWithinSchedule(st: Store, a: Armed, fs: seq<Firing>)
    requires a.task.attempt <= LAST_SLOT
    requires |fs| >= |POLL_INTERVALS| - a.task.attempt
    ensures RunPolls(st, a, fs).next.None?
    decreases |fs|
  {
    var s := PollJob(st, a.task, fs[0].outcome, fs[0].now);
    if s.next.Some? {
      RunEndsWithinSchedule(s.store, s.next.value, fs[1..]);
    }
  }

  /** A run sends a message exactly when it ends the job, and then exactly one. */
  lemma {:induction false} RunNotifiesOnce(st: Store, a: Armed, fs: seq<Firing>)
    ensures var r := RunPolls(st, a, fs);
      CountNotices(r.effects) == (if r.next.None? then 1 else 0)
    decreases |fs|
  {
    if fs != [] {
      var s := PollJob(st, a.task, fs[0].outcome, fs[0].now);
      if s.next.Some? {
        RunNotifiesOnce(s.store, s.next.value, fs[1..]);
        var r := RunPolls(s.store, s.next.value, fs[1..]);
        CountNoticesAppend(s.effects, r.effects);
      }
    }
  }

  /** A firing whose provider answer keeps the job waiting. */
  predicate PendingFiring(f: Firing) {
    f.outcome.Answered? && KeepsWaiting(PolledStatus(f.outcome.res))
  }

  /**
   * A job the provider keeps reporting as pending is still armed after
   * fewer than `6 - attempt` firings and times out on exactly the
   * `6 - attempt`-th; from attempt 0 that is exactly six polls.
   */
  lemma {:induction false} AlwaysPendingTimesOut(st: Store, a: Armed, fs: seq<Firing>)
    requires a.task.attempt <= LAST_SLOT
    requires a.task.searchId in st
    requires |fs| <= |POLL_INTERVALS| - a.task.attempt
    requires forall i :: 0 <= i < |fs| ==> PendingFiring(fs[i])
    ensures var r := RunPolls(st, a, fs);
      && r.polls == |fs|
      && (r.next.None? <==> |fs| == |POLL_INTERVALS| - a.task.attempt)
      && (r.next.None? ==> r.store[a.task.searchId].status == Some(TIMEOUT_STATUS) && r.store[a.task.searchId].done)
    decreases |fs|
  {
    if fs != [] {
      var s := PollJob(st, a.task, fs[0].outcome, fs[0].now);
      if s.next.Some? {
        assert forall i :: 0 <= i < |fs[1..]| ==> fs[1..][i] == fs[i + 1];
        AlwaysPendingTimesOut(s.store, s.next.value, fs[1..]);
      }
    }
  }

  /** A firing whose provider call raised. */
  predicate FailedFiring(f: Firing) {
    f.outcome.Raised?
  }

  /**
   * Exceptions end a job only on the last slot: a job whose every poll
   * raises stays armed, silently, until its sixth firing (from attempt 0),
   * which sends the failure message and marks it ERROR.
   */
  lemma {:induction false} AlwaysFailingErrorsOnLastSlot(st: Store, a: Armed, fs: seq<Firing>)
    requires a.task.attempt <= LAST_SLOT
    requires a.task.searchId in st
    requires |fs| <= |POLL_INTERVALS| - a.task.attempt
    requires forall i :: 0 <= i < |fs| ==> FailedFiring(fs[i])
    ensures var r := RunPolls(st, a, fs);
      && r.polls == |fs|
      && (r.next.None? <==> |fs| == |POLL_INTERVALS| - a.task.attempt)
      && (r.next.None? ==> r.store[a.task.searchId].status == Some(ERROR_STATUS) && r.store[a.task.searchId].done)
      && r.effects == (if r.next.None? then
           [Notify(a.task.chatId, a.task.searchId, CheckFailed), RecordDone(ERROR_STATUS)] else [])
    decreases |fs|
  {
    if fs != [] {
      var s := PollRaised(st, a.task);
      assert PollJob(st, a.task, fs[0].outcome, fs[0].now) == s;
      if s.next.Some? {
        assert forall i :: 0 <= i < |fs[1..]| ==> fs[1..][i] == fs[i + 1];
        AlwaysFailingErrorsOnLastSlot(s.store, s.next.value, fs[1..]);
        var r' := RunPolls(s.store, s.next.value, fs[1..]);
        assert [] + r'.effects == r'.effects;
      }
    }
  }

  /** `max(0, min(attempt, len(POLL_INTERVALS) - 1))`. */
  function Clamp(attempt: int): (c: nat)
    ensures c <= LAST_SLOT
    ensures 0 <= attempt <= LAST_SLOT ==> c == attempt
    ensures attempt < 0 ==> c == 0
    ensures attempt > LAST_SLOT ==> c == LAST_SLOT
  {
    if attempt < 0 then 0 else if attempt > LAST_SLOT then LAST_SLOT else attempt
  }

  /**
   * `bender_resume_pending`: one task per row that is not done, none for a
   * done row, each at its stored attempt clamped into the schedule and
   * armed with that slot's delay. It writes nothing to the table.
   */
  function Resume(st: Store): (arms: map<JobId, Armed>)
    ensures forall k :: k in arms <==> k in st && !st[k].done
    ensures forall k :: k in arms ==>
      && arms[k].task.searchId == k
      && arms[k].task.chatId == st[k].chatId
      && arms[k].task.attempt <= LAST_SLOT
      && arms[k].delay == POLL_INTERVALS[arms[k].task.attempt]
    ensures forall k :: k in arms && 0 <= st[k].attempt <= LAST_SLOT ==> arms[k].task.attempt == st[k].attempt
    ensures forall k :: k in arms ==> arms[k].task.attempt == Clamp(st[k].attempt)
  {
    var pending := GetPending(st);
    map k | k in pending :: Armed(Task(pending[k].chatId, k, Clamp(pending[k].attempt)), POLL_INTERVALS[Clamp(pending[k].attempt)])
  }

  /**
   * The stored attempt is the slot just polled, not the next one: after a
   * pending answer the live job is re-armed at the next slot, but a restart
   * at that point re-arms it at the same slot again.
   */
  lemma RestartRepeatsPolledSlot(st: Store, task: Task, res: Json, now: int)
    requires task.searchId in st && !st[task.searchId].done
    requires task.attempt < LAST_SLOT
    requires KeepsWaiting(PolledStatus(res))
    ensures var s := PollJob(st, task, Answered(res), now);
      && s.next.Some? && s.next.value.task.attempt == task.attempt + 1
      && task.searchId in Resume(s.store)
      && Resume(s.store)[task.searchId].task.attempt == task.attempt
  {
  }

  /** A pending answer used to drive the scenarios below. */
  const PENDING_ANSWER: Json := JObj([("status", JStr("PENDING"))])

  lemma PendingAnswerKeepsWaiting()
    ensures PolledStatus(PENDING_ANSWER) == "PENDING"
  {
    Responses.LoneStatusField("PENDING");
    PendingIsUpperCase();
  }

  lemma PendingIsUpperCase()
    ensures PyStr.Upper("PENDING") == "PENDING"
  {
    PyStr.UpperOfNoLower("PENDING");
  }

  /**
   * A row stored at attempt 4 and not done resumes at 60 s; a pending answer
   * re-arms it at 120 s while the row keeps attempt 4; a second pending
   * answer times it out.
   */
  lemma ResumeFromSlotFourTimesOut(st: Store, id: JobId, t1: int, t2: int)
    requires id in st && !st[id].done && st[id].attempt == 4
    ensures var arms := Resume(st);
      && id in arms && arms[id].delay == 60
      && var s1 := PollJob(st, arms[id].task, Answered(PENDING_ANSWER), t1);
      && s1.next.Some? && s1.next.value.delay == 120 && s1.store[id].attempt == 4
      && var s2 := PollJob(s1.store, s1.next.value.task, Answered(PENDING_ANSWER), t2);
      && s2.next.None? && s2.store[id].done && s2.store[id].status == Some(TIMEOUT_STATUS)
  {
    PendingAnswerKeepsWaiting();
  }

  // ---------------------------------------------------------------------
  // Line 247 as written

  /**
   * `poll_job` as line 247 has it: the re-arm calls `run_once` on the job
   * object, which has no such method, so the line raises `AttributeError`
   * outside the `try`. A firing that would re-arm the job ends with nothing
   * armed; what it did before that line stands: the attempt it recorded, and
   * nothing marked done or sent. A firing that ends the job is unaffected.
   */
  function PollJobAsWritten(st: Store, task: Task, outcome: PollOutcome, now: int): (s: Step)
    ensures s.next.None?
    ensures s.store == PollJob(st, task, outcome, now).store
    ensures s.effects == PollJob(st, task, outcome, now).effects
    ensures PollJob(st, task, outcome, now).next.Some? ==>
      && CountNotices(s.effects) == 0
      && forall k :: k in st ==> s.store[k].done == st[k].done
  {
    var s := PollJob(st, task, outcome, now);
    Step(s.store, s.effects, None)
  }

  /**
   * Process starts, as written: each resumes the pending rows, and the job
   * `id` is polled once with the answer of the next firing; nothing re-arms it
   * until the next start.
   */
  function RestartsAsWritten(st: Store, id: JobId, fs: seq<Firing>): (st': Store)
    ensures st'.Keys == st.Keys
    decreases |fs|
  {
    if fs == [] || id !in Resume(st) then st
    else RestartsAsWritten(PollJobAsWritten(st, Resume(st)[id].task, fs[0].outcome, fs[0].now).store, id, fs[1..])
  }

  /**
   * As written, a job the provider keeps reporting as pending is polled once
   * per process start, always at the slot it is stored at, and never times
   * out however many starts there are; the intended schedule times it out
   * within six polls (AlwaysPendingTimesOut).
   */
  lemma {:induction false} PendingNeverTimesOutAsWritten(st: Store, id: JobId, fs: seq<Firing>)
    requires id in st && !st[id].done && 0 <= st[id].attempt < LAST_SLOT
    requires forall i :: 0 <= i < |fs| ==> PendingFiring(fs[i])
    ensures var st' := RestartsAsWritten(st, id, fs);
      id in st' && !st'[id].done && st'[id].attempt == st[id].attempt
    decreases |fs|
  {
    if fs != [] {
      var arms := Resume(st);
      assert id in arms;
      var task := arms[id].task;
      assert task.attempt == st[id].attempt && task.searchId == id;
      var s := PollJobAsWritten(st, task, fs[0].outcome, fs[0].now);
      assert PollJob(st, task, fs[0].outcome, fs[0].now).next.Some?;
      assert forall i :: 0 <= i < |fs[1..]| ==> fs[1..][i] == fs[i + 1];
      PendingNeverTimesOutAsWritten(s.store, id, fs[1..]);
    }
  }

  /** A fresh job's first firing, given a pending answer, records attempt 0 and leaves nothing armed. */
  lemma FirstPendingFiringStrandsJobAsWritten(st: Store, chatId: int, id: JobId, res: Json, now: int)
    requires id in st && !st[id].done
    requires KeepsWaiting(PolledStatus(res))
    ensures var s := PollJobAsWritten(st, Task(chatId, id, 0), Answered(res), now);
      s.next.None? && !s.store[id].done && s.store[id].attempt == 0 && CountNotices(s.effects) == 0
    ensures PollJob(st, Task(chatId, id, 0), Answered(res), now).next.Some?
  {
  }
}

=== FILE: pystr.dfy ===
/**
 * The handful of Python `str` operations the bot's code calls, written out so
 * that the rest of the model can use them with Python's meaning: `strip`,
 * `lstrip(c)`, `upper`, `capitalize`, `replace`, `startswith`, `partition`,
 * `str(int)` and `int(str)`.
 *
 * Case mapping covers the ASCII letters only; every other character is left
 * as it is.
 */
module PyStr {
  import opened Wrappers

  /** `c.isspace()`: the characters Python's `str.strip()` removes. */
  predicate IsSpace(c: char) {
    || c == ' '
    || '\t' <= c <= '\r'
    || '\U{1C}' <= c <= '\U{1F}'
    || c == '\U{85}'
    || c == '\U{A0}'
    || c == '\U{1680}'
    || '\U{2000}' <= c <= '\U{200A}'
    || c == '\U{2028}'
    || c == '\U{2029}'
    || c == '\U{202F}'
    || c == '\U{205F}'
    || c == '\U{3000}'
  }

  /** `c` is one of the ten characters from code point `zero` on. */
  predicate InRun(c: char, zero: int) {
    zero <= c as int < zero + 10
  }

  /**
   * A decimal digit outside ASCII: the runs of ten that Unicode 15.0 puts in
   * general category Nd besides '0' to '9', each named by its zero.
   * `int()` accepts all of them.
   */
  predicate IsOtherDigit(c: char) {
    0x660 <= c as int && OtherDigitRuns(c)
  }

  predicate OtherDigitRuns(c: char) {
    || InRun(c, 0x660)
    || InRun(c, 0x6F0)
    || InRun(c, 0x7C0)
    || InRun(c, 0x966)
    || InRun(c, 0x9E6)
    || InRun(c, 0xA66)
    || InRun(c, 0xAE6)
    || InRun(c, 0xB66)
    || InRun(c, 0xBE6)
    || InRun(c, 0xC66)
    || InRun(c, 0xCE6)
    || InRun(c, 0xD66)
    || InRun(c, 0xDE6)
    || InRun(c, 0xE50)
    || InRun(c, 0xED0)
    || InRun(c, 0xF20)
    || InRun(c, 0x1040)
    || InRun(c, 0x1090)
    || InRun(c, 0x17E0)
    || InRun(c, 0x1810)
    || InRun(c, 0x1946)
    || InRun(c, 0x19D0)
    || InRun(c, 0x1A80)
    || InRun(c, 0x1A90)
    || InRun(c, 0x1B50)
    || InRun(c, 0x1BB0)
    || InRun(c, 0x1C40)
    || InRun(c, 0x1C50)
    || InRun(c, 0xA620)
    || InRun(c, 0xA8D0)
    || InRun(c, 0xA900)
    || InRun(c, 0xA9D0)
    || InRun(c, 0xA9F0)
    || InRun(c, 0xAA50)
    || InRun(c, 0xABF0)
    || InRun(c, 0xFF10)
    || InRun(c, 0x104A0)
    || InRun(c, 0x10D30)
    || InRun(c, 0x11066)
    || InRun(c, 0x110F0)
    || InRun(c, 0x11136)
    || InRun(c, 0x111D0)
    || InRun(c, 0x112F0)
    || InRun(c, 0x11450)
    || InRun(c, 0x114D0)
    || InRun(c, 0x11650)
    || InRun(c, 0x116C0)
    || InRun(c, 0x11730)
    || InRun(c, 0x118E0)
    || InRun(c, 0x11950)
    || InRun(c, 0x11C50)
    || InRun(c, 0x11D50)
    || InRun(c, 0x11DA0)
    || InRun(c, 0x11F50)
    || InRun(c, 0x16A60)
    || InRun(c, 0x16AC0)
    || InRun(c, 0x16B50)
    || InRun(c, 0x1D7CE)
    || InRun(c, 0x1D7D8)
    || InRun(c, 0x1D7E2)
    || InRun(c, 0x1D7EC)
    || InRun(c, 0x1D7F6)
    || InRun(c, 0x1E140)
    || InRun(c, 0x1E2F0)
    || InRun(c, 0x1E4F0)
    || InRun(c, 0x1E950)
    || InRun(c, 0x1FBF0)
  }

  /** `c.isdecimal()`: the characters `int()` reads as digits. */
  predicate IsDigit(c: char) {
    '0' <= c <= '9' || IsOtherDigit(c)
  }

  /** The zero of the run a non-ASCII digit belongs to. */
  function OtherDigitZero(c: char): (z: int)
    requires IsOtherDigit(c)
    ensures InRun(c, z)
  {
    if InRun(c, 0x660) then 0x660
    else if InRun(c, 0x6F0) then 0x6F0
    else if InRun(c, 0x7C0) then 0x7C0
    else if InRun(c, 0x966) then 0x966
    else if InRun(c, 0x9E6) then 0x9E6
    else if InRun(c, 0xA66) then 0xA66
    else if InRun(c, 0xAE6) then 0xAE6
    else if InRun(c, 0xB66) then 0xB66
    else if InRun(c, 0xBE6) then 0xBE6
    else if InRun(c, 0xC66) then 0xC66
    else if InRun(c, 0xCE6) then 0xCE6
    else if InRun(c, 0xD66) then 0xD66
    else if InRun(c, 0xDE6) then 0xDE6
    else if InRun(c, 0xE50) then 0xE50
    else if InRun(c, 0xED0) then 0xED0
    else if InRun(c, 0xF20) then 0xF20
    else if InRun(c, 0x1040) then 0x1040
    else if InRun(c, 0x1090) then 0x1090
    else if InRun(c, 0x17E0) then 0x17E0
    else if InRun(c, 0x1810) then 0x1810
    else if InRun(c, 0x1946) then 0x1946
    else if InRun(c, 0x19D0) then 0x19D0
    else if InRun(c, 0x1A80) then 0x1A80
    else if InRun(c, 0x1A90) then 0x1A90
    else if InRun(c, 0x1B50) then 0x1B50
    else if InRun(c, 0x1BB0) then 0x1BB0
    else if InRun(c, 0x1C40) then 0x1C40
    else if InRun(c, 0x1C50) then 0x1C50
    else if InRun(c, 0xA620) then 0xA620
    else if InRun(c, 0xA8D0) then 0xA8D0
    else if InRun(c, 0xA900) then 0xA900
    else if InRun(c, 0xA9D0) then 0xA9D0
    else if InRun(c, 0xA9F0) then 0xA9F0
    else if InRun(c, 0xAA50) then 0xAA50
    else if InRun(c, 0xABF0) then 0xABF0
    else if InRun(c, 0xFF10) then 0xFF10
    else if InRun(c, 0x104A0) then 0x104A0
    else if InRun(c, 0x10D30) then 0x10D30
    else if InRun(c, 0x11066) then 0x11066
    else if InRun(c, 0x110F0) then 0x110F0
    else if InRun(c, 0x11136) then 0x11136
    else if InRun(c, 0x111D0) then 0x111D0
    else if InRun(c, 0x112F0) then 0x112F0
    else if InRun(c, 0x11450) then 0x11450
    else if InRun(c, 0x114D0) then 0x114D0
    else if InRun(c, 0x11650) then 0x11650
    else if InRun(c, 0x116C0) then 0x116C0
    else if InRun(c, 0x11730) then 0x11730
    else if InRun(c, 0x118E0) then 0x118E0
    else if InRun(c, 0x11950) then 0x11950
    else if InRun(c, 0x11C50) then 0x11C50
    else if InRun(c, 0x11D50) then 0x11D50
    else if InRun(c, 0x11DA0) then 0x11DA0
    else if InRun(c, 0x11F50) then 0x11F50
    else if InRun(c, 0x16A60) then 0x16A60
    else if InRun(c, 0x16AC0) then 0x16AC0
    else if InRun(c, 0x16B50) then 0x16B50
    else if InRun(c, 0x1D7CE) then 0x1D7CE
    else if InRun(c, 0x1D7D8) then 0x1D7D8
    else if InRun(c, 0x1D7E2) then 0x1D7E2
    else if InRun(c, 0x1D7EC) then 0x1D7EC
    else if InRun(c, 0x1D7F6) then 0x1D7F6
    else if InRun(c, 0x1E140) then 0x1E140
    else if InRun(c, 0x1E2F0) then 0x1E2F0
    else if InRun(c, 0x1E4F0) then 0x1E4F0
    else if InRun(c, 0x1E950) then 0x1E950
    else 0x1FBF0
  }


  predicate IsLowerAscii(c: char) {
    'a' <= c <= 'z'
  }

  predicate IsUpperAscii(c: char) {
    'A' <= c <= 'Z'
  }

  /** Neither the first nor the last character is whitespace. */
  predicate NoEdgeSpace(s: string) {
    s == [] || (!IsSpace(s[0]) && !IsSpace(s[|s| - 1]))
  }

  predicate HasSpace(s: string) {
    exists i :: 0 <= i < |s| && IsSpace(s[i])
  }

  /** Visible ASCII text (no blank) holds no whitespace. */
  lemma VisibleAsciiHasNoSpace(s: string)
    requires forall i :: 0 <= i < |s| ==> '!' <= s[i] <= '~'
    ensures !HasSpace(s)
  {
  }

  predicate StartsWith(s: string, prefix: string) {
    |prefix| <= |s| && s[..|prefix|] == prefix
  }

  predicate Contains(s: string, c: char) {
    c in s
  }

  /** `s.lstrip(c)`: the longest suffix of `s` that does not start with `c`. */
  function LStripChar(s: string, c: char): (r: string)
    ensures |r| <= |s| && r == s[|s| - |r|..]
    ensures forall i :: 0 <= i < |s| - |r| ==> s[i] == c
    ensures r == [] || r[0] != c
  {
    if |s| > 0 && s[0] == c then LStripChar(s[1..], c) else s
  }

  /** `s.lstrip()`. */
  function LStripSpace(s: string): (r: string)
    ensures |r| <= |s| && r == s[|s| - |r|..]
    ensures forall i :: 0 <= i < |s| - |r| ==> IsSpace(s[i])
    ensures r == [] || !IsSpace(r[0])
  {
    if |s| > 0 && IsSpace(s[0]) then
      var r := LStripSpace(s[1..]);
      assert forall i :: 1 <= i < |s| - |r| ==> s[i] == s[1..][i - 1];
      r
    else s
  }

  /** `s.rstrip()`. */
  function RStripSpace(s: string): (r: string)
    ensures |r| <= |s| && r == s[..|r|]
    ensures forall i :: |r| <= i < |s| ==> IsSpace(s[i])
    ensures r == [] || !IsSpace(r[|r| - 1])
  {
    if |s| > 0 && IsSpace(s[|s| - 1]) then RStripSpace(s[..|s| - 1]) else s
  }

  /** `r` sits in `s` at offset `k`, with only whitespace before and after it. */
  predicate TrimmedAt(s: string, r: string, k: int) {
    0 <= k <= |s| - |r| && r == s[k..k + |r|]
    && (forall i :: 0 <= i < k ==> IsSpace(s[i]))
    && (forall i :: k + |r| <= i < |s| ==> IsSpace(s[i]))
  }

  /** `r` is `s` with a whitespace run cut from each end. */
  ghost predicate TrimmedOf(s: string, r: string) {
    exists k :: TrimmedAt(s, r, k)
  }

  /** `s.strip()`: the input without its edge whitespace, itself free of edge whitespace. */
  function Strip(s: string): (r: string)
    ensures TrimmedOf(s, r)
    ensures NoEdgeSpace(r)
    ensures |r| <= |s|
    ensures !HasSpace(s) ==> r == s
  {
    var l := LStripSpace(s);
    var r := RStripSpace(l);
    assert r == [] || !IsSpace(r[0]) by {
      if r != [] {
        assert r[0] == l[0];
      }
    }
    TrimmedFromEnds(s, l, r);
    r
  }

  /** A suffix after leading whitespace, cut before trailing whitespace, is a trim of the whole. */
  lemma TrimmedFromEnds(s: string, l: string, r: string)
    requires |l| <= |s| && l == s[|s| - |l|..]
    requires forall i :: 0 <= i < |s| - |l| ==> IsSpace(s[i])
    requires |r| <= |l| && r == l[..|r|]
    requires forall i :: |r| <= i < |l| ==> IsSpace(l[i])
    ensures TrimmedAt(s, r, |s| - |l|)
  {
    var k := |s| - |l|;
    assert r == s[k..k + |r|];
    forall i | k + |r| <= i < |s|
      ensures IsSpace(s[i])
    {
      assert s[i] == l[i - k];
    }
  }

  /**
   * Cutting whitespace from both ends until none is left at either has one
   * outcome, so the contract of `Strip` determines it.
   */
  lemma {:induction false} TrimmedIsUnique(s: string, r1: string, r2: string)
    requires TrimmedOf(s, r1) && NoEdgeSpace(r1)
    requires TrimmedOf(s, r2) && NoEdgeSpace(r2)
    ensures r1 == r2
  {
    var k1 :| TrimmedAt(s, r1, k1);
    var k2 :| TrimmedAt(s, r2, k2);
    if r1 != [] {
      assert !IsSpace(s[k1]);
      assert r2 != [];
      assert !IsSpace(s[k2]);
      assert !IsSpace(s[k1 + |r1| - 1]) && !IsSpace(s[k2 + |r2| - 1]);
      assert k1 == k2 && k1 + |r1| == k2 + |r2|;
    } else {
      assert r2 == [];
    }
  }

  function UpperChar(c: char): (u: char)
    ensures !IsLowerAscii(u)
    ensures !IsLowerAscii(c) ==> u == c
  {
    if IsLowerAscii(c) then (c as int - 32) as char else c
  }

  function LowerChar(c: char): (l: char)
    ensures !IsUpperAscii(l)
    ensures !IsUpperAscii(c) ==> l == c
  {
    if IsUpperAscii(c) then (c as int + 32) as char else c
  }

  /** `s.upper()`: same length, no lower-case letter left, other characters kept. */
  function Upper(s: string): (r: string)
    ensures |r| == |s|
    ensures forall i :: 0 <= i < |r| ==> !IsLowerAscii(r[i])
    ensures forall i :: 0 <= i < |s| && !IsLowerAscii(s[i]) ==> r[i] == s[i]
    ensures forall i :: 0 <= i < |s| ==> r[i] == UpperChar(s[i])
  {
    if s == [] then [] else [UpperChar(s[0])] + Upper(s[1..])
  }

  /** Text without lower-case letters is its own upper-case form. */
  lemma UpperOfNoLower(s: string)
    requires forall i :: 0 <= i < |s| ==> !IsLowerAscii(s[i])
    ensures Upper(s) == s
  {
  }

  /** `s.lower()`. */
  function Lower(s: string): (r: string)
    ensures |r| == |s|
    ensures forall i :: 0 <= i < |r| ==> !IsUpperAscii(r[i])
    ensures forall i :: 0 <= i < |s| && !IsUpperAscii(s[i]) ==> r[i] == s[i]
    ensures forall i :: 0 <= i < |s| ==> r[i] == LowerChar(s[i])
  {
    if s == [] then [] else [LowerChar(s[0])] + Lower(s[1..])
  }

  /** `s.capitalize()`: the first letter upper-cased and, unlike a title-case, every later letter lower-cased. */
  function Capitalize(s: string): (r: string)
    ensures |r| == |s|
    ensures r != [] ==> !IsLowerAscii(r[0])
    ensures forall i :: 1 <= i < |r| ==> !IsUpperAscii(r[i])
    ensures s != [] ==> r[0] == UpperChar(s[0])
    ensures forall i :: 1 <= i < |s| ==> r[i] == LowerChar(s[i])
  {
    if s == [] then [] else [UpperChar(s[0])] + Lower(s[1..])
  }

  /** Capitalizing twice is capitalizing once. */
  lemma CapitalizeIsIdempotent(s: string)
    ensures Capitalize(Capitalize(s)) == Capitalize(s)
  {
    var r := Capitalize(s);
    var rr := Capitalize(r);
    assert forall i :: 0 <= i < |s| ==> rr[i] == r[i] by {
      forall i | 0 <= i < |s|
        ensures rr[i] == r[i]
      {
        if i == 0 {
          assert rr[0] == UpperChar(r[0]);
        } else {
          assert rr[i] == LowerChar(r[i]);
        }
      }
    }
  }

  /** Capitalizing changes only case: the lower-case forms of input and output agree. */
  lemma CapitalizeKeepsLowerForm(s: string)
    ensures Lower(Capitalize(s)) == Lower(s)
  {
    var r := Capitalize(s);
    assert forall i :: 0 <= i < |s| ==> LowerChar(r[i]) == LowerChar(s[i]) by {
      forall i | 0 <= i < |s|
        ensures LowerChar(r[i]) == LowerChar(s[i])
      {
        if i == 0 {
          assert r[0] == UpperChar(s[0]);
        } else {
          assert r[i] == LowerChar(s[i]);
        }
      }
    }
  }

  /**
   * `s.replace(pat, rep)` for a non-empty `pat`: every occurrence found
   * left to right without overlap is replaced.
   */
  function ReplaceAll(s: string, pat: string, rep: string): (r: string)
    requires |pat| > 0
    decreases |s|
  {
    if |s| == 0 then []
    else if StartsWith(s, pat) then rep + ReplaceAll(s[|pat|..], pat, rep)
    else [s[0]] + ReplaceAll(s[1..], pat, rep)
  }

  /** `s.partition(" ")[2]`: what follows the first space, or "" when there is none. */
  function AfterFirstSpace(s: string): (r: string)
    ensures ' ' !in s ==> r == []
    ensures ' ' in s ==>
      var k := |s| - |r| - 1;
      0 <= k && s[k] == ' ' && ' ' !in s[..k] && r == s[k + 1..]
  {
    if s == [] then []
    else if s[0] == ' ' then s[1..]
    else AfterFirstSpace(s[1..])
  }

  function DigitChar(d: nat): (c: char)
    requires d < 10
    ensures '0' <= c <= '9' && IsDigit(c) && DigitValue(c) == d
  {
    ('0' as int + d) as char
  }

  /** The value of a digit: its distance from the zero of its run. */
  function DigitValue(c: char): (v: nat)
    requires IsDigit(c)
    ensures v < 10
  {
    if '0' <= c <= '9' then c as int - '0' as int else c as int - OtherDigitZero(c)
  }

  /** `str(n)` for a natural number: its decimal digits, without leading zeros. */
  function NatToStr(n: nat): (r: string)
    ensures |r| > 0
    ensures forall i :: 0 <= i < |r| ==> '0' <= r[i] <= '9'
    decreases n
  {
    if n < 10 then [DigitChar(n)] else NatToStr(n / 10) + [DigitChar(n % 10)]
  }

  /** `str(n)` for an integer. */
  function IntToStr(n: int): (r: string)
    ensures |r| > 0
    ensures !HasSpace(r)
  {
    if n < 0 then "-" + NatToStr(-n) else NatToStr(n)
  }

  /** Decimal digits, with single underscores allowed between digits, as `int()` accepts them. */
  predicate DigitRun(d: string) {
    && |d| > 0
    && IsDigit(d[0])
    && forall i :: 0 <= i < |d| ==> RunCharOk(d, i)
  }

  /** Position `i` holds a digit, or an underscore that a digit follows. */
  predicate RunCharOk(d: string, i: int)
    requires 0 <= i < |d|
  {
    IsDigit(d[i]) || (d[i] == '_' && i + 1 < |d| && IsDigit(d[i + 1]))
  }

  /** The number a digit run denotes; underscores are skipped. */
  function DigitRunValue(d: string): nat
    requires forall i :: 0 <= i < |d| ==> IsDigit(d[i]) || d[i] == '_'
  {
    if d == [] then 0
    else if d[|d| - 1] == '_' then DigitRunValue(d[..|d| - 1])
    else DigitRunValue(d[..|d| - 1]) * 10 + DigitValue(d[|d| - 1])
  }

  lemma DigitRunChars(d: string)
    requires DigitRun(d)
    ensures forall i :: 0 <= i < |d| ==> IsDigit(d[i]) || d[i] == '_'
  {
    forall i | 0 <= i < |d|
      ensures IsDigit(d[i]) || d[i] == '_'
    {
      assert RunCharOk(d, i);
    }
  }

  function ParseDigitRun(d: string): Option<nat> {
    if DigitRun(d) then
      DigitRunChars(d);
      Some(DigitRunValue(d))
    else None
  }

  /** A text that does not start with whitespace keeps its first character when stripped. */
  lemma StripKeepsFirst(s: string)
    requires |s| > 0 && !IsSpace(s[0])
    ensures |Strip(s)| > 0 && Strip(s)[0] == s[0]
  {
    assert LStripSpace(s) == s;
  }

  /** A text starting with '@' strips to one that does too, and '@' is no digit. */
  lemma AtStartsNoNumber(s: string, t: string)
    requires t == Strip(s)
    ensures |s| > 0 && s[0] == '@' ==> ParseStripped(t).None?
  {
    if |s| > 0 && s[0] == '@' {
      StripKeepsFirst(s);
      assert !IsDigit('@');
      assert ParseDigitRun(t).None?;
    }
  }

  /**
   * What any text `int()` accepts looks like once stripped: not empty, with at
   * least one digit, and nothing but digits and underscores after an
   * optional leading sign.
   */
  predicate IntegerShape(t: string) {
    && |t| > 0
    && (exists i :: 0 <= i < |t| && IsDigit(t[i]))
    && forall i :: 0 <= i < |t| ==> IsDigit(t[i]) || t[i] == '_' || (i == 0 && (t[i] == '-' || t[i] == '+'))
  }

  predicate AsciiDigits(s: string) {
    forall i :: 0 <= i < |s| ==> '0' <= s[i] <= '9'
  }

  /** A digit run, bare or after a sign, has the shape of an integer. */
  lemma RunsHaveIntegerShape(t: string)
    ensures DigitRun(t) ==> IntegerShape(t)
    ensures |t| > 0 && (t[0] == '-' || t[0] == '+') && DigitRun(t[1..]) ==> IntegerShape(t)
  {
    if DigitRun(t) {
      DigitRunChars(t);
    }
    if |t| > 0 && (t[0] == '-' || t[0] == '+') && DigitRun(t[1..]) {
      var d := t[1..];
      DigitRunChars(d);
      assert IsDigit(t[1]) by {
        assert t[1] == d[0];
      }
      forall i | 1 <= i < |t|
        ensures IsDigit(t[i]) || t[i] == '_'
      {
        assert t[i] == d[i - 1];
      }
    }
  }

  /** A non-empty text of ASCII digits is its own strip and a digit run that starts with no sign. */
  lemma AsciiDigitsAreARun(s: string)
    ensures |s| > 0 && AsciiDigits(s) ==> Strip(s) == s && DigitRun(s) && s[0] != '-' && s[0] != '+'
  {
    if |s| > 0 && AsciiDigits(s) {
      assert !HasSpace(s);
      forall i | 0 <= i < |s|
        ensures RunCharOk(s, i)
      {
        assert IsDigit(s[i]);
      }
    }
  }

  /**
   * `int(s)` in base 10: surrounding whitespace is ignored, one optional sign,
   * then a digit run. `None` stands for the `ValueError` Python raises.
   */
  function ParseInt(s: string): (r: Option<int>)
    ensures |s| > 0 && s[0] == '@' ==> r == None
    ensures r.Some? ==> IntegerShape(Strip(s))
    ensures r.Some? && r.value < 0 ==> Strip(s)[0] == '-'
    ensures |s| > 0 && AsciiDigits(s) ==> r.Some? && r.value >= 0
  {
    var t := Strip(s);
    AtStartsNoNumber(s, t);
    ParseStrippedShape(t);
    AsciiDigitsParse(s, t);
    ParseStripped(t)
  }

  /** A non-empty text of ASCII digits is read as a non-negative number. */
  lemma AsciiDigitsParse(s: string, t: string)
    requires t == Strip(s)
    ensures |s| > 0 && AsciiDigits(s) ==> ParseStripped(t).Some? && ParseStripped(t).value >= 0
  {
    AsciiDigitsAreARun(s);
  }

  /** What `ParseStripped` accepts has the shape of an integer, and only a leading "-" makes it negative. */
  lemma ParseStrippedShape(t: string)
    ensures ParseStripped(t).Some? ==> IntegerShape(t)
    ensures ParseStripped(t).Some? && ParseStripped(t).value < 0 ==> t[0] == '-'
  {
    RunsHaveIntegerShape(t);
  }

  /** `int()` on a text with no whitespace left at its ends: one optional sign, then a digit run. */
  function ParseStripped(t: string): Option<int> {
    if |t| > 0 && (t[0] == '-' || t[0] == '+') then
      match ParseDigitRun(t[1..])
      case None => None
      case Some(n) =>
        var v: int := if t[0] == '-' then -(n as int) else n;
        Some(v)
    else
      match ParseDigitRun(t)
      case None => None
      case Some(n) => Some(n)
  }

  lemma {:induction false} NatToStrValue(n: nat)
    ensures DigitRun(NatToStr(n))
    ensures DigitRunValue(NatToStr(n)) == n
    decreases n
  {
    var s := NatToStr(n);
    if n >= 10 {
      NatToStrValue(n / 10);
      var p := NatToStr(n / 10);
      assert s == p + [DigitChar(n % 10)];
      assert s[..|s| - 1] == p;
    }
  }

  /** `int(str(n)) == n`: the two conversions are inverse. */
  lemma ParseIntOfIntToStr(n: int)
    ensures ParseInt(IntToStr(n)) == Some(n)
  {
    if n < 0 {
      ParseIntOfNegative(n);
    } else {
      ParseIntOfNonNegative(n);
    }
  }

  lemma ParseIntOfNegative(n: int)
    requires n < 0
    ensures ParseInt(IntToStr(n)) == Some(n)
  {
    var s := IntToStr(n);
    ParseIntOfUnpadded(s);
    assert s == "-" + NatToStr(-n);
    ParseStrippedOfNegative(-n);
  }

  /** A text without whitespace is parsed as it stands. */
  lemma ParseIntOfUnpadded(s: string)
    requires !HasSpace(s)
    ensures ParseInt(s) == ParseStripped(s)
  {
  }

  lemma ParseStrippedOfNegative(m: nat)
    ensures ParseStripped("-" + NatToStr(m)) == Some(-(m as int))
  {
    var s := "-" + NatToStr(m);
    ParseDigitRunOfNatToStr(m);
    assert s[1..] == NatToStr(m);
  }

  lemma ParseIntOfNonNegative(n: int)
    requires n >= 0
    ensures ParseInt(IntToStr(n)) == Some(n)
  {
    var s := IntToStr(n);
    ParseIntOfUnpadded(s);
    ParseStrippedOfNat(n);
  }

  lemma ParseStrippedOfNat(m: nat)
    ensures ParseStripped(NatToStr(m)) == Some(m)
  {
    var s := NatToStr(m);
    ParseDigitRunOfNatToStr(m);
    assert '0' <= s[0] <= '9';
  }

  lemma ParseDigitRunOfNatToStr(n: nat)
    ensures ParseDigitRun(NatToStr(n)) == Some(n)
  {
    NatToStrValue(n);
  }

  /** Digits of other scripts count too: Arabic-Indic "١٠" reads as 10, as `int("١٠")` does. */
  lemma ArabicIndicDigitsParse()
    ensures ParseInt("\U{661}\U{660}") == Some(10)
  {
    var s := "\U{661}\U{660}";
    assert !HasSpace(s);
    assert s[..1] == "\U{661}";
    assert DigitRunValue(s[..1]) == DigitRunValue([]) * 10 + 1;
  }

  /** A text without a single digit is never an integer: `int()` raises on it. */
  lemma {:induction false} NoDigitIsNotAnInteger(s: string)
    requires forall i :: 0 <= i < |s| ==> !IsDigit(s[i])
    ensures ParseInt(s).None?
  {
    var t := Strip(s);
    NoDigitSurvivesTrim(s, t);
    NoDigitNoShape(t);
  }

  /** A trim of a text without digits has none either. */
  lemma NoDigitSurvivesTrim(s: string, t: string)
    requires forall i :: 0 <= i < |s| ==> !IsDigit(s[i])
    requires TrimmedOf(s, t)
    ensures forall i :: 0 <= i < |t| ==> !IsDigit(t[i])
  {
    var k :| TrimmedAt(s, t, k);
    forall i | 0 <= i < |t|
      ensures !IsDigit(t[i])
    {
      assert t[i] == s[k + i];
    }
  }

  lemma NoDigitNoShape(t: string)
    requires forall i :: 0 <= i < |t| ==> !IsDigit(t[i])
    ensures !IntegerShape(t)
  {
  }
}

=== FILE: ranks.dfy ===
/**
 * Rank commands and onboarding answers: bot.py keeps both in memory
 * (`onboarding_memory`, `user_ranks`); handlers/rank.py and
 * handlers/onboarding.py keep ranks in the `user_ranks` table of db.py.
 */
module Ranks {
  import opened Wrappers
  import opened Topics
  import PyStr
  import UserDb

  /** What `myrank` shows for a user without a rank. */
  const UNRANKED: string := "❌ Unranked"

  /** `" ".join(words)`. */
  function Unwords(words: seq<string>): string
    decreases |words|
  {
    if words == [] then []
    else if |words| == 1 then words[0]
    else words[0] + " " + Unwords(words[1..])
  }

  /**
   * Both `assign_rank` commands store `args[1].capitalize()`. Capitalizing
   * lower-cases every letter after the first, so neither "Inner Circle" nor
   * "OG Member" can ever be produced, and those ranks cannot be assigned.
   */
  lemma TopRanksUnreachableAsWritten(arg: string)
    ensures PyStr.Capitalize(arg) != "Inner Circle"
    ensures PyStr.Capitalize(arg) != "OG Member"
  {
    var c := PyStr.Capitalize(arg);
    assert |c| > 6 ==> !PyStr.IsUpperAscii(c[6]) && !PyStr.IsUpperAscii(c[1]);
    assert PyStr.IsUpperAscii("Inner Circle"[6]) && PyStr.IsUpperAscii("OG Member"[1]);
  }

  /** Asking for the top rank as written stores a rank with no table entry, which the id-table guards read as no topic at all. */
  lemma InnerCircleRequestLocksOutAsWritten()
    ensures PyStr.Capitalize("inner") == "Inner"
    ensures TopicsOf(PyStr.Capitalize("inner")) == []
  {
    var c := PyStr.Capitalize("inner");
    assert c[0] == PyStr.UpperChar('i') == 'I';
    assert PyStr.Lower("nner") == "nner";
    assert c == "Inner";
  }

  /** `a.lower() == b.lower()`, letter by letter. */
  predicate SameIgnoringCase(a: string, b: string) {
    |a| == |b| && forall i :: 0 <= i < |a| ==> PyStr.LowerChar(a[i]) == PyStr.LowerChar(b[i])
  }

  /** The first table rank that `arg` spells, ignoring case. */
  function MatchRank(names: seq<string>, arg: string): (r: Option<string>)
    ensures r.Some? ==> r.value in names && SameIgnoringCase(r.value, arg)
    ensures r.None? <==> forall i :: 0 <= i < |names| ==> !SameIgnoringCase(names[i], arg)
  {
    if names == [] then None
    else if SameIgnoringCase(names[0], arg) then Some(names[0])
    else
      var r := MatchRank(names[1..], arg);
      assert forall i :: 1 <= i < |names| ==> names[i] == names[1..][i - 1];
      r
  }

  /**
   * The rank an `/assignrank` is evidently meant to store for the rank words
   * it was given: the table rank they spell, ignoring case, and otherwise
   * the capitalized text, as the commands store any rank.
   */
  function AssignedRank(words: seq<string>): (r: string)
    ensures MatchRank(TABLE_RANKS, Unwords(words)).Some? ==>
      r in RANK_ACCESS_TOPICS && SameIgnoringCase(r, Unwords(words))
    ensures MatchRank(TABLE_RANKS, Unwords(words)).None? ==> r == PyStr.Capitalize(Unwords(words))
  {
    TableRanksAreKeys();
    match MatchRank(TABLE_RANKS, Unwords(words))
    case Some(k) => k
    case None => PyStr.Capitalize(Unwords(words))
  }

  /** The table ranks differ even ignoring case: by length, or for "Runner" and "Closer" by first letter. */
  lemma TableRanksDifferIgnoringCase(i: nat, j: nat)
    requires i < |TABLE_RANKS| && j < |TABLE_RANKS|
    requires SameIgnoringCase(TABLE_RANKS[i], TABLE_RANKS[j])
    ensures i == j
  {
    assert PyStr.LowerChar(TABLE_RANKS[1][0]) == 'r';
    assert PyStr.LowerChar(TABLE_RANKS[2][0]) == 'c';
  }

  /** Whatever case a table rank is spelled in, that rank is what gets stored. */
  lemma SpelledRankIsAssigned(i: nat, words: seq<string>)
    requires i < |TABLE_RANKS| && SameIgnoringCase(TABLE_RANKS[i], Unwords(words))
    ensures AssignedRank(words) == TABLE_RANKS[i]
  {
    var arg := Unwords(words);
    var m := MatchRank(TABLE_RANKS, arg);
    assert m.Some?;
    var j :| 0 <= j < |TABLE_RANKS| && TABLE_RANKS[j] == m.value;
    assert SameIgnoringCase(TABLE_RANKS[j], TABLE_RANKS[i]) by {
      assert SameIgnoringCase(TABLE_RANKS[j], arg);
    }
    TableRanksDifferIgnoringCase(j, i);
  }

  /** Every table rank can be assigned, by its exact name or in lower case. */
  lemma EveryRankIsAssignable(i: nat)
    requires i < |TABLE_RANKS|
    ensures AssignedRank([TABLE_RANKS[i]]) == TABLE_RANKS[i]
    ensures AssignedRank([PyStr.Lower(TABLE_RANKS[i])]) == TABLE_RANKS[i]
  {
    var k := TABLE_RANKS[i];
    assert Unwords([k]) == k;
    SpelledRankIsAssigned(i, [k]);
    var l := PyStr.Lower(k);
    assert Unwords([l]) == l;
    assert forall n :: 0 <= n < |k| ==> l[n] == PyStr.LowerChar(k[n]);
    SpelledRankIsAssigned(i, [l]);
  }

  /** "Inner Circle" typed as two lower-case words is assigned as the table rank. */
  lemma TwoWordRankIsAssignable()
    ensures AssignedRank(["inner", "circle"]) == "Inner Circle"
  {
    assert Unwords(["inner", "circle"]) == "inner circle";
    SpelledRankIsAssigned(3, ["inner", "circle"]);
  }

  // ---------------------------------------------------------------------
  // bot.py: onboarding answers and ranks in memory

  /** An `onboarding_memory` entry; `experience` and `interest` are absent until answered. */
  datatype Profile = Profile(
    username: Option<string>,
    firstName: Option<string>,
    learningPath: string,
    experience: Option<string>,
    interest: Option<string>)

  /**
   * `onboarding_memory`: the entries and the order their keys were first
   * inserted in, which decides who `next(...)` finds first.
   */
  datatype Memory = Memory(order: seq<int>, entries: map<int, Profile>)

  predicate Valid(m: Memory) {
    && (forall i :: 0 <= i < |m.order| ==> m.order[i] in m.entries)
    && (forall k :: k in m.entries ==> k in m.order)
    && (forall i, j :: 0 <= i < j < |m.order| ==> m.order[i] != m.order[j])
  }

  /** `memory[user] = profile`: a known key keeps its place, a new one goes last. */
  function Put(m: Memory, user: int, p: Profile): (m': Memory)
    requires Valid(m)
    ensures Valid(m')
    ensures m'.entries == m.entries[user := p]
    ensures user in m.entries ==> m'.order == m.order
    ensures user !in m.entries ==> m'.order == m.order + [user]
  {
    if user in m.entries then Memory(m.order, m.entries[user := p])
    else Memory(m.order + [user], m.entries[user := p])
  }

  /** The replies of `button_handler`, as labels. */
  datatype ButtonReply =
    | AskGoal
    | HelpReply
    | AskExperience(choice: string)
    | AskTarget
    | ShowSummary(p: Profile)
    | MissingKey
    | NoReply

  datatype ButtonStep = ButtonStep(memory: Memory, reply: ButtonReply)

  /** Which branch of `button_handler` a callback takes, tested in the source's order. */
  datatype ButtonKind = StartOnboarding | Help | Learn | Experience | Target | Other

  function Classify(data: string): ButtonKind {
    if data == "start_onboarding" then StartOnboarding
    else if data == "help" then Help
    else if PyStr.StartsWith(data, "learn_") then Learn
    else if PyStr.StartsWith(data, "exp_") then Experience
    else if PyStr.StartsWith(data, "target_") then Target
    else Other
  }

  /** The prefixes pick the branch: no exact callback starts with one, and no two prefixes overlap. */
  lemma ClassifyByPrefix(prefix: string, rest: string)
    ensures prefix == "learn_" ==> Classify(prefix + rest) == Learn
    ensures prefix == "exp_" ==> Classify(prefix + rest) == Experience
    ensures prefix == "target_" ==> Classify(prefix + rest) == Target
  {
    var d := prefix + rest;
    if prefix == "learn_" || prefix == "exp_" || prefix == "target_" {
      assert d[..|prefix|] == prefix;
      assert d[0] == prefix[0];
      assert |d| >= 4;
    }
  }

  /**
   * `button_handler`: a `learn_` answer replaces the user's whole entry, so any
   * earlier experience or interest is dropped; `exp_` and `target_` change one
   * field of an existing entry and fail with `KeyError` when there is none;
   * `target_` stores the interest before its summary fails on a missing experience.
   */
  function ButtonHandler(m: Memory, user: int, username: Option<string>, firstName: Option<string>,
                         data: string): (s: ButtonStep)
    requires Valid(m)
    ensures Valid(s.memory)
    ensures forall v :: v != user ==> (v in s.memory.entries <==> v in m.entries)
    ensures forall v :: v != user && v in m.entries ==> s.memory.entries[v] == m.entries[v]
    ensures Classify(data) == Learn ==>
      s.memory.entries == m.entries[user := Profile(username, firstName, PyStr.ReplaceAll(data, "learn_", ""), None, None)]
    ensures (Classify(data) == Experience || Classify(data) == Target) && user !in m.entries ==>
      s == ButtonStep(m, MissingKey)
    ensures Classify(data) == Experience && user in m.entries ==>
      s.memory.entries == m.entries[user := m.entries[user].(experience := Some(PyStr.ReplaceAll(data, "exp_", "")))]
    ensures Classify(data) == Target && user in m.entries ==>
      s.memory.entries == m.entries[user := m.entries[user].(interest := Some(PyStr.ReplaceAll(data, "target_", "")))]
      && (s.reply == MissingKey <==> m.entries[user].experience.None?)
    ensures Classify(data) !in {Learn, Experience, Target} ==> s.memory == m
  {
    match Classify(data)
    case StartOnboarding => ButtonStep(m, AskGoal)
    case Help => ButtonStep(m, HelpReply)
    case Learn =>
      var choice := PyStr.ReplaceAll(data, "learn_", "");
      ButtonStep(Put(m, user, Profile(username, firstName, choice, None, None)), AskExperience(choice))
    case Experience =>
      if user !in m.entries then ButtonStep(m, MissingKey)
      else
        var p := m.entries[user];
        ButtonStep(Put(m, user, p.(experience := Some(PyStr.ReplaceAll(data, "exp_", "")))), AskTarget)
    case Target =>
      if user !in m.entries then ButtonStep(m, MissingKey)
      else
        var p := m.entries[user].(interest := Some(PyStr.ReplaceAll(data, "target_", "")));
        ButtonStep(Put(m, user, p), if p.experience.None? then MissingKey else ShowSummary(p))
    case Other => ButtonStep(m, NoReply)
  }

  /** Answering the three questions in order leaves a complete entry and a summary. */
  lemma OnboardingInOrderCompletes(m: Memory, user: int, name: Option<string>, first: Option<string>,
                                   path: string, level: string, focus: string)
    requires Valid(m)
    ensures var s1 := ButtonHandler(m, user, name, first, "learn_" + path);
      var s2 := ButtonHandler(s1.memory, user, name, first, "exp_" + level);
      var s3 := ButtonHandler(s2.memory, user, name, first, "target_" + focus);
      s3.reply.ShowSummary?
  {
    ClassifyByPrefix("learn_", path);
    ClassifyByPrefix("exp_", level);
    ClassifyByPrefix("target_", focus);
  }

  /** A second `learn_` answer wipes the experience and interest given before. */
  lemma RelearningForgetsAnswers(m: Memory, user: int, name: Option<string>, first: Option<string>, path: string)
    requires Valid(m) && user in m.entries
    ensures var s := ButtonHandler(m, user, name, first, "learn_" + path);
      s.memory.entries[user].experience.None? && s.memory.entries[user].interest.None?
  {
    ClassifyByPrefix("learn_", path);
  }

  /** The first key, in insertion order, whose entry has username `name`. */
  function FirstNamed(order: seq<int>, entries: map<int, Profile>, name: string): (r: Option<int>)
    requires forall i :: 0 <= i < |order| ==> order[i] in entries
    ensures r.None? <==> forall i :: 0 <= i < |order| ==> entries[order[i]].username != Some(name)
    ensures r.Some? ==> exists i :: (0 <= i < |order| && order[i] == r.value && entries[r.value].username == Some(name)
      && forall j :: 0 <= j < i ==> entries[order[j]].username != Some(name))
  {
    if order == [] then None
    else if entries[order[0]].username == Some(name) then Some(order[0])
    else
      var r := FirstNamed(order[1..], entries, name);
      assert forall i :: 1 <= i < |order| ==> order[i] == order[1..][i - 1];
      if r.Some? then
        var i :| 0 <= i < |order[1..]| && order[1..][i] == r.value && entries[r.value].username == Some(name)
          && forall j :: 0 <= j < i ==> entries[order[1..][j]].username != Some(name);
        assert order[i + 1] == r.value;
        r
      else r
  }

  /** Replies of the rank commands, as labels. */
  datatype RankReply =
    | NotAuthorized
    | Usage
    | Assigned(rank: string)
    | Demoted(from: string)
    | NotFound
    | ShowRank(rank: string)

  /** The user `args[0]` names, read as `uid` with `if uid:`; user id 0 counts as not found. */
  function NamedUser(m: Memory, args: seq<string>): Option<int>
    requires Valid(m) && |args| >= 1
  {
    var uid := FirstNamed(m.order, m.entries, PyStr.LStripChar(args[0], '@'));
    if uid.Some? && uid.value != 0 then uid else None
  }

  /**
   * The shape both bot.py commands share: only the admin, with at least two
   * arguments, for a user found in memory by name; `rank` is what gets
   * stored. Nothing changes otherwise.
   */
  function BotAssign(m: Memory, ranks: map<int, string>, caller: int, args: seq<string>, rank: string): (r: (map<int, string>, RankReply))
    requires Valid(m)
    ensures caller != ADMIN_ID ==> r == (ranks, NotAuthorized)
    ensures caller == ADMIN_ID && |args| < 2 ==> r == (ranks, Usage)
    ensures caller == ADMIN_ID && |args| >= 2 && NamedUser(m, args).Some? ==>
      r == (ranks[NamedUser(m, args).value := rank], Assigned(rank))
    ensures caller == ADMIN_ID && |args| >= 2 && NamedUser(m, args).None? ==> r == (ranks, NotFound)
  {
    if caller != ADMIN_ID then (ranks, NotAuthorized)
    else if |args| < 2 then (ranks, Usage)
    else
      match NamedUser(m, args)
      case Some(uid) => (ranks[uid := rank], Assigned(rank))
      case None => (ranks, NotFound)
  }

  /** `args[1].capitalize()`, the rank both `assign_rank` commands store. */
  function RankArgAsWritten(args: seq<string>): string {
    if |args| >= 2 then PyStr.Capitalize(args[1]) else []
  }

  /**
   * bot.py `assign_rank` as written: the found user's rank becomes
   * `args[1].capitalize()`, the first rank word only, never a top rank.
   */
  function BotAssignRank(m: Memory, ranks: map<int, string>, caller: int, args: seq<string>): (r: (map<int, string>, RankReply))
    requires Valid(m)
    ensures caller != ADMIN_ID ==> r == (ranks, NotAuthorized)
    ensures caller == ADMIN_ID && |args| < 2 ==> r == (ranks, Usage)
    ensures caller == ADMIN_ID && |args| >= 2 && NamedUser(m, args).Some? ==>
      r == (ranks[NamedUser(m, args).value := PyStr.Capitalize(args[1])], Assigned(PyStr.Capitalize(args[1])))
    ensures caller == ADMIN_ID && |args| >= 2 && NamedUser(m, args).None? ==> r == (ranks, NotFound)
    ensures forall u :: u in r.0 && (u !in ranks || r.0[u] != ranks[u]) ==>
      r.0[u] != "Inner Circle" && r.0[u] != "OG Member"
  {
    TopRanksUnreachableAsWritten(if |args| >= 2 then args[1] else []);
    BotAssign(m, ranks, caller, args, RankArgAsWritten(args))
  }

  /** bot.py `assign_rank` as intended: the rank stored is the table rank the remaining words name. */
  function BotAssignRankIntended(m: Memory, ranks: map<int, string>, caller: int, args: seq<string>): (r: (map<int, string>, RankReply))
    requires Valid(m)
    ensures caller == ADMIN_ID && |args| >= 2 && NamedUser(m, args).Some? ==>
      r == (ranks[NamedUser(m, args).value := AssignedRank(args[1..])], Assigned(AssignedRank(args[1..])))
    ensures !(caller == ADMIN_ID && |args| >= 2 && NamedUser(m, args).Some?) ==>
      r == BotAssignRank(m, ranks, caller, args)
  {
    BotAssign(m, ranks, caller, args, if |args| >= 2 then AssignedRank(args[1..]) else [])
  }

  /**
   * "/assignrank @bob inner circle" for a known `bob`: as written bob is
   * stored as "Inner", a rank without topics; as intended he gets "Inner Circle".
   */
  lemma InnerCircleAssignmentDiffers(m: Memory, ranks: map<int, string>, args: seq<string>)
    requires Valid(m) && args == ["@bob", "inner", "circle"] && NamedUser(m, args).Some?
    ensures var uid := NamedUser(m, args).value;
      && BotAssignRank(m, ranks, ADMIN_ID, args).0[uid] == "Inner"
      && BotAssignRankIntended(m, ranks, ADMIN_ID, args).0[uid] == "Inner Circle"
      && TopicsOf("Inner") == []
  {
    InnerCircleRequestLocksOutAsWritten();
    assert args[1..] == ["inner", "circle"];
    TwoWordRankIsAssignable();
  }

  /** bot.py `demote`: removes the rank of a found user who has one; every other entry stays. */
  function BotDemote(m: Memory, ranks: map<int, string>, caller: int, args: seq<string>): (r: (map<int, string>, RankReply))
    requires Valid(m)
    ensures r.0 != ranks ==> caller == ADMIN_ID && |args| >= 1 && NamedUser(m, args).Some?
    ensures caller == ADMIN_ID && |args| >= 1 && NamedUser(m, args).Some? && NamedUser(m, args).value in ranks ==>
      var uid := NamedUser(m, args).value;
      r.0.Keys == ranks.Keys - {uid} && (forall u :: u in r.0 ==> r.0[u] == ranks[u])
      && r.1 == Demoted(ranks[uid])
    ensures caller == ADMIN_ID && |args| >= 1 && (NamedUser(m, args).None? || NamedUser(m, args).value !in ranks) ==>
      r == (ranks, NotFound)
  {
    if caller != ADMIN_ID then (ranks, NotAuthorized)
    else if |args| < 1 then (ranks, Usage)
    else
      match NamedUser(m, args)
      case Some(uid) =>
        if uid in ranks then (ranks - {uid}, Demoted(ranks[uid])) else (ranks, NotFound)
      case None => (ranks, NotFound)
  }

  /** bot.py `myrank`. */
  function BotMyRank(ranks: map<int, string>, user: int): (r: string)
    ensures user in ranks ==> r == ranks[user]
    ensures user !in ranks ==> r == UNRANKED
  {
    if user in ranks then ranks[user] else UNRANKED
  }

  /** Demoting then asking shows "Unranked" in bot.py, where demote forgets the rank. */
  lemma BotDemoteThenUnranked(m: Memory, ranks: map<int, string>, args: seq<string>)
    requires Valid(m) && |args| >= 1 && NamedUser(m, args).Some? && NamedUser(m, args).value in ranks
    ensures BotMyRank(BotDemote(m, ranks, ADMIN_ID, args).0, NamedUser(m, args).value) == UNRANKED
  {
  }

  // ---------------------------------------------------------------------
  // handlers/rank.py and handlers/onboarding.py: ranks in the database

  /** `uid` read with `if uid:`. */
  function Truthy(uid: Option<int>): Option<int> {
    if uid.Some? && uid.value != 0 then uid else None
  }

  /**
   * The shape of handlers/rank.py `assign_rank`; `found` is what the username
   * lookup returned, a function db.py does not define, and `rank` what gets
   * stored. Only an existing row changes.
   */
  function DbAssign(db: UserDb.Db, caller: int, args: seq<string>, found: Option<int>, rank: string): (r: (UserDb.Db, RankReply))
    ensures caller != ADMIN_ID || |args| < 2 || Truthy(found).None? ==> r.0 == db
    ensures caller == ADMIN_ID && |args| >= 2 && Truthy(found).Some? ==>
      r == (UserDb.SetUserRank(db, found.value, rank), Assigned(rank))
  {
    if caller != ADMIN_ID then (db, NotAuthorized)
    else if |args| < 2 then (db, Usage)
    else
      match Truthy(found)
      case Some(uid) => (UserDb.SetUserRank(db, uid, rank), Assigned(rank))
      case None => (db, NotFound)
  }

  /** handlers/rank.py `assign_rank` as written: an existing row gets `args[1].capitalize()`, never a top rank. */
  function DbAssignRank(db: UserDb.Db, caller: int, args: seq<string>, found: Option<int>): (r: (UserDb.Db, RankReply))
    ensures caller != ADMIN_ID || |args| < 2 || Truthy(found).None? ==> r.0 == db
    ensures caller == ADMIN_ID && |args| >= 2 && Truthy(found).Some? ==>
      r == (UserDb.SetUserRank(db, found.value, PyStr.Capitalize(args[1])), Assigned(PyStr.Capitalize(args[1])))
    ensures forall u :: u in db.users && r.0.users[u].rank != db.users[u].rank ==>
      r.0.users[u].rank != "Inner Circle" && r.0.users[u].rank != "OG Member"
  {
    TopRanksUnreachableAsWritten(if |args| >= 2 then args[1] else []);
    DbAssign(db, caller, args, found, RankArgAsWritten(args))
  }

  /** handlers/rank.py `assign_rank` as intended: an existing row gets the table rank the remaining words name. */
  function DbAssignRankIntended(db: UserDb.Db, caller: int, args: seq<string>, found: Option<int>): (r: (UserDb.Db, RankReply))
    ensures caller == ADMIN_ID && |args| >= 2 && Truthy(found).Some? ==>
      r == (UserDb.SetUserRank(db, found.value, AssignedRank(args[1..])), Assigned(AssignedRank(args[1..])))
    ensures !(caller == ADMIN_ID && |args| >= 2 && Truthy(found).Some?) ==> r.0 == db
  {
    DbAssign(db, caller, args, found, if |args| >= 2 then AssignedRank(args[1..]) else [])
  }

  /** The same command against the database: "Inner" as written, "Inner Circle" as intended. */
  lemma InnerCircleDbAssignmentDiffers(db: UserDb.Db, args: seq<string>, uid: int)
    requires args == ["@bob", "inner", "circle"] && uid != 0 && uid in db.users
    ensures UserDb.GetUserRank(DbAssignRank(db, ADMIN_ID, args, Some(uid)).0, uid) == Some("Inner")
    ensures UserDb.GetUserRank(DbAssignRankIntended(db, ADMIN_ID, args, Some(uid)).0, uid) == Some("Inner Circle")
  {
    InnerCircleRequestLocksOutAsWritten();
    assert args[1..] == ["inner", "circle"];
    TwoWordRankIsAssignable();
  }

  /** handlers/rank.py `demote`: a found user's rank becomes "Lookout"; the row is kept. */
  function DbDemote(db: UserDb.Db, caller: int, args: seq<string>, found: Option<int>): (r: (UserDb.Db, RankReply))
    ensures caller != ADMIN_ID || |args| < 1 || Truthy(found).None? ==> r.0 == db
    ensures caller == ADMIN_ID && |args| >= 1 && Truthy(found).Some? ==>
      r.0 == UserDb.SetUserRank(db, found.value, DEFAULT_RANK)
      && (found.value in db.users ==> UserDb.GetUserRank(r.0, found.value) == Some(DEFAULT_RANK))
  {
    if caller != ADMIN_ID then (db, NotAuthorized)
    else if |args| < 1 then (db, Usage)
    else
      match Truthy(found)
      case Some(uid) => (UserDb.SetUserRank(db, uid, DEFAULT_RANK), Demoted(DEFAULT_RANK))
      case None => (db, NotFound)
  }

  /** handlers/rank.py `myrank`: `get_user_rank(uid) or "❌ Unranked"`. */
  function DbMyRank(db: UserDb.Db, user: int): (r: string)
    ensures UserDb.GetUserRank(db, user).None? ==> r == UNRANKED
    ensures user in db.users && db.users[user].rank != [] ==> r == db.users[user].rank
  {
    match UserDb.GetUserRank(db, user)
    case Some(rank) => if rank != [] then rank else UNRANKED
    case None => UNRANKED
  }

  /** Unlike bot.py, a database demote keeps a rank: the user reads back "Lookout". */
  lemma DbDemoteThenLookout(db: UserDb.Db, args: seq<string>, uid: int)
    requires |args| >= 1 && uid != 0 && uid in db.users
    ensures DbMyRank(DbDemote(db, ADMIN_ID, args, Some(uid)).0, uid) == DEFAULT_RANK
  {
  }

  /**
   * handlers/onboarding.py `handle_chat_member_update`: any chat-member
   * update in the group (a join, but also a leave, a kick or a promotion)
   * creates the member at "Lookout" unless a row exists. Its follow-up
   * `set_user_rank` runs only when the rank reads back as `None`, which a
   * freshly created or existing row never does, so the update is exactly a create.
   */
  function ChatMemberUpdate(db: UserDb.Db, hasUpdate: bool, chat: int, user: int,
                            username: Option<string>, firstName: Option<string>): (db': UserDb.Db)
    ensures !hasUpdate || chat != GROUP_ID ==> db' == db
    ensures hasUpdate && chat == GROUP_ID ==>
      db' == UserDb.CreateUserIfNotExists(db, user, username, firstName)
      && UserDb.GetUserRank(db', user).Some?
    ensures hasUpdate && chat == GROUP_ID && user !in db.users ==> UserDb.GetUserRank(db', user) == Some(DEFAULT_RANK)
  {
    if !hasUpdate || chat != GROUP_ID then db
    else
      var db1 := UserDb.CreateUserIfNotExists(db, user, username, firstName);
      if UserDb.GetUserRank(db1, user).None? then UserDb.SetUserRank(db1, user, DEFAULT_RANK) else db1
  }
}

=== FILE: responses.dfy ===
/**
 * How the job tracker reads a provider answer: the job id after a
 * submission and the status after a poll (work_module.py, `_extract_search_id`
 * and `_status_from_result`). Both accept an object or a non-empty list whose
 * first element is an object, try a fixed list of keys at the top level, then
 * the same keys under `data`, and take the first truthy value.
 */
module Responses {
  import opened Wrappers
  import opened Json
  import PyStr

  const ID_KEYS: seq<string> := ["search_id", "id", "request_id", "ref"]
  const STATUS_KEYS: seq<string> := ["status", "state", "result_status", "decision"]

  /** The one nesting key the source looks under. */
  const NESTED_KEY: string := "data"

  /** The object a response is read from, if it has an acceptable shape. */
  function Envelope(res: Json): (r: Option<seq<(string, Json)>>)
    ensures r.Some? <==> res.JObj? || (res.JArr? && res.items != [] && res.items[0].JObj?)
    ensures res.JObj? ==> r == Some(res.fields)
    ensures res.JArr? && r.Some? ==> r == Some(res.items[0].fields)
  {
    match res
    case JObj(fields) => Some(fields)
    case JArr(items) => if items != [] && items[0].JObj? then Some(items[0].fields) else None
    case _ => None
  }

  /** The members under `data`, when `data` holds an object. */
  function Nested(top: seq<(string, Json)>): Option<seq<(string, Json)>> {
    match Get(top, NESTED_KEY)
    case Some(JObj(d)) => Some(d)
    case _ => None
  }

  /** A probe hits when the key is present with a truthy value. */
  predicate Hit(p: Option<Json>) {
    p.Some? && Truthy(p.value)
  }

  function GetAll(obj: seq<(string, Json)>, keys: seq<string>): (ps: seq<Option<Json>>)
    ensures |ps| == |keys|
    ensures forall i :: 0 <= i < |keys| ==> ps[i] == Get(obj, keys[i])
  {
    seq(|keys|, i requires 0 <= i < |keys| => Get(obj, keys[i]))
  }

  /**
   * Every lookup the source may make, in the order it makes them: each key at
   * the top level, then each key under `data`. A badly shaped response has none.
   */
  function Probes(res: Json, keys: seq<string>): seq<Option<Json>> {
    match Envelope(res)
    case None => []
    case Some(top) =>
      GetAll(top, keys) + (match Nested(top) case Some(d) => GetAll(d, keys) case None => [])
  }

  /** The value of the first probe that hits. */
  function FirstHit(ps: seq<Option<Json>>): (r: Option<Json>)
    ensures r.None? <==> forall i :: 0 <= i < |ps| ==> !Hit(ps[i])
    ensures r.Some? ==> Truthy(r.value)
    ensures r.Some? ==> exists i :: 0 <= i < |ps| && ps[i] == r && forall j :: 0 <= j < i ==> !Hit(ps[j])
  {
    if ps == [] then None
    else if Hit(ps[0]) then ps[0]
    else
      var r := FirstHit(ps[1..]);
      assert forall i :: 1 <= i < |ps| ==> ps[i] == ps[1..][i - 1];
      r
  }

  /** `for k in keys: v = obj.get(k); if v: return v`, the loop the source writes twice per extractor. */
  function FirstTruthy(obj: seq<(string, Json)>, keys: seq<string>): (r: Option<Json>)
    ensures r.Some? ==> Truthy(r.value)
    decreases |keys|
  {
    if keys == [] then None
    else
      var v := Get(obj, keys[0]);
      if v.Some? && Truthy(v.value) then v else FirstTruthy(obj, keys[1..])
  }

  /** The shared body of both extractors, before `str()`. */
  function Lookup(res: Json, keys: seq<string>): (r: Option<Json>)
    ensures r.Some? ==> Truthy(r.value)
  {
    match Envelope(res)
    case None => None
    case Some(top) =>
      var v := FirstTruthy(top, keys);
      if v.Some? then v
      else match Nested(top)
        case Some(d) => FirstTruthy(d, keys)
        case None => None
  }

  /** `_extract_search_id`: `str()` of the first hit, never the empty string; `None` when nothing hits. */
  function ExtractSearchId(res: Json): (r: Option<string>)
    ensures r.None? <==> forall i :: 0 <= i < |Probes(res, ID_KEYS)| ==> !Hit(Probes(res, ID_KEYS)[i])
    ensures r.Some? ==> r.value != [] && r == Some(Str(FirstHit(Probes(res, ID_KEYS)).value))
  {
    LookupIsFirstHit(res, ID_KEYS);
    match Lookup(res, ID_KEYS)
    case Some(v) => Some(Str(v))
    case None => None
  }

  /** `_status_from_result`: like the id, but upper-cased, so it never holds a lower-case letter. */
  function StatusFromResult(res: Json): (r: Option<string>)
    ensures r.None? <==> forall i :: 0 <= i < |Probes(res, STATUS_KEYS)| ==> !Hit(Probes(res, STATUS_KEYS)[i])
    ensures r.Some? ==> r.value != [] && r == Some(PyStr.Upper(Str(FirstHit(Probes(res, STATUS_KEYS)).value)))
    ensures r.Some? ==> forall i :: 0 <= i < |r.value| ==> !PyStr.IsLowerAscii(r.value[i])
  {
    LookupIsFirstHit(res, STATUS_KEYS);
    match Lookup(res, STATUS_KEYS)
    case Some(v) => Some(PyStr.Upper(Str(v)))
    case None => None
  }

  lemma {:induction false} FirstTruthyIsFirstHit(obj: seq<(string, Json)>, keys: seq<string>)
    ensures FirstTruthy(obj, keys) == FirstHit(GetAll(obj, keys))
    decreases |keys|
  {
    if keys != [] {
      FirstTruthyIsFirstHit(obj, keys[1..]);
      assert GetAll(obj, keys)[1..] == GetAll(obj, keys[1..]);
    }
  }

  lemma {:induction false} FirstHitAppend(a: seq<Option<Json>>, b: seq<Option<Json>>)
    ensures FirstHit(a + b) == if FirstHit(a).Some? then FirstHit(a) else FirstHit(b)
    decreases |a|
  {
    if a != [] {
      assert (a + b)[1..] == a[1..] + b;
      FirstHitAppend(a[1..], b);
    } else {
      assert a + b == b;
    }
  }

  /** The source's two nested loops try exactly the probes, in order, and return the first hit. */
  lemma LookupIsFirstHit(res: Json, keys: seq<string>)
    ensures Lookup(res, keys) == FirstHit(Probes(res, keys))
  {
    match Envelope(res)
    case None =>
    case Some(top) =>
      FirstTruthyIsFirstHit(top, keys);
      match Nested(top)
      case Some(d) =>
        FirstTruthyIsFirstHit(d, keys);
        FirstHitAppend(GetAll(top, keys), GetAll(d, keys));
      case None =>
        FirstHitAppend(GetAll(top, keys), []);
        assert GetAll(top, keys) + [] == GetAll(top, keys);
  }

  /** A one-element list around an object reads exactly like the object. */
  lemma ListWrapperIsTransparent(fields: seq<(string, Json)>, rest: seq<Json>)
    ensures ExtractSearchId(JArr([JObj(fields)] + rest)) == ExtractSearchId(JObj(fields))
    ensures StatusFromResult(JArr([JObj(fields)] + rest)) == StatusFromResult(JObj(fields))
  {
    assert Envelope(JArr([JObj(fields)] + rest)) == Envelope(JObj(fields));
    assert Probes(JArr([JObj(fields)] + rest), ID_KEYS) == Probes(JObj(fields), ID_KEYS);
    assert Probes(JArr([JObj(fields)] + rest), STATUS_KEYS) == Probes(JObj(fields), STATUS_KEYS);
  }

  /** Scalars, empty lists and lists whose head is not an object yield nothing. */
  lemma BadShapeYieldsNothing(res: Json)
    requires !res.JObj?
    requires !(res.JArr? && res.items != [] && res.items[0].JObj?)
    ensures ExtractSearchId(res) == None && StatusFromResult(res) == None
  {
  }

  /** Only `data` is looked into: an id nested under `result` is not found. */
  lemma ResultKeyIsNotSearched()
    ensures ExtractSearchId(JObj([("status", JStr("ok")), ("result", JObj([("search_id", JStr("100"))]))])) == None
  {
    var top := [("status", JStr("ok")), ("result", JObj([("search_id", JStr("100"))]))];
    assert Get(top, "data") == None;
    assert forall k :: k in ID_KEYS ==> Get(top, k) == None;
  }

  /** An id under `data` is found and stringified: `{"data": {"id": 100}}` gives "100". */
  lemma NestedIdIsFound()
    ensures ExtractSearchId(JObj([("data", JObj([("id", JInt(100))]))])) == Some("100")
  {
    var d := [("id", JInt(100))];
    var top := [("data", JObj(d))];
    assert forall k :: k in ID_KEYS ==> Get(top, k) == None;
    assert Nested(top) == Some(d);
    assert Get(d, "search_id") == None;
    assert Get(d, "id") == Some(JInt(100));
    assert FirstTruthy(top, ID_KEYS) == None;
    assert FirstTruthy(d, ID_KEYS) == Some(JInt(100));
    assert Lookup(JObj(top), ID_KEYS) == Some(JInt(100));
    HundredReadsBack();
    assert Str(JInt(100)) == "100";
  }

  lemma HundredReadsBack()
    ensures PyStr.NatToStr(100) == "100"
  {
    assert PyStr.NatToStr(1) == "1";
    assert PyStr.NatToStr(10) == "10";
  }

  /** Falsy values are skipped in key order: "" for `search_id` and 0 for `id` lose to `ref`. */
  lemma FalsyValuesAreSkipped()
    ensures ExtractSearchId(JObj([("search_id", JStr("")), ("id", JInt(0)), ("ref", JStr("r-7"))])) == Some("r-7")
  {
    var top := [("search_id", JStr("")), ("id", JInt(0)), ("ref", JStr("r-7"))];
    assert Get(top, "ref") == Some(JStr("r-7"));
    assert FirstTruthy(top, ["ref"]) == Some(JStr("r-7"));
    assert Get(top, "request_id") == None;
    assert FirstTruthy(top, ["request_id", "ref"]) == Some(JStr("r-7"));
    assert Get(top, "id") == Some(JInt(0));
    assert FirstTruthy(top, ["id", "request_id", "ref"]) == Some(JStr("r-7"));
    assert Get(top, "search_id") == Some(JStr(""));
    assert FirstTruthy(top, ID_KEYS) == Some(JStr("r-7"));
    assert Lookup(JObj(top), ID_KEYS) == Some(JStr("r-7"));
  }

  /** A lone `status` field is the status, upper-cased. */
  lemma LoneStatusField(v: string)
    requires v != []
    ensures StatusFromResult(JObj([("status", JStr(v))])) == Some(PyStr.Upper(v))
  {
    var top := [("status", JStr(v))];
    assert Get(top, "status") == Some(JStr(v));
    assert FirstTruthy(top, STATUS_KEYS) == Some(JStr(v));
  }

  /** A provider status is compared upper-cased: `{"status": "complete"}` reads as "COMPLETE". */
  lemma StatusIsUpperCased()
    ensures StatusFromResult(JObj([("status", JStr("complete"))])) == Some("COMPLETE")
  {
    LoneStatusField("complete");
    UpperOfComplete();
  }

  lemma UpperOfComplete()
    ensures PyStr.Upper("complete") == "COMPLETE"
  {
    var u := PyStr.Upper("complete");
    assert forall i :: 0 <= i < 8 ==> u[i] == PyStr.UpperChar("complete"[i]);
    assert u[0] == 'C' && u[1] == 'O' && u[2] == 'M' && u[3] == 'P' && u[4] == 'L' && u[5] == 'E' && u[6] == 'T' && u[7] == 'E';
  }
}

=== FILE: submission.dfy ===
/**
 * `searchdata_cmd` of work_module.py: build the request form from
 * `key=value` tokens, refuse it when a required key is missing or empty,
 * and, once the provider returned a job id, store the job and arm its first poll.
 */
module Submission {
  import opened Wrappers
  import opened Json
  import opened JobStore
  import PyStr
  import Responses
  import Poller

  /** Form values: the preset `search_type` is an int, everything parsed from tokens a string. */
  datatype FormValue = FormInt(n: int) | FormText(s: string)

  type Form = map<string, FormValue>

  const SEARCH_TYPE_KEY: string := "search_type"
  const SEARCH_TYPE: int := 22
  const REQUIRED: seq<string> := ["firstname", "lastname", "dob", "address", "city", "state", "zip"]

  /** Position of the first `c` in `s`. */
  function FirstIndex(s: string, c: char): (i: nat)
    requires c in s
    ensures i < |s| && s[i] == c && c !in s[..i]
  {
    if s[0] == c then 0
    else
      var j := FirstIndex(s[1..], c);
      assert s[..j + 1] == [s[0]] + s[1..][..j];
      j + 1
  }

  /**
   * `k, v = tok.split("=", 1)` with both halves stripped; tokens without
   * "=" are skipped by the source, which is `None` here.
   */
  function SplitToken(tok: string): (r: Option<(string, string)>)
    ensures r.None? <==> '=' !in tok
    ensures r.Some? ==> exists i :: (0 <= i < |tok| && tok[i] == '=' && '=' !in tok[..i]
      && r.value == (PyStr.Strip(tok[..i]), PyStr.Strip(tok[i + 1..])))
  {
    if '=' in tok then
      var i := FirstIndex(tok, '=');
      Some((PyStr.Strip(tok[..i]), PyStr.Strip(tok[i + 1..])))
    else None
  }

  /** The tokens split one by one. */
  function Pairs(tokens: seq<string>): (ps: seq<Option<(string, string)>>)
    ensures |ps| == |tokens|
    ensures forall i :: 0 <= i < |tokens| ==> ps[i] == SplitToken(tokens[i])
  {
    seq(|tokens|, i requires 0 <= i < |tokens| => SplitToken(tokens[i]))
  }

  /** The value of the last pair whose key is `k`. */
  function LastValue(ps: seq<Option<(string, string)>>, k: string): Option<string>
    decreases |ps|
  {
    if ps == [] then None
    else
      var p := ps[|ps| - 1];
      if p.Some? && p.value.0 == k then Some(p.value.1) else LastValue(ps[..|ps| - 1], k)
  }

  /** The value of the last token whose stripped key is `k`. */
  function LastValueFor(tokens: seq<string>, k: string): Option<string> {
    LastValue(Pairs(tokens), k)
  }

  /** The form the split pairs build, applied in order. */
  function FormOf(ps: seq<Option<(string, string)>>): (form: Form)
    ensures forall k :: k in form <==> k == SEARCH_TYPE_KEY || LastValue(ps, k).Some?
    ensures forall k :: LastValue(ps, k).Some? ==> form[k] == FormText(LastValue(ps, k).value)
    ensures LastValue(ps, SEARCH_TYPE_KEY).None? ==> form[SEARCH_TYPE_KEY] == FormInt(SEARCH_TYPE)
    decreases |ps|
  {
    if ps == [] then map[SEARCH_TYPE_KEY := FormInt(SEARCH_TYPE)]
    else
      var p := ps[|ps| - 1];
      var form := FormOf(ps[..|ps| - 1]);
      if p.Some? then form[p.value.0 := FormText(p.value.1)] else form
  }

  /**
   * The loop at lines 159-164: starts from `{"search_type": 22}` and lets
   * each `key=value` token overwrite its key, so the last token for a key wins;
   * a token may even overwrite `search_type` with a string.
   */
  function BuildForm(tokens: seq<string>): (form: Form)
    ensures forall k :: k in form <==> k == SEARCH_TYPE_KEY || LastValueFor(tokens, k).Some?
    ensures forall k :: LastValueFor(tokens, k).Some? ==> form[k] == FormText(LastValueFor(tokens, k).value)
    ensures LastValueFor(tokens, SEARCH_TYPE_KEY).None? ==> form[SEARCH_TYPE_KEY] == FormInt(SEARCH_TYPE)
  {
    FormOf(Pairs(tokens))
  }

  /** `form.get(k)` is truthy. */
  predicate Filled(form: Form, k: string) {
    k in form && match form[k] case FormInt(n) => n != 0 case FormText(s) => s != []
  }

  /** `a` is `b` with some elements left out: the rest keep their order and their repeats. */
  predicate IsSubsequence(a: seq<string>, b: seq<string>)
    decreases |b|
  {
    if a == [] then true
    else if b == [] then false
    else (a[0] == b[0] && IsSubsequence(a[1..], b[1..])) || IsSubsequence(a, b[1..])
  }

  /** `[k for k in keys if not form.get(k)]`: the missing keys, in the order of `keys`. */
  function MissingAmong(form: Form, keys: seq<string>): (m: seq<string>)
    ensures forall k :: k in m <==> k in keys && !Filled(form, k)
    ensures IsSubsequence(m, keys)
    ensures |m| <= |keys|
  {
    if keys == [] then []
    else
      var rest := MissingAmong(form, keys[1..]);
      if Filled(form, keys[0]) then rest
      else
        assert ([keys[0]] + rest)[1..] == rest;
        [keys[0]] + rest
  }

  function MissingKeys(form: Form): seq<string> {
    MissingAmong(form, REQUIRED)
  }

  /** The replies `searchdata_cmd` sends, as labels. */
  datatype Reply =
    | Usage
    | ParseError
    | MissingKeysReply(keys: seq<string>)
    | Submitted(searchId: Option<string>)
    | NoSearchId
    | SearchError

  datatype Outcome = Outcome(store: Store, replies: seq<Reply>, armed: Option<Poller.Armed>)

  /** Every check before the provider call passes. */
  predicate Accepted(text: string, tokens: Option<seq<string>>) {
    PyStr.AfterFirstSpace(text) != [] && tokens.Some? && MissingKeys(BuildForm(tokens.value)) == []
  }

  /**
   * `searchdata_cmd` for a message with text `text`; `tokens` is what
   * `shlex.split` made of the arguments (`None` when it raised) and `post`
   * what the submit call produced. A job is stored and its first poll armed,
   * at attempt 0 with the first delay, exactly when every check passed and
   * an id was found in the answer; otherwise the table is untouched.
   */
  function SearchData(st: Store, text: string, tokens: Option<seq<string>>, post: Poller.PollOutcome,
                      chatId: int, now: int): (o: Outcome)
    ensures o.armed.Some? <==>
      Accepted(text, tokens) && post.Answered? && Responses.ExtractSearchId(post.res).Some?
    ensures o.armed.Some? ==>
      var id := Responses.ExtractSearchId(post.res).value;
      && o.armed.value == Poller.Armed(Poller.Task(chatId, id, 0), Poller.POLL_INTERVALS[0])
      && o.store == AddPending(st, id, chatId, now)
    ensures o.armed.None? ==> o.store == st
    ensures PyStr.AfterFirstSpace(text) != [] && tokens.Some? && MissingKeys(BuildForm(tokens.value)) != [] ==>
      o.replies == [MissingKeysReply(MissingKeys(BuildForm(tokens.value)))]
  {
    var args := PyStr.AfterFirstSpace(text);
    if args == [] then Outcome(st, [Usage], None)
    else if tokens.None? then Outcome(st, [ParseError], None)
    else
      var missing := MissingKeys(BuildForm(tokens.value));
      if missing != [] then Outcome(st, [MissingKeysReply(missing)], None)
      else
        match post
        case Raised => Outcome(st, [SearchError], None)
        case Answered(res) =>
          var searchId := Responses.ExtractSearchId(res);
          if searchId.Some? && searchId.value != [] then
            Outcome(
              AddPending(st, searchId.value, chatId, now),
              [Submitted(searchId)],
              Some(Poller.Armed(Poller.Task(chatId, searchId.value, 0), Poller.POLL_INTERVALS[0])))
          else
            Outcome(st, [Submitted(searchId), NoSearchId], None)
  }

  /** A token without "=" changes nothing, whatever it is. */
  lemma {:induction false} TokenWithoutEqualsIsIgnored(tokens: seq<string>, junk: string)
    requires '=' !in junk
    ensures BuildForm(tokens + [junk]) == BuildForm(tokens)
  {
    assert Pairs(tokens + [junk]) == Pairs(tokens) + [None];
    assert (Pairs(tokens) + [None])[..|tokens|] == Pairs(tokens);
  }

  /** A token is split at its first "=": "city=a=b" sets `city` to "a=b". */
  lemma SplitsAtFirstEquals()
    ensures SplitToken("city=a=b") == Some(("city", "a=b"))
  {
    var tok := "city=a=b";
    assert tok[..4] == "city" && tok[5..] == "a=b";
    FirstEqualsOfSample();
    PyStr.VisibleAsciiHasNoSpace("city");
    PyStr.VisibleAsciiHasNoSpace("a=b");
  }

  lemma FirstEqualsOfSample()
    ensures FirstIndex("city=a=b", '=') == 4
  {
  }

  /** An empty value counts as missing: `zip=` is refused like an absent `zip`. */
  lemma EmptyValueIsMissing(tokens: seq<string>)
    requires LastValueFor(tokens, "zip") == Some("")
    ensures "zip" in MissingKeys(BuildForm(tokens))
  {
  }
}

=== FILE: topics.dfy ===
/**
 * The forum topics and which rank may post in which (utils/constants.py),
 * and the older table of bot.py that lists the same topics by name.
 */
module Topics {
  import opened Wrappers

  /** The group the guards watch and the bot owner, with their default values. */
  const GROUP_ID: int := -2286707356
  const ADMIN_ID: int := 6967780222

  const DEFAULT_RANK: string := "Lookout"
  const VALID_RANKS: seq<string> := ["Lookout", "Runner", "Closer", "Inner Circle", "OG Members"]

  const WELCOME: string := "Welcome To Scam's Plus - Start Here"
  const GENERAL: string := "General Chat"
  const WARNINGS: string := "Scammers Warnings"
  const ANNOUNCEMENTS: string := "Announcements"
  const ACADEMY: string := "Con Academy"
  const QUESTIONS: string := "Questions"
  const TOOLS: string := "Tools & Bots"
  const GUIDES: string := "Verified Guides"
  const VENDORS: string := "Verified Vendors / Collabs"
  const LAB: string := "Testing Lab"
  const VIP: string := "VIP Lounge"

  /** `topic_name_to_id`. */
  const TOPIC_NAME_TO_ID: map<string, int> := map[
    WELCOME := 2458, GENERAL := 2401, WARNINGS := 2408, ANNOUNCEMENTS := 2405,
    ACADEMY := 2406, QUESTIONS := 2411, TOOLS := 2404, GUIDES := 2403,
    VENDORS := 2407, LAB := 2454, VIP := 2402]

  /** `topic_name_to_id[name]` for the names the tables use. */
  function TopicId(name: string): int {
    if name in TOPIC_NAME_TO_ID then TOPIC_NAME_TO_ID[name] else 0
  }

  function TopicIds(names: seq<string>): (ids: seq<int>)
    ensures |ids| == |names|
    ensures forall i :: 0 <= i < |names| ==> ids[i] == TopicId(names[i])
  {
    seq(|names|, i requires 0 <= i < |names| => TopicId(names[i]))
  }

  const LOOKOUT_TOPICS: seq<string> := [WELCOME, GENERAL, WARNINGS, ANNOUNCEMENTS, ACADEMY, TOOLS, GUIDES]
  const RUNNER_TOPICS: seq<string> := [WELCOME, GENERAL, WARNINGS, ANNOUNCEMENTS, ACADEMY, QUESTIONS, TOOLS, GUIDES]
  const CLOSER_TOPICS: seq<string> :=
    [WELCOME, GENERAL, WARNINGS, ANNOUNCEMENTS, ACADEMY, QUESTIONS, TOOLS, GUIDES, VENDORS, LAB]
  const TOP_TOPICS: seq<string> :=
    [WELCOME, GENERAL, WARNINGS, ANNOUNCEMENTS, ACADEMY, QUESTIONS, TOOLS, GUIDES, VENDORS, LAB, VIP]

  /** The ranks that have an entry in the access tables, in table order. */
  const TABLE_RANKS: seq<string> := ["Lookout", "Runner", "Closer", "Inner Circle", "OG Member"]

  /** bot.py's `rank_access_topics`: topic names per rank, in dict order, which its guard walks. */
  const BOT_RANK_TOPICS: seq<(string, seq<string>)> := [
    ("Lookout", LOOKOUT_TOPICS), ("Runner", RUNNER_TOPICS), ("Closer", CLOSER_TOPICS),
    ("Inner Circle", TOP_TOPICS), ("OG Member", TOP_TOPICS)]

  /** utils/constants.py's `rank_access_topics`: the same lists through `topic_name_to_id`. */
  const RANK_ACCESS_TOPICS: map<string, seq<int>> := map[
    "Lookout" := TopicIds(LOOKOUT_TOPICS), "Runner" := TopicIds(RUNNER_TOPICS),
    "Closer" := TopicIds(CLOSER_TOPICS), "Inner Circle" := TopicIds(TOP_TOPICS),
    "OG Member" := TopicIds(TOP_TOPICS)]

  /** `rank_access_topics.get(rank, [])`: an unknown rank may post nowhere. */
  function TopicsOf(rank: string): seq<int> {
    if rank in RANK_ACCESS_TOPICS then RANK_ACCESS_TOPICS[rank] else []
  }

  predicate MayPost(rank: string, topic: int) {
    topic in TopicsOf(rank)
  }

  function IdSet(ids: seq<int>): set<int> {
    set i | i in ids
  }

  /** Each rank may post everywhere the rank below it may, and somewhere more; the sizes are 7, 8, 10 and 11. */
  lemma RanksAreStrictlyNested()
    ensures IdSet(TopicsOf("Lookout")) < IdSet(TopicsOf("Runner"))
    ensures IdSet(TopicsOf("Runner")) < IdSet(TopicsOf("Closer"))
    ensures IdSet(TopicsOf("Closer")) < IdSet(TopicsOf("Inner Circle"))
    ensures |TopicsOf("Lookout")| == 7 && |TopicsOf("Runner")| == 8
    ensures |TopicsOf("Closer")| == 10 && |TopicsOf("Inner Circle")| == 11
  {
    var lo, ru, cl, ic := TopicsOf("Lookout"), TopicsOf("Runner"), TopicsOf("Closer"), TopicsOf("Inner Circle");
    TableIds();
    assert 2411 in IdSet(ru) && 2411 !in IdSet(lo);
    assert 2407 in IdSet(cl) && 2407 !in IdSet(ru);
    assert 2402 in IdSet(ic) && 2402 !in IdSet(cl);
  }

  /** The id lists of the table, written out. */
  lemma TableIds()
    ensures TopicsOf("Lookout") == [2458, 2401, 2408, 2405, 2406, 2404, 2403]
    ensures TopicsOf("Runner") == [2458, 2401, 2408, 2405, 2406, 2411, 2404, 2403]
    ensures TopicsOf("Closer") == [2458, 2401, 2408, 2405, 2406, 2411, 2404, 2403, 2407, 2454]
    ensures TopicsOf("Inner Circle") == [2458, 2401, 2408, 2405, 2406, 2411, 2404, 2403, 2407, 2454, 2402]
  {
    LookoutIds();
    RunnerIds();
    CloserIds();
    TopIds();
  }

  lemma LookoutIds()
    ensures TopicIds(LOOKOUT_TOPICS) == [2458, 2401, 2408, 2405, 2406, 2404, 2403]
  {
  }

  lemma RunnerIds()
    ensures TopicIds(RUNNER_TOPICS) == [2458, 2401, 2408, 2405, 2406, 2411, 2404, 2403]
  {
  }

  lemma CloserIds()
    ensures TopicIds(CLOSER_TOPICS) == [2458, 2401, 2408, 2405, 2406, 2411, 2404, 2403, 2407, 2454]
  {
  }

  lemma TopIds()
    ensures TopicIds(TOP_TOPICS) == [2458, 2401, 2408, 2405, 2406, 2411, 2404, 2403, 2407, 2454, 2402]
  {
  }

  /** "Inner Circle" and "OG Member" grant the same topics. */
  lemma InnerCircleEqualsOgMember()
    ensures TopicsOf("Inner Circle") == TopicsOf("OG Member")
  {
  }

  /** No two topic names share an id. */
  lemma TopicIdsAreDistinct(a: string, b: string)
    requires a in TOPIC_NAME_TO_ID && b in TOPIC_NAME_TO_ID
    requires TOPIC_NAME_TO_ID[a] == TOPIC_NAME_TO_ID[b]
    ensures a == b
  {
  }

  /** Every id a rank grants is the id of a named topic. */
  lemma GrantedTopicsAreKnown(r: string, t: int)
    requires t in TopicsOf(r)
    ensures exists name :: name in TOPIC_NAME_TO_ID && TOPIC_NAME_TO_ID[name] == t
  {
    RanksAreStrictlyNested();
    assert t in IdSet(TopicsOf(r));
    assert t in IdSet(TopicsOf("Inner Circle"));
    var i :| 0 <= i < |TOP_TOPICS| && TopicsOf("Inner Circle")[i] == t;
    assert TOP_TOPICS[i] in TOPIC_NAME_TO_ID;
  }

  /** The default rank has an entry, but the valid rank "OG Members" does not: the table says "OG Member". */
  lemma OgMembersHasNoEntry()
    ensures DEFAULT_RANK in RANK_ACCESS_TOPICS
    ensures "OG Members" in VALID_RANKS && "OG Members" !in RANK_ACCESS_TOPICS
    ensures TopicsOf("OG Members") == []
  {
  }

  /** The table ranks are exactly the keys of the id table. */
  lemma TableRanksAreKeys()
    ensures forall k :: k in RANK_ACCESS_TOPICS <==> k in TABLE_RANKS
  {
  }

  /** bot.py's name table and the id table agree rank by rank, through `topic_name_to_id`. */
  lemma BotTableMatchesIdTable()
    ensures (set i | 0 <= i < |BOT_RANK_TOPICS| :: BOT_RANK_TOPICS[i].0) == RANK_ACCESS_TOPICS.Keys
    ensures forall i :: 0 <= i < |BOT_RANK_TOPICS| ==> TopicIds(BOT_RANK_TOPICS[i].1) == TopicsOf(BOT_RANK_TOPICS[i].0)
  {
    assert RANK_ACCESS_TOPICS.Keys == {"Lookout", "Runner", "Closer", "Inner Circle", "OG Member"};
    assert (set i | 0 <= i < |BOT_RANK_TOPICS| :: BOT_RANK_TOPICS[i].0) == {"Lookout", "Runner", "Closer", "Inner Circle", "OG Member"} by {
      assert BOT_RANK_TOPICS[0].0 == "Lookout" && BOT_RANK_TOPICS[1].0 == "Runner" && BOT_RANK_TOPICS[2].0 == "Closer";
      assert BOT_RANK_TOPICS[3].0 == "Inner Circle" && BOT_RANK_TOPICS[4].0 == "OG Member";
    }
  }
}

=== FILE: userdb.dfy ===
/**
 * The two tables of db.py, `user_ranks` and `onboarding`, as maps keyed by
 * user id. Each function changes only the row and the columns it names.
 */
module UserDb {
  import opened Wrappers

  /** The rank every new member starts with. */
  const LOOKOUT: string := "Lookout"

  /** A `user_ranks` row; Telegram may give no username or first name, stored as NULL. */
  datatype UserRow = UserRow(username: Option<string>, firstName: Option<string>, rank: string)

  /** An `onboarding` row; the writer never stores NULL, only strings, possibly "". */
  datatype OnboardingRow = OnboardingRow(learningPath: string, experience: string, interest: string)

  datatype Db = Db(users: map<int, UserRow>, onboarding: map<int, OnboardingRow>)

  /** Python truthiness of an optional string argument. */
  predicate Given(v: Option<string>) {
    v.Some? && v.value != []
  }

  /** `v or ""`. */
  function OrEmpty(v: Option<string>): (s: string)
    ensures Given(v) ==> s == v.value
    ensures !Given(v) ==> s == []
  {
    if Given(v) then v.value else []
  }

  /** `create_user_if_not_exists`: a new user gets a row at rank "Lookout"; an existing row is left alone. */
  function CreateUserIfNotExists(db: Db, user: int, username: Option<string>, firstName: Option<string>): (db': Db)
    ensures db'.users.Keys == db.users.Keys + {user}
    ensures user in db.users ==> db' == db
    ensures user !in db.users ==> db'.users[user] == UserRow(username, firstName, LOOKOUT)
    ensures forall u :: u in db.users && u != user ==> db'.users[u] == db.users[u]
    ensures db'.onboarding == db.onboarding
  {
    if user in db.users then db
    else db.(users := db.users[user := UserRow(username, firstName, LOOKOUT)])
  }

  /** `set_user_rank`: an UPDATE, so only an existing row's rank changes; an unknown user is a no-op. */
  function SetUserRank(db: Db, user: int, rank: string): (db': Db)
    ensures db'.users.Keys == db.users.Keys
    ensures user in db.users ==> db'.users[user] == db.users[user].(rank := rank)
    ensures user !in db.users ==> db' == db
    ensures forall u :: u in db.users && u != user ==> db'.users[u] == db.users[u]
    ensures db'.onboarding == db.onboarding
  {
    if user in db.users then db.(users := db.users[user := db.users[user].(rank := rank)])
    else db
  }

  /** `get_user_rank`: `None` exactly when the user has no row. */
  function GetUserRank(db: Db, user: int): (r: Option<string>)
    ensures r.None? <==> user !in db.users
    ensures r.Some? ==> r.value == db.users[user].rank
  {
    if user in db.users then Some(db.users[user].rank) else None
  }

  /** The row an update leaves: truthy arguments overwrite their column, falsy ones keep it. */
  function Merge(row: OnboardingRow, learningPath: Option<string>, experience: Option<string>, interest: Option<string>): OnboardingRow {
    OnboardingRow(
      if Given(learningPath) then learningPath.value else row.learningPath,
      if Given(experience) then experience.value else row.experience,
      if Given(interest) then interest.value else row.interest)
  }

  /**
   * `update_onboarding`: the first call inserts a row with "" for every falsy
   * argument; later calls overwrite only the columns whose argument is truthy.
   */
  function UpdateOnboarding(db: Db, user: int, learningPath: Option<string>, experience: Option<string>,
                            interest: Option<string>): (db': Db)
    ensures db'.onboarding.Keys == db.onboarding.Keys + {user}
    ensures db'.users == db.users
    ensures forall u :: u in db.onboarding && u != user ==> db'.onboarding[u] == db.onboarding[u]
    ensures user !in db.onboarding ==>
      db'.onboarding[user] == OnboardingRow(OrEmpty(learningPath), OrEmpty(experience), OrEmpty(interest))
    ensures user in db.onboarding ==>
      var old_ := db.onboarding[user];
      var new_ := db'.onboarding[user];
      && (Given(learningPath) ==> new_.learningPath == learningPath.value)
      && (!Given(learningPath) ==> new_.learningPath == old_.learningPath)
      && (Given(experience) ==> new_.experience == experience.value)
      && (!Given(experience) ==> new_.experience == old_.experience)
      && (Given(interest) ==> new_.interest == interest.value)
      && (!Given(interest) ==> new_.interest == old_.interest)
  {
    if user !in db.onboarding then
      db.(onboarding := db.onboarding[user := OnboardingRow(OrEmpty(learningPath), OrEmpty(experience), OrEmpty(interest))])
    else
      db.(onboarding := db.onboarding[user := Merge(db.onboarding[user], learningPath, experience, interest)])
  }

  /** The dict `get_onboarding_summary` returns; the onboarding columns are NULL without an onboarding row. */
  datatype Summary = Summary(
    firstName: Option<string>,
    username: Option<string>,
    learningPath: Option<string>,
    experience: Option<string>,
    interest: Option<string>)

  /**
   * `get_onboarding_summary`: a left join from `user_ranks`, so `None` exactly
   * when the user has no rank row, and the onboarding part is all `None`
   * exactly when there is no onboarding row.
   */
  function GetOnboardingSummary(db: Db, user: int): (r: Option<Summary>)
    ensures r.None? <==> user !in db.users
    ensures r.Some? ==> r.value.firstName == db.users[user].firstName && r.value.username == db.users[user].username
    ensures r.Some? && user !in db.onboarding ==>
      r.value.learningPath.None? && r.value.experience.None? && r.value.interest.None?
    ensures r.Some? && user in db.onboarding ==>
      r.value.learningPath == Some(db.onboarding[user].learningPath)
      && r.value.experience == Some(db.onboarding[user].experience)
      && r.value.interest == Some(db.onboarding[user].interest)
  {
    if user !in db.users then None
    else
      var row := db.users[user];
      if user in db.onboarding then
        var o := db.onboarding[user];
        Some(Summary(row.firstName, row.username, Some(o.learningPath), Some(o.experience), Some(o.interest)))
      else
        Some(Summary(row.firstName, row.username, None, None, None))
  }

  /** Creating a user twice is the same as creating it once. */
  lemma CreateIsIdempotent(db: Db, user: int, username: Option<string>, firstName: Option<string>)
    ensures CreateUserIfNotExists(CreateUserIfNotExists(db, user, username, firstName), user, username, firstName)
      == CreateUserIfNotExists(db, user, username, firstName)
  {
  }

  /** After a create, the rank read back is the one set last, or "Lookout" for a new user. */
  lemma RankReadsBackAfterCreate(db: Db, user: int, username: Option<string>, firstName: Option<string>, rank: string)
    ensures GetUserRank(CreateUserIfNotExists(db, user, username, firstName), user).Some?
    ensures user !in db.users ==> GetUserRank(CreateUserIfNotExists(db, user, username, firstName), user) == Some(LOOKOUT)
    ensures GetUserRank(SetUserRank(CreateUserIfNotExists(db, user, username, firstName), user, rank), user) == Some(rank)
  {
  }

  /** Setting a rank before the user row exists is lost: the later create still gives "Lookout". */
  lemma RankSetBeforeCreateIsLost(db: Db, user: int, rank: string, username: Option<string>, firstName: Option<string>)
    requires user !in db.users
    ensures GetUserRank(CreateUserIfNotExists(SetUserRank(db, user, rank), user, username, firstName), user) == Some(LOOKOUT)
  {
  }

  /**
   * Two updates that each give one field, in either order, leave the same
   * row once it exists: falsy arguments never erase an earlier answer.
   */
  lemma SeparateAnswersCommute(db: Db, user: int, path: string, exp: string)
    requires user in db.onboarding && path != [] && exp != []
    ensures UpdateOnboarding(UpdateOnboarding(db, user, Some(path), None, None), user, None, Some(exp), None)
      == UpdateOnboarding(UpdateOnboarding(db, user, None, Some(exp), None), user, Some(path), None, None)
  {
  }

  /** The summary shows what the last update wrote, as strings, "" for a field never answered. */
  lemma SummaryAfterFirstUpdate(db: Db, user: int, path: Option<string>)
    requires user in db.users && user !in db.onboarding
    ensures GetOnboardingSummary(UpdateOnboarding(db, user, path, None, None), user)
      == Some(Summary(db.users[user].firstName, db.users[user].username, Some(OrEmpty(path)), Some([]), Some([])))
  {
  }
}

=== FILE: wrappers.dfy ===
/** The Some/None type used wherever the source returns `None` or a value. */
module Wrappers {

  datatype Option<+T> = None | Some(value: T) {

    /** The value if there is one, otherwise `default` (Python's `x or default` on non-falsy payloads). */
    function GetOr(default: T): T {
      match this
      case Some(v) => v
      case None => default
    }
  }
}
